=== FILE: README.md ===
# Meeting-room booking rules, modelled in Dafny

The application is a Korean meeting-room booking web app (Next.js with a
Supabase database). Signed-in users book half-hour slots of a room on a
date; the home page also has a guest booking form, whose submission path is
modelled as written (its schema, as noted under "Left out", would stop it). Owners look up and export their reservations with a phone number
and a password, and administrators maintain the room list. Under the pages
and route handlers sits a layer of booking rules and list transformations
that is pure and deterministic, and this project models that layer:

- the slot grid and the interval overlap test (`generateTimeSlots`,
  `isOverlapping`), plus the proof that JavaScript's string `<` on zero-padded
  `HH:MM:SS` times is the order of the times. The code relies on that
  comparison throughout;
- the two booking forms:
  - the successor slot (`nextSlot`);
  - the `end > start` schema and the end-time auto-advance;
  - the guest field rules (name, `010-dddd-dddd` phone, password length);
  - the client-side overlap pre-check and what a submission sends;
  - the realtime refresh test;
- the reservation-create endpoint's decision tree:
  - session checks and required fields;
  - the database procedure's arguments;
  - mapping "overlap"/"conflict" errors to the double-booking message;
- grouping reservations by room (`getRoomsWithReservationsByDate`) and, in
  the monthly calendar, by date and then by room (`buildGroups`). The day
  matrix is cut into rows of seven;
- the reservation lookup endpoint:
  - `normalizeStatus` and `normalizeDate`;
  - the filter chain and the room map;
  - `sanitizeReservation`'s room fallback;
  - the fallback from the hashed-password procedure to the legacy query;
  - the `GET` and `POST` handlers;
- the "my reservations" page:
  - credential trimming and the room merge;
  - the status/date filter and the display order;
  - the empty-list notices;
  - the CSV export, with a reader proving that the export reads back as its
    rows;
- the room administration endpoint (create/update schemas, the server-error
  message, the status each method answers) and the admin page's list updates
  (load, save, delete).

Database answers, cookies, request bodies and the administrator check are
inputs of the model. The operations are pure functions over immutable
datatypes. Each file is one module:

- `wrappers.dfy`: `Option`;
- `strings.dfy`: string `<`, `trim`, ASCII `toLowerCase`, substring search;
- `seqs.dfy`: filter, map, first-seen-order grouping, chunking;
- `sorting.dfy`: a stable sort;
- `patterns.dfy`: anchored regular expressions;
- `clock.dfy`: `HH:MM:SS` times;
- `records.dfy`: the row types;
- one module for each source file of the core.

## Model

| member | source | states |
|---|---|---|
| TimeSlots.GridMembers | src/lib/utils.ts:15-21 | A time is in the grid exactly when its hour is from the start hour through the end hour, its minute is below 60 and reached from 0 in whole steps, and it is minute 0 when the hour is the end hour (the `break`) |
| TimeSlots.GridIncreasing | src/lib/utils.ts:15-16 | With a positive step the grid times strictly increase, so no time occurs twice |
| TimeSlots.GridEnds | src/lib/utils.ts:15-17 | For start hour ≤ end hour the grid is non-empty, starts at `start:00`, ends at `end:00`, and no time lies after `end:00` |
| TimeSlots.SlotShape | src/lib/utils.ts:18-20 | Every slot's value is its label followed by `:00`. The label is the zero-padded hour, a colon and the zero-padded minute. Below hour 100 the label has five characters and the value is a well-formed time |
| TimeSlots.SlotValueIsClock | src/lib/utils.ts:18-20 | A slot value denotes its minute of the day, in seconds, and its first five characters are its label |
| TimeSlots.SlotValuesIncrease | src/lib/utils.ts:15-20 | For end hours below 100 the slot values strictly increase under string `<`, so the pickers list no value twice |
| TimeSlots.DefaultGrid | src/lib/utils.ts:9-23 | `generateTimeSlots(9, 18, 30)` visits 19 times; the k-th is hour 9 + k/2, minute 30·(k mod 2) |
| TimeSlots.DefaultGridEnds | src/app/home-client-page.tsx:238 | The pickers' grid has 19 slots, from `09:00:00` to `18:00:00` |
| TimeSlots.OverlapSymmetric | src/lib/utils.ts:26-33 | The overlap test does not depend on which interval comes first |
| TimeSlots.TouchingDoNotOverlap | src/lib/utils.ts:32 | Intervals are half-open: one ending where the other starts does not overlap it |
| TimeSlots.OverlapIsNumeric | src/lib/utils.ts:32 | On well-formed times the string test is the integer interval-intersection test on seconds |
| TimeSlots.OverlapIsSharedSecond | src/lib/utils.ts:32 | For two non-empty intervals the test holds exactly when some second lies in both |
| TimeSlots.EmptyIntervalInsideOverlaps | src/lib/utils.ts:32 | A zero-length interval strictly inside another is reported as overlapping it |
| Clock.LexLessIsTimeOrder | src/app/home-client-page.tsx:217 | On zero-padded `HH:MM:SS` strings, JavaScript's string `<` is exactly the order of the times |
| Clock.SecondsInjective | src/app/home-client-page.tsx:254 | Two well-formed times are the same string exactly when they denote the same second, so `<=` on the strings is `<=` on the times |
| BookingForm.FindIndex | src/app/home-client-page.tsx:336 | `findIndex` is -1 exactly when no slot has the value, otherwise the first position that has it |
| BookingForm.NextSlot | src/app/home-client-page.tsx:335-338 | The successor slot: the slot after the first one holding the value; the last slot maps to itself; an unknown value maps to the first slot; the result is always a slot of the grid |
| BookingForm.NextSlotIsLater | src/app/page.tsx:253-256 | On an increasing grid the successor of a slot that is not the last is the next slot, and strictly later |
| BookingForm.ValidateTimes | src/app/home-client-page.tsx:214-220 | The schema accepts exactly when `start < end`, and otherwise reports the one error on `end` |
| BookingForm.ValidateTimesIsTimeOrder | src/app/home-client-page.tsx:217 | For well-formed times the schema accepts exactly when the end is later in the day than the start |
| BookingForm.DefaultsValid | src/app/home-client-page.tsx:248 | The default values 09:00:00–09:30:00 pass the schema |
| BookingForm.AfterStartChangeValid | src/app/home-client-page.tsx:252-255 | After the auto-advance the form passes the schema, whenever the start is not the last slot |
| BookingForm.AfterStartChangeAtLastSlot | src/app/home-client-page.tsx:252-255 | With the start on the last slot and the end not after it, the end becomes the start and the schema rejects the form |
| BookingForm.Busy | src/app/home-client-page.tsx:166 | The busy list is exactly the room's reservations' (start, end) pairs, in order |
| BookingForm.PreCheckFindsReservation | src/app/home-client-page.tsx:260 | The pre-check reports a clash exactly when some reservation of the room overlaps the chosen interval |
| BookingForm.SubmitSignedIn | src/app/home-client-page.tsx:258 | Without a session the signed-in form sends nothing and does not call `onDone` |
| BookingForm.SignedInSendsIff | src/app/home-client-page.tsx:257-272 | A request leaves the signed-in form exactly when there is a session and no busy interval overlaps; it carries the form's room, date and times and no contact details |
| BookingForm.SendUnlessBusy | src/app/home-client-page.tsx:260-271 | A clash is reported as "already reserved" without a request; otherwise the request is sent, and the service's success or error is relayed to `onDone`; a rejected service call leaves `onDone` uncalled |
| BookingForm.SubmissionOutcome | src/app/home-client-page.tsx:260-271 | A submission that goes ahead calls `onDone` unless a request went out and the service promise rejected (the fetch failed, or a successful answer was not JSON), in which case `onDone` is never called. A submission that sends nothing reports failure, and success is reported exactly when a request went out and the service succeeded |
| BookingForm.PrimaryAction | src/app/home-client-page.tsx:325-329 | The form offers submitting exactly with a session; otherwise only the way to `/login` |
| BookingForm.ValidateGuestFields | src/app/page.tsx:149-151 | A guest field is reported exactly when its rule fails: non-empty name, phone `010-dddd-dddd`, password of at least four UTF-16 code units (as zod's `min(4)` counts JavaScript `length`, so two characters outside the basic plane suffice). There are no errors exactly when all three hold |
| BookingForm.SubmitGuest | src/app/page.tsx:191-204 | Once called, the guest form's `onSubmit` sends a request exactly when nothing busy overlaps, and the request carries the contact details |
| BookingForm.ShouldRefreshCases | src/app/page.tsx:60-61 | A realtime change refreshes when its new row's date, or failing that its old row's date, is the selected date, or when it carries no date at all |
| Patterns.PhonePatternMeaning | src/app/page.tsx:150 | `/^010-\d{4}-\d{4}$/` matches exactly the 13-character strings `010-`, four digits, `-`, four digits |
| Patterns.DatePatternMeaning | src/app/api/my-reservations/route.ts:56 | `/^\d{4}-\d{2}-\d{2}$/` matches exactly `DDDD-DD-DD` with ASCII digits |
| Patterns.UuidPatternMeaning | src/app/api/admin/rooms/route.ts:13 | The UUID check accepts exactly 36 characters with dashes at 8, 13, 18, 23 and hexadecimal digits elsewhere |
| CreateReservation.HandleCreate | src/app/api/reservations/route.ts:5-47 | The procedure is only called with a session user id and all four fields present, and its user id is the session's; the status is always 200, 400, 401 or 500 |
| CreateReservation.SessionChecks | src/app/api/reservations/route.ts:9-17 | No cookie gives 401 "Not authenticated" and a session without a user id gives 401 "Invalid session", whatever the body. An unreadable cookie gives 500. None of them calls the procedure |
| CreateReservation.MissingFieldIsRefused | src/app/api/reservations/route.ts:20-23 | With a valid session, a missing or empty field gives 400 before the procedure is called |
| CreateReservation.RpcCallIff | src/app/api/reservations/route.ts:26-33 | The procedure is called exactly when the session has a user id and the body has all four fields. The call uses the body's fields and the session's user id |
| CreateReservation.RpcOutcome | src/app/api/reservations/route.ts:35-46 | Data is returned unchanged with 200, a procedure error is mapped with 400, and a thrown error gives 500 with its message or the default |
| CreateReservation.ConflictAsDoubleBookedMeaning | src/app/api/reservations/route.ts:36-38 | The error becomes the double-booking message exactly when it mentions "overlap" or "conflict" in any letter case (or is that message); otherwise it is kept |
| CreateReservation.MissingRpcMessage | src/app/api/reservations/route.ts:36 | An error without a message gets the default text, which the overlap/conflict test leaves alone |
| RoomGrouping.WithReservations | src/lib/services/rooms.ts:41-42 | One entry per room, in the rooms' order, each with the room unchanged |
| RoomGrouping.Bucket | src/lib/services/rooms.ts:35-43 | A room's list is the input reservations with its id, in input order, then sorted by start time |
| RoomGrouping.RoomListContents | src/lib/services/rooms.ts:35-43 | Each reservation occurs in a room's list as often as in the input if it has the room's id, and not at all otherwise |
| RoomGrouping.OrphansDropped | src/lib/services/rooms.ts:41-43 | A reservation whose room id names no room appears in no room's list |
| RoomGrouping.EmptyRoom | src/lib/services/rooms.ts:43 | A room with no reservation gets the empty list |
| RoomGrouping.RoomListSorted | src/lib/services/rooms.ts:43-45 | Each room's list is in ascending start-time order |
| RoomGrouping.RoomListStable | src/lib/services/rooms.ts:43-45 | Reservations of a room with the same start time keep their input order |
| Sorting.SortByStable | src/lib/services/rooms.ts:43-45 | The sort is stable: each tie class appears in the output in input order |
| Sorting.SortBySorted | src/components/reservations/calendar/monthly-reservation-calendar.tsx:159-161 | Under a total preorder the sort's output is ordered |
| MonthlyCalendar.RoomLookup | src/components/reservations/calendar/monthly-reservation-calendar.tsx:43-49 | The lookup finds a room exactly when one has the id, and then the last such room in list order |
| MonthlyCalendar.ByDateContents | src/components/reservations/calendar/monthly-reservation-calendar.tsx:51-60 | A date's bucket is the reservations of that date in input order, each of that date, and the buckets together hold every reservation once |
| MonthlyCalendar.DayMatrixShape | src/components/reservations/calendar/monthly-reservation-calendar.tsx:62-83 | Read row by row, the matrix is the day list, each day with the groups of its own reservations. Every row but the last has seven days, and all do when the day count is a multiple of seven |
| MonthlyCalendar.Take5 | src/components/reservations/calendar/monthly-reservation-calendar.tsx:153-154 | `slice(0, 5)` keeps the first five characters, or all of a shorter string, and is a prefix of it |
| MonthlyCalendar.Take5OfSlot | src/components/reservations/calendar/monthly-reservation-calendar.tsx:153-154 | On a time of the slot grid, the first five characters are the slot's `HH:MM` label |
| MonthlyCalendar.SortSlots | src/components/reservations/calendar/monthly-reservation-calendar.tsx:160-162 | Sorting a group's slots keeps its room fields and exactly its slots |
| MonthlyCalendar.GroupContents | src/components/reservations/calendar/monthly-reservation-calendar.tsx:140-156 | Each group belongs to a room some reservation of the day names. It has the room's name and location, or the placeholder name and an empty location for an unknown room, and one slot per reservation of that room, sorted by start time |
| MonthlyCalendar.OneGroupPerRoom | src/components/reservations/calendar/monthly-reservation-calendar.tsx:140-150 | There is exactly one group per distinct room id among the day's reservations, and none for other ids |
| MonthlyCalendar.SlotTotal | src/components/reservations/calendar/monthly-reservation-calendar.tsx:150-155 | Every reservation of the day contributes exactly one slot |
| MonthlyCalendar.GroupsSorted | src/components/reservations/calendar/monthly-reservation-calendar.tsx:158-162 | Groups are in room-name order and each group's slots in start-time order |
| LookupRules.NormalizeStatus | src/app/api/my-reservations/route.ts:36-51 | The status filter is always none, 'active' or 'cancelled' |
| LookupRules.NormalizeStatusMeaning | src/app/api/my-reservations/route.ts:36-51 | 'active' exactly for the active words, and 'cancelled' exactly for the cancelled words, read after trimming and ignoring letter case; no filter otherwise |
| LookupRules.ClassifyMeaning | src/app/api/my-reservations/route.ts:41-50 | The word lists, consulted on the trimmed and the lower-cased text, classify by the lower-cased text alone |
| LookupRules.NormalizeStatusNone | src/app/api/my-reservations/route.ts:37-43 | A missing or blank input, 'all' or 'any' in any case, and '전체' or '전체보기' mean no filter |
| LookupRules.NormalizeStatusIdempotent | src/app/api/my-reservations/route.ts:44-49 | 'active' and 'cancelled' are fixed points, so normalising twice is normalising once |
| LookupRules.NormalizeDate | src/app/api/my-reservations/route.ts:53-60 | A result is the trimmed input, and it has the date shape |
| LookupRules.NormalizeDateIff | src/app/api/my-reservations/route.ts:53-60 | A date results exactly when the trimmed input has the `DDDD-DD-DD` shape |
| LookupRules.NormalizeDateIdempotent | src/app/api/my-reservations/route.ts:53-60 | Normalising a normalised date changes nothing |
| LookupRules.Sanitize | src/app/api/my-reservations/route.ts:73-84 | The scalar fields of the row are copied unchanged |
| LookupRules.SanitizeRoom | src/app/api/my-reservations/route.ts:62-71 | The room is the map's entry for the row's room id when there is one, else the embedded `room`, else `meeting_rooms`, else none |
| LookupRules.PresentRoomIds | src/app/api/my-reservations/route.ts:88 | The ids collected are exactly the non-empty room ids of the rows |
| LookupRules.RoomIdsMeaning | src/app/api/my-reservations/route.ts:88 | The ids asked for are each non-empty room id of the rows, once each |
| LookupRules.RowsToMap | src/app/api/my-reservations/route.ts:99-106 | The map has a key exactly for each returned room's id |
| LookupRules.RowsToMapValue | src/app/api/my-reservations/route.ts:100-106 | A key's entry is the last returned room with that id |
| LookupRules.LoadRoomMap | src/app/api/my-reservations/route.ts:87-108 | No query and an empty map when no row has a room id; otherwise exactly those ids are queried |
| LookupRules.FilterChainIsFilter | src/app/api/my-reservations/route.ts:152-162 | The chain is a single filter: it keeps, in order, exactly the rows whose status matches (when given) and whose date is within the inclusive bounds given |
| LookupRules.FilterChainUnfiltered | src/app/api/my-reservations/route.ts:153 | With no filters the rows are returned unchanged |
| LookupApi.CallHashedLookup | src/app/api/my-reservations/route.ts:110-126 | Error code PGRST202 or 42703 means "not installed", any other error is thrown, and data that is not an array becomes the empty list |
| LookupApi.LegacyLookup | src/app/api/my-reservations/route.ts:128-215 | A refusal is 400 or 500, and the legacy query is made only after the hashed procedure was tried, never together with a room-map query |
| LookupApi.Lookup | src/app/api/my-reservations/route.ts:141-215 | The hashed procedure is asked with the credentials. The legacy query is made exactly when that procedure is missing, with the credentials and the filters |
| LookupApi.FromRows | src/app/api/my-reservations/route.ts:164-174 | The hashed path asks for the room map of the filtered rows and fails only with 500 |
| LookupApi.FromLegacy | src/app/api/my-reservations/route.ts:177-214 | The legacy path makes the legacy query and no room-map query, and fails only with 500 |
| LookupApi.LegacyBlankRefused | src/app/api/my-reservations/route.ts:129-133 | Credentials that are blank once trimmed, and only those, are refused with 400 before any database call. Otherwise the trimmed credentials are used |
| LookupApi.HashedThrewReply | src/app/api/my-reservations/route.ts:142-150 | Any other procedure error is answered with 500 and its message or the default |
| LookupApi.HashedPathReply | src/app/api/my-reservations/route.ts:152-174 | With procedure rows, the reply holds exactly the rows passing the normalised filters, in order, each sanitised with the room map of those rows; a failed room query gives 500 |
| LookupApi.HashedPathRowsMatch | src/app/api/my-reservations/route.ts:152-162 | Every row returned on the hashed path has the requested status and a date within the requested bounds |
| LookupApi.LegacyQueryIff | src/app/api/my-reservations/route.ts:177-196 | The legacy query is made exactly when the credentials are non-blank and the hashed procedure is missing, with the trimmed credentials and the normalised filters |
| LookupApi.LegacyPathReply | src/app/api/my-reservations/route.ts:198-214 | A missing password column has its own message, any other error its message or the default, and data is returned row by row with the room embedded in each row |
| LookupApi.HandleGet | src/app/api/my-reservations/route.ts:217-287 | `GET` answers with 200, 400, 401, 500 or 501 |
| LookupApi.GetByCredentials | src/app/api/my-reservations/route.ts:220-235 | Both credentials in the query select the credential lookup, with `fromDate` over `from` and `toDate` over `to`, and the cookie is not read |
| LookupApi.GetBySession | src/app/api/my-reservations/route.ts:237-254 | Otherwise, no cookie gives 401 "Not authenticated" and an unreadable cookie or one without a user id gives 401 "Invalid session". The account procedure is called exactly with the session's user id |
| LookupApi.GetNotMigrated | src/app/api/my-reservations/route.ts:261-270 | 501 is the answer exactly when the account procedure reports a missing procedure or column |
| LookupApi.GetAccountFailed | src/app/api/my-reservations/route.ts:256-273 | An account-procedure error is answered without a room query: 501 for a missing procedure or column, otherwise 500 with the error's message or "unexpected error" |
| LookupApi.GetAccountRows | src/app/api/my-reservations/route.ts:275-282 | The account lookup returns all the user's rows (none for null), unfiltered and in order, sanitised with the room map of their ids, or 500 if the room query fails. An answer that is neither an array nor null makes `loadRoomMap` throw before any room query, and is answered with 500 and the TypeError's message |
| LookupApi.FirstString | src/app/api/my-reservations/route.ts:298-304 | The first of the two values that is a string, or the empty string |
| LookupApi.HandlePost | src/app/api/my-reservations/route.ts:289-327 | `POST` answers with 200, 400 or 500 and never uses the session |
| LookupApi.PostBlankRefused | src/app/api/my-reservations/route.ts:306-308 | A `POST` is refused with 400 exactly when a credential is missing or blank once trimmed; a body that is not JSON always is |
| LookupApi.PostAliases | src/app/api/my-reservations/route.ts:298-316 | `phone` is preferred over `reserver_phone`, `password` over `reserver_password`, `status` over `state`, `fromDate` over `startDate`, and `toDate` over `endDate` |
| MyReservationsPage.FetchList | src/app/my-reservations/page.tsx:35-85 | The credentials are left trimmed. Without a request the list is unchanged; after one the page counts as queried |
| MyReservationsPage.FetchNeedsCredentials | src/app/my-reservations/page.tsx:36-45 | No request is sent, and the list is kept, exactly when a trimmed credential is empty. Otherwise the request carries the trimmed credentials and the date bounds |
| MyReservationsPage.Merged | src/app/my-reservations/page.tsx:54-75 | Without an error the list is the answer, each reservation merged with the room map |
| MyReservationsPage.RoomMapOf | src/app/my-reservations/page.tsx:61-65 | The map holds exactly the listed rooms whose id is among the ids asked for, and each entry is the name, location and capacity of the last listed room with that id |
| MyReservationsPage.RoomIdsOfMeaning | src/app/my-reservations/page.tsx:58 | The ids asked for are exactly the non-empty room ids of the list |
| MyReservationsPage.RoomMapOnlyFetchedRooms | src/app/my-reservations/page.tsx:57-67 | The room map holds exactly the rooms whose id occurs among the fetched reservations and in the room list, each entry the name, location and capacity of the last listed room with that id |
| MyReservationsPage.MergedRoom | src/app/my-reservations/page.tsx:69-72 | Each reservation keeps its fields and gets the map's room for its id, else the room it came with |
| MyReservationsPage.FetchFailure | src/app/my-reservations/page.tsx:76-80 | A failed lookup or room list empties the list and the map and shows the error or the default |
| MyReservationsPage.FilteredContents | src/app/my-reservations/page.tsx:98-103 | The filtered list has each passing entry as often as the list, no failing one, in list order. An entry passes when its status is chosen ('all' passes every status) and its date is within the non-empty bounds |
| MyReservationsPage.NoFilterShowsAll | src/app/my-reservations/page.tsx:98-103 | 'all' with empty bounds shows the whole list |
| MyReservationsPage.DisplayOrder | src/app/my-reservations/page.tsx:191-192 | The display is a reordering of the filtered list, in ascending date-plus-start key, and equal keys keep their order |
| MyReservationsPage.DisplayKeyIsDateThenTime | src/app/my-reservations/page.tsx:192 | For dates of one width the key order is date order, then start-time order |
| MyReservationsPage.CardsMeaning | src/app/my-reservations/page.tsx:191-210 | One card per filtered entry in display order; cancelling is offered exactly for active reservations |
| MyReservationsPage.NoticeMeaning | src/app/my-reservations/page.tsx:182-189 | A notice replaces the cards exactly when nothing passes. It tells apart "nothing found" (empty list) and "nothing matches" (the filter removed everything) |
| MyReservationsPage.ExportReadsBack | src/app/my-reservations/page.tsx:105-122 | Nothing is exported for an empty filtered list. Otherwise the file reads back as the header and one row of the nine values per displayed entry, whatever the fields contain |
| Csv.ReadQuotedEscape | src/app/my-reservations/page.tsx:121 | Unquoting an escaped field recovers it and stops at its closing quote |
| Csv.QuoteFieldReads | src/app/my-reservations/page.tsx:121 | A quoted field reads back as itself |
| Csv.ReadRowEncode | src/app/my-reservations/page.tsx:121 | A comma-joined line of quoted fields reads back as its fields |
| Csv.ReadRowsEncode | src/app/my-reservations/page.tsx:119-122 | Lines joined by newlines read back as the rows, whatever commas, quotes or newlines the fields contain |
| Csv.DocumentRoundTrip | src/app/my-reservations/page.tsx:118-122 | The document reads back as exactly the rows it was made from, after its header line |
| AdminPage.LoadOutcomes | src/app/admin/page.tsx:91-102 | 401 marks the page unauthorized and keeps the list. Any other failure keeps the state and alerts. Success replaces the list with the answer's array, or empties it when there is none |
| AdminPage.Submit | src/app/admin/page.tsx:140-171 | PUT exactly when the form has an id, else POST, with the form as body. On success the form resets and the list reloads; on failure the state is kept and an alert shown |
| AdminPage.SubmitUpdatesList | src/app/admin/page.tsx:155-163 | A successful save applies the returned room to the list, and keeps the list when nothing is returned |
| AdminPage.EditReplacesById | src/app/admin/page.tsx:157-160 | An edit replaces the rooms with the saved id by the saved room and leaves every other room in place; the length and the ids do not change |
| AdminPage.EditOfUnknownId | src/app/admin/page.tsx:159 | Editing an id no room has leaves the list alone |
| AdminPage.CreateAppends | src/app/admin/page.tsx:161 | A create appends the saved room after the existing rooms, which are unchanged |
| AdminPage.Remove | src/app/admin/page.tsx:173-193 | The DELETE is sent exactly when confirmed, and the list reloads exactly when it succeeded. Otherwise the state is unchanged |
| AdminPage.DeleteRemovesId | src/app/admin/page.tsx:187 | After a successful delete no room has the id, every other room occurs as often as before, and the order is kept |
| AdminPage.DeclinedSendsNothing | src/app/admin/page.tsx:34-40 | A declined dialog sends nothing and changes nothing; a missing dialog counts as a yes |
| AdminRoomsApi.CreateSchemaMeaning | src/app/api/admin/rooms/route.ts:7-11 | A create body passes exactly when name and location are non-empty strings and capacity is a positive whole number. The fields are those values, and a rejection names exactly the failing members |
| AdminRoomsApi.UpdateSchemaMeaning | src/app/api/admin/rooms/route.ts:13 | An update body passes exactly when the create schema passes and `id` is a UUID; its fields are the create schema's |
| AdminRoomsApi.FormatServerErrorMeaning | src/app/api/admin/rooms/route.ts:15-23 | The configuration message replaces an error mentioning the missing settings; other errors keep their message; a non-error gets the generic message |
| AdminRoomsApi.MisconfiguredIsReported | src/lib/supabase/service.ts:13-14 | The error thrown without database settings is reported as the configuration message |
| AdminRoomsApi.Run | src/app/api/admin/rooms/route.ts:61-72 | The request is made unless creating the client threw; the answer is the success status or 500 |
| AdminRoomsApi.HandleGet | src/app/api/admin/rooms/route.ts:31-43 | `GET` answers with 200, 401 or 500 |
| AdminRoomsApi.HandlePost | src/app/api/admin/rooms/route.ts:45-73 | `POST` answers with 201, 400, 401 or 500 |
| AdminRoomsApi.HandlePut | src/app/api/admin/rooms/route.ts:75-106 | `PUT` answers with 200, 400, 401 or 500 |
| AdminRoomsApi.HandleDelete | src/app/api/admin/rooms/route.ts:108-126 | `DELETE` answers with 200, 400, 401 or 500 |
| AdminRoomsApi.AdminCheckFirst | src/app/api/admin/rooms/route.ts:32-33 | Without administrator rights every method answers 401 and neither reads the body nor calls the database |
| AdminRoomsApi.PostOutcomes | src/app/api/admin/rooms/route.ts:49-69 | A body that is not JSON or fails the schema gives 400. The insert is made exactly with a body the schema accepts, using its fields, and 201 follows a stored room |
| AdminRoomsApi.PutUpdatesWithoutId | src/app/api/admin/rooms/route.ts:91-98 | An update is keyed by the body's id and sets only name, location and capacity, as a create of the same body would |
| AdminRoomsApi.DeleteNeedsId | src/app/api/admin/rooms/route.ts:112-116 | A delete without an id gives 400 and makes no request; with one it deletes that id |
| AdminRoomsApi.ServerErrors | src/app/api/admin/rooms/route.ts:38-41 | A failure after the checks is a 500 carrying the formatted error |
| Strings.TrimIsInfix | src/app/api/my-reservations/route.ts:38 | `trim` removes white space at both ends and nothing else |
| Strings.TrimEmptyIff | src/app/api/my-reservations/route.ts:39 | Trimming leaves nothing exactly when the string is all white space |
| Strings.Utf16LengthBounds | src/app/page.tsx:151 | The JavaScript length that the password minimum counts lies between the character count and twice it, and equals the character count exactly when every character is in the basic plane |

## Left out

- Database, network and realtime I/O are not modelled: the Supabase clients, `fetch`, the procedure calls and the subscriptions. Their answers are inputs: an `Option`, an error code, a message.
- Cookie and secret checks are not modelled. The administrator check is a boolean input. The user session is a parsed cookie that may be missing, unreadable, or carry a user id.
- Clock and calendar arithmetic are not modelled: `new Date()`, the month and week bounds from date-fns, and "today". The calendar takes its days as a list of `yyyy-MM-dd` keys.
- Korean collation of room names (`localeCompare(..., 'ko')`) is not modelled: the model takes it as a caller-given total preorder.
- Time keys sorted with `localeCompare` are modelled with code-unit order. For strings of digits and fixed separators the two orders agree.
- BookingForm.ValidateGuest: the guest schema's `end` refinement (src/app/page.tsx:148) is not modelled. It reads `(ctx.parent as any).start`, but zod calls a `refine` check with the value alone. As written, that read throws a TypeError while the form is validated, so the guest form would never reach `onSubmit`, and it has no working `end > start` rule. BookingForm.SubmitGuest states what `onSubmit` does once it is called.
- JSON and number parsing are not modelled: `readJson`, `JSON.parse` of the session cookie, and `Number(...)` of the capacity input. A body that does not parse is an input case. Field values are strings, or for the admin schemas a small JSON value type.
- The `cancelReservation` path of the "my reservations" page is not modelled (`handleCancel`): it only calls the service and re-runs `fetchList`.
- The lookup route's outer `catch` blocks (src/app/api/my-reservations/route.ts:283 and :323) are not modelled. They answer 500 with `e?.message ?? 'unexpected error'` for an exception no inner `catch` handles, such as `createServiceClient` failing on a missing configuration or `cookies()` failing; the model has no input for those. The create endpoint's and the admin handlers' handler-wide catches are modelled (CreateReservation.HandleCreate, AdminRoomsApi.ServerErrors). Console logging is not modelled.
- AdminRoomsApi.CreateSchemaMeaning: zod's `flatten()` error layout is reduced to the set of failing member names.
- AdminRoomsApi.UpdateSchemaMeaning: zod's UUID check is reduced to the 8-4-4-4-12 hexadecimal shape, without its version and variant digits.
- LookupRules.NormalizeStatus: `toLowerCase` is modelled on ASCII letters only. The status words are ASCII or Korean, and Korean has no case.
- Strings are sequences of characters, not UTF-16 code units. Time and status strings are ASCII or Korean text within the basic plane, where the two agree. The one length rule that can see user text beyond the basic plane, the guest password's minimum, counts UTF-16 code units through Strings.Utf16Length.
- LookupApi.LegacyLookup: the legacy query's ordering (date descending, then start time) happens in the database. The model passes its rows through in the order received.
- TimeSlots.EmptyIntervalInsideOverlaps: the overlap test does not reject zero-length intervals. An empty interval strictly inside a reservation is reported as a clash. The signed-in form's schema keeps `end > start` (src/app/home-client-page.tsx:217), so there this cannot arise. The guest form has no working rule of that kind (see BookingForm.ValidateGuest), and its auto-advance runs only when the start changes (src/app/page.tsx:186-189), so its end can later be set at or before its start.
- TimeSlots.GenerateTimeSlots: requires a positive step and hours that are natural numbers. In the source, `m += stepMinutes` (src/lib/utils.ts:16) never reaches 60 when the step is 0 or negative, so `generateTimeSlots` loops forever, pushing the same times. Every caller passes 30. Negative hours are not modelled because no caller passes one.
- BookingForm.NextSlot: requires a non-empty slot list, because the source reads `slots[...]` unguarded and would throw on an empty one.
- MyReservationsPage.ExportCsv: exports in display order, because the page sorts the filtered list in place before rendering.
- The lookup page's call into `getMyReservations` passes arguments that do not match the service's signature. Only the page's own logic is modelled, with the service's answer as an input.
- Presentational and routing files are not part of this model: the day cell, navigation, layouts, login/sign-up pages and the debug and reserver routes.

=== FILE: admin_page.dfy ===
/** The room administration page: loading the room list, saving the form
    (create or edit) and deleting a room, with the optimistic updates the
    page applies to its list. Each operation takes the server's answer as
    an input and yields the new state, the request it sends and the alert
    it shows; the reload that follows a successful save or delete is a
    separate `Load`. */
module AdminPage {
  import opened Wrappers
  import opened Seqs

  datatype AdminRoom = AdminRoom(id: string, name: string, location: string, capacity: int)

  /** The edit form; `id` is set when an existing room is being edited. */
  datatype Form = Form(id: Option<string>, name: string, location: string, capacity: int)

  const EmptyForm: Form := Form(None, "", "", 4)

  datatype State = State(rooms: seq<AdminRoom>, unauthorized: bool, form: Form)

  /** The answer to a request: its status and JSON body (`None` for an empty
      body), or `Unreachable` when the request or reading its body threw. */
  datatype Answer<B> = Answered(status: int, body: Option<B>) | Unreachable

  predicate Ok<B>(a: Answer<B>)
  {
    a.Answered? && 200 <= a.status <= 299
  }

  /** The `error` text of a JSON body, if it has a truthy one. */
  function ErrorText(error: Option<string>, fallback: string): string
  {
    if Present(error) then error.value else fallback
  }

  // ---------------------------------------------------------------------
  // load
  // ---------------------------------------------------------------------

  const ListFailed: string := "회의실 목록을 불러오지 못했습니다."
  const ListUnreachable: string := "회의실 목록을 불러오지 못했습니다. 잠시 후 다시 시도해주세요."

  /** The list endpoint's body: `data` (`None` when it is not an array) and
      `error`. */
  datatype ListBody = ListBody(data: Option<seq<AdminRoom>>, error: Option<string>)

  datatype Loaded = Loaded(state: State, alert: Option<string>)

  function Load(s: State, answer: Answer<ListBody>): (l: Loaded)
    ensures l.state.form == s.form
  {
    match answer
    case Unreachable => Loaded(s, Some(ListUnreachable))
    case Answered(status, body) =>
      if status == 401 then Loaded(s.(unauthorized := true), None)
      else if !Ok(answer) then
        Loaded(s, Some(ErrorText(if body.Some? then body.value.error else None, ListFailed)))
      else
        var rooms := if body.Some? && body.value.data.Some? then body.value.data.value else [];
        Loaded(s.(unauthorized := false, rooms := rooms), None)
  }

  /** 401 marks the page unauthorized and keeps the list; any other failure
      keeps the whole state and alerts; success replaces the list with the
      answer's array, or with nothing when it sent no array. */
  lemma LoadOutcomes(s: State, answer: Answer<ListBody>)
    ensures answer.Answered? && answer.status == 401 ==>
              Load(s, answer) == Loaded(s.(unauthorized := true), None)
    ensures !Ok(answer) && !(answer.Answered? && answer.status == 401) ==>
              Load(s, answer).state == s && Load(s, answer).alert.Some?
    ensures Ok(answer) ==>
              && !Load(s, answer).state.unauthorized
              && Load(s, answer).alert.None?
              && (answer.body.Some? && answer.body.value.data.Some? ==> Load(s, answer).state.rooms == answer.body.value.data.value)
              && (answer.body.None? || answer.body.value.data.None? ==> Load(s, answer).state.rooms == [])
  {
  }

  // ---------------------------------------------------------------------
  // submit
  // ---------------------------------------------------------------------

  const SaveFailed: string := "회의실 정보를 저장하지 못했습니다."
  const SaveUnreachable: string := "회의실 정보를 저장하지 못했습니다. 잠시 후 다시 시도해주세요."

  datatype Method = Post | Put

  datatype SaveBody = SaveBody(data: Option<AdminRoom>, error: Option<string>)

  /** The request `submit` sends: the method and the form as its body. */
  datatype SaveRequest = SaveRequest(verb: Method, form: Form)

  datatype Saved = Saved(state: State, request: SaveRequest, alert: Option<string>, reload: bool)

  /** `room.id === payload.id ? payload : room`. */
  function ReplaceWith(payload: AdminRoom): AdminRoom -> AdminRoom
  {
    (room: AdminRoom) => if room.id == payload.id then payload else room
  }

  /** The list after a successful save answered with `payload`. */
  function Updated(rooms: seq<AdminRoom>, editing: bool, payload: AdminRoom): seq<AdminRoom>
  {
    if editing then Map(rooms, ReplaceWith(payload)) else rooms + [payload]
  }

  function Submit(s: State, answer: Answer<SaveBody>): (r: Saved)
    ensures r.request == SaveRequest(if Present(s.form.id) then Put else Post, s.form)
    ensures r.reload <==> Ok(answer)
    ensures !Ok(answer) ==> r.state == s && r.alert.Some?
    ensures Ok(answer) ==> r.state.form == EmptyForm && r.alert.None? && r.state.unauthorized == s.unauthorized
  {
    var editing := Present(s.form.id);
    var request := SaveRequest(if editing then Put else Post, s.form);
    match answer
    case Unreachable => Saved(s, request, Some(SaveUnreachable), false)
    case Answered(status, body) =>
      if !Ok(answer) then Saved(s, request, Some(ErrorText(if body.Some? then body.value.error else None, SaveFailed)), false)
      else
        var rooms := if body.Some? && body.value.data.Some? then Updated(s.rooms, editing, body.value.data.value)
                     else s.rooms;
        Saved(s.(rooms := rooms, form := EmptyForm), request, None, true)
  }

  /** An edit replaces every room carrying the saved room's id by it and
      leaves the others where they were: the length and the list of ids do
      not change. */
  lemma EditReplacesById(rooms: seq<AdminRoom>, payload: AdminRoom)
    ensures var out := Updated(rooms, true, payload);
            && |out| == |rooms|
            && (forall i :: 0 <= i < |rooms| && rooms[i].id != payload.id ==> out[i] == rooms[i])
            && (forall i :: 0 <= i < |rooms| && rooms[i].id == payload.id ==> out[i] == payload)
            && Map(out, IdOf) == Map(rooms, IdOf)
  {
    var out := Updated(rooms, true, payload);
    assert forall i :: 0 <= i < |rooms| ==> out[i] == ReplaceWith(payload)(rooms[i]);
  }

  function IdOf(room: AdminRoom): string
  {
    room.id
  }

  /** A create appends the saved room after the existing ones, which keep
      their places. */
  lemma CreateAppends(rooms: seq<AdminRoom>, payload: AdminRoom)
    ensures var out := Updated(rooms, false, payload);
            |out| == |rooms| + 1 && out[..|rooms|] == rooms && out[|rooms|] == payload
  {
  }

  /** Editing with an id no room has leaves the list alone. */
  lemma EditOfUnknownId(rooms: seq<AdminRoom>, payload: AdminRoom)
    requires forall i :: 0 <= i < |rooms| ==> rooms[i].id != payload.id
    ensures Updated(rooms, true, payload) == rooms
  {
    EditReplacesById(rooms, payload);
  }

  /** A successful save applies the update when the answer carries the room,
      and keeps the list otherwise. */
  lemma SubmitUpdatesList(s: State, answer: Answer<SaveBody>)
    requires Ok(answer)
    ensures answer.body.Some? && answer.body.value.data.Some? ==>
              Submit(s, answer).state.rooms == Updated(s.rooms, Present(s.form.id), answer.body.value.data.value)
    ensures answer.body.None? || answer.body.value.data.None? ==> Submit(s, answer).state.rooms == s.rooms
  {
  }

  // ---------------------------------------------------------------------
  // remove
  // ---------------------------------------------------------------------

  const DeleteFailed: string := "회의실 삭제에 실패했습니다."
  const DeleteUnreachable: string := "회의실 삭제에 실패했습니다. 잠시 후 다시 시도해주세요."

  datatype DeleteBody = DeleteBody(error: Option<string>)

  datatype Removed = Removed(state: State, request: Option<string>, alert: Option<string>, reload: bool)

  /** `safeConfirm`: the user's answer, or yes where no dialog exists. */
  function SafeConfirm(answer: Option<bool>): bool
  {
    answer.GetOr(true)
  }

  function KeepsOther(id: string): AdminRoom -> bool
  {
    (room: AdminRoom) => room.id != id
  }

  /** `remove(id)`; `confirmed` is the dialog's answer (`None` when the
      environment has no dialog). */
  function Remove(s: State, id: string, confirmed: Option<bool>, answer: Answer<DeleteBody>): (r: Removed)
    ensures r.request.Some? <==> SafeConfirm(confirmed)
    ensures r.request.Some? ==> r.request.value == id
    ensures r.reload <==> SafeConfirm(confirmed) && Ok(answer)
    ensures !r.reload ==> r.state == s
    ensures r.state.form == s.form && r.state.unauthorized == s.unauthorized
  {
    if !SafeConfirm(confirmed) then Removed(s, None, None, false)
    else match answer
      case Unreachable => Removed(s, Some(id), Some(DeleteUnreachable), false)
      case Answered(status, body) =>
        if !Ok(answer) then Removed(s, Some(id), Some(ErrorText(if body.Some? then body.value.error else None, DeleteFailed)), false)
        else Removed(s.(rooms := Filter(s.rooms, KeepsOther(id))), Some(id), None, true)
  }

  /** After a successful delete no room has the id, every other room is
      still there as often as before, and the order is kept. */
  lemma DeleteRemovesId(s: State, id: string, confirmed: Option<bool>, answer: Answer<DeleteBody>, room: AdminRoom)
    requires SafeConfirm(confirmed) && Ok(answer)
    ensures var out := Remove(s, id, confirmed, answer).state.rooms;
            && (forall i :: 0 <= i < |out| ==> out[i].id != id)
            && multiset(out)[room] == (if room.id == id then 0 else multiset(s.rooms)[room])
            && IsSubsequence(out, s.rooms)
  {
    FilterMultiplicity(s.rooms, KeepsOther(id), room);
    FilterIsSubsequence(s.rooms, KeepsOther(id));
  }

  /** A declined dialog sends nothing and changes nothing; a missing dialog
      counts as a yes. */
  lemma DeclinedSendsNothing(s: State, id: string, answer: Answer<DeleteBody>)
    ensures Remove(s, id, Some(false), answer) == Removed(s, None, None, false)
    ensures Remove(s, id, None, answer).request == Some(id)
  {
  }
}

=== FILE: admin_rooms_api.dfy ===
/** The room administration endpoint (`/api/admin/rooms`): the create and
    update schemas, the server-error message, and the status each method
    answers with. Whether the caller is an administrator, the parsed JSON
    body and the database's answers are inputs. */
module AdminRoomsApi {
  import opened Wrappers
  import opened Strings
  import opened Patterns
  import opened Records

  // ---------------------------------------------------------------------
  // The schemas
  // ---------------------------------------------------------------------

  /** A JSON value as far as the schemas look at it; `Other` is null, a
      boolean, an array or an object. */
  datatype Json = JString(s: string) | JNumber(n: real) | Other

  /** A parsed request body: an object with its members, or any other JSON
      value. */
  datatype Payload = NotObject | Object(members: map<string, Json>)

  /** The room fields the schemas produce; unknown members are dropped. */
  datatype RoomFields = RoomFields(name: string, location: string, capacity: int)

  /** What the schemas reject: a body that is not an object, or the members
      that fail their rule. */
  datatype SchemaError = NotAnObject | BadMembers(names: set<string>)

  datatype Parsed<T> = Valid(value: T) | Invalid(error: SchemaError)

  /** `z.string().min(1)`. */
  predicate NonEmptyString(v: Option<Json>)
  {
    v.Some? && v.value.JString? && |v.value.s| >= 1
  }

  /** `z.number().int().positive()`. */
  predicate PositiveInteger(v: Option<Json>)
  {
    v.Some? && v.value.JNumber? && v.value.n.Floor as real == v.value.n && v.value.n > 0.0
  }

  /** `z.string().uuid()`. */
  predicate UuidString(v: Option<Json>)
  {
    v.Some? && v.value.JString? && Matches(UuidPattern(), v.value.s)
  }

  function Member(members: map<string, Json>, name: string): Option<Json>
  {
    if name in members then Some(members[name]) else None
  }

  /** The members of the create schema that fail their rule. */
  function CreateFailures(members: map<string, Json>): set<string>
  {
    (if NonEmptyString(Member(members, "name")) then {} else {"name"})
    + (if NonEmptyString(Member(members, "location")) then {} else {"location"})
    + (if PositiveInteger(Member(members, "capacity")) then {} else {"capacity"})
  }

  /** The members of the update schema that fail their rule. */
  function UpdateFailures(members: map<string, Json>): set<string>
  {
    CreateFailures(members) + (if UuidString(Member(members, "id")) then {} else {"id"})
  }

  function FieldsOf(members: map<string, Json>): RoomFields
    requires CreateFailures(members) == {}
  {
    assert "name" !in CreateFailures(members) && "location" !in CreateFailures(members);
    assert "capacity" !in CreateFailures(members);
    RoomFields(members["name"].s, members["location"].s, members["capacity"].n.Floor)
  }

  /** `createSchema.safeParse`. */
  function ParseCreate(p: Payload): Parsed<RoomFields>
  {
    match p
    case NotObject => Invalid(NotAnObject)
    case Object(members) =>
      var failures := CreateFailures(members);
      if failures == {} then Valid(FieldsOf(members)) else Invalid(BadMembers(failures))
  }

  datatype Update = Update(id: string, fields: RoomFields)

  /** `updateSchema.safeParse`, split into the key and the updates. */
  function ParseUpdate(p: Payload): Parsed<Update>
  {
    match p
    case NotObject => Invalid(NotAnObject)
    case Object(members) =>
      var failures := UpdateFailures(members);
      if failures == {} then Valid(Update(members["id"].s, FieldsOf(members)))
      else Invalid(BadMembers(failures))
  }

  /** A create body is accepted exactly when it is an object whose name and
      location are non-empty strings and whose capacity is a positive whole
      number; the result carries those values, and a rejection names every
      failing member and no other. */
  lemma CreateSchemaMeaning(p: Payload)
    ensures ParseCreate(p).Valid? <==>
              p.Object? && NonEmptyString(Member(p.members, "name")) && NonEmptyString(Member(p.members, "location"))
              && PositiveInteger(Member(p.members, "capacity"))
    ensures ParseCreate(p).Valid? ==>
              var v := ParseCreate(p).value;
              && Member(p.members, "name") == Some(JString(v.name))
              && Member(p.members, "location") == Some(JString(v.location))
              && Member(p.members, "capacity") == Some(JNumber(v.capacity as real))
              && v.capacity > 0
    ensures ParseCreate(p).Invalid? && p.Object? ==>
              forall name :: name in ParseCreate(p).error.names <==>
                (name == "name" && !NonEmptyString(Member(p.members, "name")))
                || (name == "location" && !NonEmptyString(Member(p.members, "location")))
                || (name == "capacity" && !PositiveInteger(Member(p.members, "capacity")))
  {
    if p.Object? && CreateFailures(p.members) == {} {
      assert "name" !in CreateFailures(p.members);
      assert "location" !in CreateFailures(p.members);
      assert "capacity" !in CreateFailures(p.members);
    }
  }

  /** An update body is accepted exactly when the create schema accepts it
      and it also has a UUID `id`; the updates are what the create schema
      gives for the same body, so the id is only the key. */
  lemma UpdateSchemaMeaning(p: Payload)
    ensures ParseUpdate(p).Valid? <==> ParseCreate(p).Valid? && UuidString(Member(p.members, "id"))
    ensures ParseUpdate(p).Valid? ==>
              && ParseUpdate(p).value.fields == ParseCreate(p).value
              && Member(p.members, "id") == Some(JString(ParseUpdate(p).value.id))
              && IsUuidShape(ParseUpdate(p).value.id)
  {
    if p.Object? {
      if UuidString(Member(p.members, "id")) {
        UuidPatternMeaning(Member(p.members, "id").value.s);
      } else {
        assert "id" in UpdateFailures(p.members);
      }
    }
  }

  // ---------------------------------------------------------------------
  // formatServerError
  // ---------------------------------------------------------------------

  /** What a handler catches: an `Error` with its message, or anything else. */
  datatype Thrown = ErrorObject(message: string) | NonError

  const ConfigKey: string := "Supabase URL or key"
  const ConfigMessage: string := "서버 설정 오류: Supabase 키가 설정되지 않았습니다."
  const UnknownMessage: string := "알 수 없는 오류가 발생했습니다."
  /** The message `createServiceClient` throws without its settings. */
  const MisconfiguredMessage: string := "Server misconfigured: missing Supabase URL or key"

  function FormatServerError(t: Thrown): string
  {
    match t
    case ErrorObject(m) => if Contains(m, ConfigKey) then ConfigMessage else m
    case NonError => UnknownMessage
  }

  /** The configuration message replaces any error that mentions the missing
      settings; other errors keep their message; anything that is not an
      error gets the generic message. */
  lemma FormatServerErrorMeaning(t: Thrown)
    ensures FormatServerError(t) == ConfigMessage <==>
              t.ErrorObject? && (Contains(t.message, ConfigKey) || t.message == ConfigMessage)
    ensures t.ErrorObject? && !Contains(t.message, ConfigKey) ==> FormatServerError(t) == t.message
    ensures t.NonError? ==> FormatServerError(t) == UnknownMessage
  {
    ConfigMessageDiffers();
  }

  lemma ConfigMessageDiffers()
    ensures UnknownMessage != ConfigMessage
  {
    assert UnknownMessage[0] != ConfigMessage[0];
  }

  /** The error of a missing database configuration becomes the
      configuration message. */
  lemma MisconfiguredIsReported()
    ensures FormatServerError(ErrorObject(MisconfiguredMessage)) == ConfigMessage
  {
    assert MisconfiguredMessage[30..30 + |ConfigKey|] == ConfigKey;
    ContainsAt(MisconfiguredMessage, ConfigKey, 30);
  }

  // ---------------------------------------------------------------------
  // The handlers
  // ---------------------------------------------------------------------

  const Unauthorized: string := "Unauthorized"
  const BadJson: string := "잘못된 JSON 본문입니다."
  const IdRequired: string := "id is required"

  /** A database request's answer: its data, its error (re-thrown as an
      `Error` with the error's message), or the error creating the client
      threw before any request was made. */
  datatype DbAnswer<T> = DbData(data: T) | DbFailed(message: Option<string>) | ClientFailed(thrown: Thrown)

  /** The database request a handler makes. */
  datatype DbCall = SelectAll | Insert(fields: RoomFields) | UpdateById(id: string, updates: RoomFields) | DeleteById(id: string)

  datatype Body =
    | ErrorText(error: string)
    | SchemaFailure(reason: SchemaError)
    | RoomList(rooms: Option<seq<Room>>)
    | OneRoom(room: Option<Room>)
    | Deleted

  datatype Response = Response(status: nat, body: Body)

  datatype Outcome = Outcome(call: Option<DbCall>, response: Response)

  function Refuse(status: nat, body: Body): Outcome
  {
    Outcome(None, Response(status, body))
  }

  /** The outcome of making `call` and answering `ok(data)` with `status`,
      or 500 with the formatted error. */
  function Run<T>(call: DbCall, answer: DbAnswer<T>, status: nat, ok: T -> Body): (o: Outcome)
    ensures o.response.status == status || o.response.status == 500
    ensures o.call.Some? <==> !answer.ClientFailed?
    ensures o.call.Some? ==> o.call.value == call
  {
    match answer
    case ClientFailed(t) => Outcome(None, Response(500, ErrorText(FormatServerError(t))))
    case DbFailed(m) => Outcome(Some(call), Response(500, ErrorText(FormatServerError(ErrorObject(m.GetOr(""))))))
    case DbData(d) => Outcome(Some(call), Response(status, ok(d)))
  }

  function ListBody(rooms: Option<seq<Room>>): Body { RoomList(rooms) }
  function RoomBody(room: Option<Room>): Body { OneRoom(room) }
  function DeletedBody(u: ()): Body { Deleted }

  function HandleGet(admin: bool, db: DbAnswer<Option<seq<Room>>>): (o: Outcome)
    ensures o.response.status in {200, 401, 500}
  {
    if !admin then Refuse(401, ErrorText(Unauthorized))
    else Run(SelectAll, db, 200, ListBody)
  }

  /** `body` is `None` when the request body is not valid JSON. */
  function HandlePost(admin: bool, body: Option<Payload>, db: DbAnswer<Option<Room>>): (o: Outcome)
    ensures o.response.status in {201, 400, 401, 500}
  {
    if !admin then Refuse(401, ErrorText(Unauthorized))
    else if body.None? then Refuse(400, ErrorText(BadJson))
    else match ParseCreate(body.value)
      case Invalid(e) => Refuse(400, SchemaFailure(e))
      case Valid(fields) => Run(Insert(fields), db, 201, RoomBody)
  }

  function HandlePut(admin: bool, body: Option<Payload>, db: DbAnswer<Option<Room>>): (o: Outcome)
    ensures o.response.status in {200, 400, 401, 500}
  {
    if !admin then Refuse(401, ErrorText(Unauthorized))
    else if body.None? then Refuse(400, ErrorText(BadJson))
    else match ParseUpdate(body.value)
      case Invalid(e) => Refuse(400, SchemaFailure(e))
      case Valid(u) => Run(UpdateById(u.id, u.fields), db, 200, RoomBody)
  }

  /** `id` is the `id` query parameter. */
  function HandleDelete(admin: bool, id: Option<string>, db: DbAnswer<()>): (o: Outcome)
    ensures o.response.status in {200, 400, 401, 500}
  {
    if !admin then Refuse(401, ErrorText(Unauthorized))
    else if !Present(id) then Refuse(400, ErrorText(IdRequired))
    else Run(DeleteById(id.value), db, 200, DeletedBody)
  }

  /** Without administrator rights every method answers 401 and touches
      neither the body nor the database. */
  lemma AdminCheckFirst(body: Option<Payload>, id: Option<string>, list: DbAnswer<Option<seq<Room>>>,
                        one: DbAnswer<Option<Room>>, none: DbAnswer<()>)
    ensures HandleGet(false, list) == Refuse(401, ErrorText(Unauthorized))
    ensures HandlePost(false, body, one) == Refuse(401, ErrorText(Unauthorized))
    ensures HandlePut(false, body, one) == Refuse(401, ErrorText(Unauthorized))
    ensures HandleDelete(false, id, none) == Refuse(401, ErrorText(Unauthorized))
  {
  }

  /** A create is made exactly when the body is JSON that the create schema
      accepts, with the fields it yields; a body that is not JSON and one the
      schema rejects are answered with 400, and a stored room with 201. */
  lemma PostOutcomes(body: Option<Payload>, db: DbAnswer<Option<Room>>)
    ensures var o := HandlePost(true, body, db);
            && (body.None? ==> o == Refuse(400, ErrorText(BadJson)))
            && (body.Some? && ParseCreate(body.value).Invalid? ==>
                  o == Refuse(400, SchemaFailure(ParseCreate(body.value).error)))
            && (o.call.Some? <==> body.Some? && ParseCreate(body.value).Valid? && !db.ClientFailed?)
            && (o.call.Some? ==> o.call.value == Insert(ParseCreate(body.value).value))
            && (o.response.status == 201 <==> body.Some? && ParseCreate(body.value).Valid? && db.DbData?)
  {
  }

  /** An update is keyed by the body's id and changes only the name, the
      location and the capacity, exactly as a create of the same body would
      set them. */
  lemma PutUpdatesWithoutId(p: Payload, db: DbAnswer<Option<Room>>)
    requires ParseUpdate(p).Valid? && !db.ClientFailed?
    ensures HandlePut(true, Some(p), db).call
            == Some(UpdateById(ParseUpdate(p).value.id, ParseCreate(p).value))
  {
    UpdateSchemaMeaning(p);
  }

  /** A delete without a (non-empty) id is answered with 400 and makes no
      request; with one it deletes that id. */
  lemma DeleteNeedsId(id: Option<string>, db: DbAnswer<()>)
    ensures !Present(id) ==> HandleDelete(true, id, db) == Refuse(400, ErrorText(IdRequired))
    ensures Present(id) && !db.ClientFailed? ==> HandleDelete(true, id, db).call == Some(DeleteById(id.value))
  {
  }

  /** Every failure after the checks is a 500 whose message is the formatted
      error. */
  lemma ServerErrors(db: DbAnswer<Option<seq<Room>>>)
    ensures db.ClientFailed? ==>
              HandleGet(true, db) == Outcome(None, Response(500, ErrorText(FormatServerError(db.thrown))))
    ensures db.DbFailed? ==>
              HandleGet(true, db).response == Response(500, ErrorText(FormatServerError(ErrorObject(db.message.GetOr("")))))
  {
  }
}

=== FILE: booking_form.dfy ===
/** The booking forms of the home page (signed-in users) and of the guest
    page: the choice of the next slot, the end-time auto-advance, the form
    schemas, the client-side overlap pre-check and what a submission does. */
module BookingForm {
  import opened Wrappers
  import opened Strings
  import opened Seqs
  import opened Clock
  import opened Patterns
  import opened Records
  import opened TimeSlots

  // ---------------------------------------------------------------------
  // nextSlot
  // ---------------------------------------------------------------------

  /** `i` is the first position whose slot has value `value`. */
  predicate FirstAt(slots: seq<Slot>, value: string, i: int)
  {
    0 <= i < |slots| && slots[i].value == value
    && forall k :: 0 <= k < i ==> slots[k].value != value
  }

  /** `slots.findIndex(s => s.value === value)`: -1 when no slot has it. */
  function FindIndex(slots: seq<Slot>, value: string): (i: int)
    ensures -1 <= i < |slots|
    ensures i == -1 <==> forall k :: 0 <= k < |slots| ==> slots[k].value != value
    ensures i != -1 ==> FirstAt(slots, value, i)
  {
    if |slots| == 0 then -1
    else if slots[0].value == value then 0
    else
      var j := FindIndex(slots[1..], value);
      if j == -1 then -1
      else
        assert forall k :: 1 <= k <= j ==> slots[k].value == slots[1..][k - 1].value;
        j + 1
  }

  function Min(a: int, b: int): int { if a <= b then a else b }
  function Max(a: int, b: int): int { if a >= b then a else b }

  /** The value of the slot after the first slot holding `value`, clamped to
      the grid: the last slot maps to itself and an unknown value to the first
      slot. The source reads `slots[...]` unguarded, so it needs a slot. */
  function NextSlot(value: string, slots: seq<Slot>): (r: string)
    requires |slots| > 0
    ensures (forall k :: 0 <= k < |slots| ==> slots[k].value != value) ==> r == slots[0].value
    ensures forall i :: FirstAt(slots, value, i) && i + 1 < |slots| ==> r == slots[i + 1].value
    ensures forall i :: FirstAt(slots, value, i) && i + 1 == |slots| ==> r == value
    ensures exists k :: 0 <= k < |slots| && r == slots[k].value
  {
    var idx := FindIndex(slots, value);
    slots[Min(|slots| - 1, Max(0, idx + 1))].value
  }

  /** Slot values in strictly increasing string order (which the default
      grid has, by `TimeSlots.SlotValuesIncrease`). */
  predicate ValuesIncrease(slots: seq<Slot>)
  {
    forall i, j :: 0 <= i < j < |slots| ==> LexLess(slots[i].value, slots[j].value)
  }

  /** On an increasing grid, the next slot of a slot that is not the last is
      strictly later. */
  lemma NextSlotIsLater(slots: seq<Slot>, i: nat)
    requires ValuesIncrease(slots)
    requires i + 1 < |slots|
    ensures NextSlot(slots[i].value, slots) == slots[i + 1].value
    ensures LexLess(slots[i].value, NextSlot(slots[i].value, slots))
  {
    forall k | 0 <= k < i
      ensures slots[k].value != slots[i].value
    {
      LexLessIrreflexive(slots[i].value);
    }
    assert FirstAt(slots, slots[i].value, i);
  }

  // ---------------------------------------------------------------------
  // The signed-in schema and the end-time auto-advance
  // ---------------------------------------------------------------------

  datatype FieldError = FieldError(path: string, message: string)

  const EndBeforeStart: string := "종료 시간은 시작 시간보다 늦어야 합니다"

  /** `loggedInSchema`: the refinement `end > start`, reported on `end`. */
  function ValidateTimes(start: string, end: string): (r: Option<FieldError>)
    ensures r.None? <==> LexLess(start, end)
    ensures r.Some? ==> r.value == FieldError("end", EndBeforeStart)
  {
    if LexLess(start, end) then None else Some(FieldError("end", EndBeforeStart))
  }

  /** For well-formed times the schema accepts exactly the pairs whose end is
      later in the day than the start. */
  lemma ValidateTimesIsTimeOrder(start: string, end: string)
    requires IsClock(start) && IsClock(end)
    ensures ValidateTimes(start, end).None? <==> Seconds(start) < Seconds(end)
  {
    LexLessIsTimeOrder(start, end);
  }

  const DefaultStart: string := "09:00:00"
  const DefaultEnd: string := "09:30:00"

  /** The form's default values pass the schema. */
  lemma DefaultsValid()
    ensures ValidateTimes(DefaultStart, DefaultEnd).None?
  {
    assert DefaultStart[3] == '0' && DefaultEnd[3] == '3';
    assert DefaultStart[..3] == DefaultEnd[..3];
    assert DefaultStart == DefaultStart[..3] + DefaultStart[3..];
    assert DefaultEnd == DefaultEnd[..3] + DefaultEnd[3..];
    LexLessAppend(DefaultStart[..3], DefaultStart[3..], DefaultEnd[..3], DefaultEnd[3..]);
  }

  /** The effect run when `start` changes: an end not after the new start
      (`end <= start`) is replaced by the slot after the start. */
  function AfterStartChange(start: string, end: string, slots: seq<Slot>): (newEnd: string)
    requires |slots| > 0
    ensures LexLess(start, end) ==> newEnd == end
    ensures !LexLess(start, end) ==> newEnd == NextSlot(start, slots)
  {
    if !LexLess(start, end) then NextSlot(start, slots) else end
  }

  /** After the effect the form is valid again, unless the start is the last
      slot of the grid. */
  lemma AfterStartChangeValid(start: string, end: string, slots: seq<Slot>, i: nat)
    requires ValuesIncrease(slots)
    requires i + 1 < |slots| && slots[i].value == start
    ensures ValidateTimes(start, AfterStartChange(start, end, slots)).None?
  {
    NextSlotIsLater(slots, i);
  }

  /** With the start on the last slot the effect sets the end to the start
      itself, and the schema then rejects the form. */
  lemma AfterStartChangeAtLastSlot(start: string, end: string, slots: seq<Slot>)
    requires ValuesIncrease(slots)
    requires |slots| > 0 && slots[|slots| - 1].value == start
    requires !LexLess(start, end)
    ensures AfterStartChange(start, end, slots) == start
    ensures ValidateTimes(start, AfterStartChange(start, end, slots)).Some?
  {
    var n := |slots|;
    forall k | 0 <= k < n - 1
      ensures slots[k].value != start
    {
      LexLessIrreflexive(start);
    }
    assert FirstAt(slots, start, n - 1);
    LexLessIrreflexive(start);
  }

  // ---------------------------------------------------------------------
  // The overlap pre-check
  // ---------------------------------------------------------------------

  datatype Interval = Interval(start: string, end: string)

  function BusyOf(r: Reservation): Interval { Interval(r.startTime, r.endTime) }

  /** The busy list a room's form receives: its reservations' time pairs. */
  function Busy(reservations: seq<Reservation>): (busy: seq<Interval>)
    ensures |busy| == |reservations|
    ensures forall i :: 0 <= i < |busy| ==>
              busy[i].start == reservations[i].startTime && busy[i].end == reservations[i].endTime
  {
    Map(reservations, BusyOf)
  }

  /** `busy.some(b => isOverlapping(start, end, b.start, b.end))`. */
  predicate AnyOverlap(busy: seq<Interval>, start: string, end: string)
  {
    |busy| > 0 && (IsOverlapping(start, end, busy[0].start, busy[0].end) || AnyOverlap(busy[1..], start, end))
  }

  lemma {:induction false} AnyOverlapIff(busy: seq<Interval>, start: string, end: string)
    ensures AnyOverlap(busy, start, end) <==>
              exists i :: 0 <= i < |busy| && IsOverlapping(start, end, busy[i].start, busy[i].end)
  {
    if |busy| > 0 {
      AnyOverlapIff(busy[1..], start, end);
      if exists i :: 0 <= i < |busy| && IsOverlapping(start, end, busy[i].start, busy[i].end) {
        var i :| 0 <= i < |busy| && IsOverlapping(start, end, busy[i].start, busy[i].end);
        if i > 0 {
          assert busy[1..][i - 1] == busy[i];
        }
      }
    }
  }

  /** The pre-check on a room's reservations finds a clash iff some
      reservation of the room overlaps the chosen interval. */
  lemma PreCheckFindsReservation(reservations: seq<Reservation>, start: string, end: string)
    ensures AnyOverlap(Busy(reservations), start, end) <==>
              exists i :: 0 <= i < |reservations|
                && IsOverlapping(start, end, reservations[i].startTime, reservations[i].endTime)
  {
    AnyOverlapIff(Busy(reservations), start, end);
  }

  // ---------------------------------------------------------------------
  // Submission
  // ---------------------------------------------------------------------

  /** Contact details only the guest form sends. */
  datatype Reserver = Reserver(name: string, phone: string, password: string)

  /** The body handed to `createReservation`. */
  datatype CreateRequest = CreateRequest(
    roomId: string, date: string, startTime: string, endTime: string,
    reserver: Option<Reserver>)

  /** How the `createReservation` promise settles: it resolves with success
      or with the error the API sent, or it rejects, when the request cannot
      be sent or a successful answer's body is not JSON. */
  datatype ServiceResult = Succeeded | Failed(error: Option<string>) | Rejected

  /** The call the form makes to its `onDone` callback. */
  datatype Done = Done(ok: bool, message: Option<string>)

  /** What one submission does: the request it sends, if any, and how it
      finishes, if it calls `onDone` at all. */
  datatype Submission = Submission(request: Option<CreateRequest>, done: Option<Done>)

  const AlreadyReserved: string := "해당 시간은 이미 예약되어 있습니다"

  /** The part shared by both forms once a submission goes ahead: refuse a
      clash locally, otherwise send the request and relay the service's answer. */
  function SendUnlessBusy(busy: seq<Interval>, request: CreateRequest, service: ServiceResult): (s: Submission)
    ensures AnyOverlap(busy, request.startTime, request.endTime) ==>
              s == Submission(None, Some(Done(false, Some(AlreadyReserved))))
    ensures !AnyOverlap(busy, request.startTime, request.endTime) ==>
              && s.request == Some(request)
              && (service.Succeeded? ==> s.done == Some(Done(true, None)))
              && (service.Failed? ==> s.done == Some(Done(false, service.error)))
              && (service.Rejected? ==> s.done == None)
  {
    if AnyOverlap(busy, request.startTime, request.endTime) then
      Submission(None, Some(Done(false, Some(AlreadyReserved))))
    else
      match service
      case Succeeded => Submission(Some(request), Some(Done(true, None)))
      case Failed(error) => Submission(Some(request), Some(Done(false, error)))
      case Rejected => Submission(Some(request), None)
  }

  /** The signed-in form's `onSubmit`: without a session it does nothing. */
  function SubmitSignedIn(
    hasSession: bool, busy: seq<Interval>, roomId: string, date: string,
    start: string, end: string, service: ServiceResult): (s: Submission)
    ensures !hasSession ==> s == Submission(None, None)
    ensures hasSession ==>
              s == SendUnlessBusy(busy, CreateRequest(roomId, date, start, end, None), service)
  {
    if !hasSession then Submission(None, None)
    else SendUnlessBusy(busy, CreateRequest(roomId, date, start, end, None), service)
  }

  /** A request leaves the signed-in form exactly when there is a session and
      no busy interval of the room overlaps the chosen one; it always names
      the form's room, date and times and never carries contact details. */
  lemma SignedInSendsIff(
    hasSession: bool, busy: seq<Interval>, roomId: string, date: string,
    start: string, end: string, service: ServiceResult)
    ensures SubmitSignedIn(hasSession, busy, roomId, date, start, end, service).request.Some?
            <==> hasSession && forall i :: 0 <= i < |busy| ==> !IsOverlapping(start, end, busy[i].start, busy[i].end)
    ensures SubmitSignedIn(hasSession, busy, roomId, date, start, end, service).request.Some? ==>
              SubmitSignedIn(hasSession, busy, roomId, date, start, end, service).request.value
              == CreateRequest(roomId, date, start, end, None)
  {
    AnyOverlapIff(busy, start, end);
  }

  /** `onDone` is called unless a request went out and the service promise
      rejected; a submission that sends nothing reports failure, and success
      is reported exactly when a request went out and the service succeeded. */
  lemma SubmissionOutcome(busy: seq<Interval>, request: CreateRequest, service: ServiceResult)
    ensures var s := SendUnlessBusy(busy, request, service);
            && (s.done.None? <==> s.request.Some? && service.Rejected?)
            && (s.request.None? ==> s.done.Some? && !s.done.value.ok)
            && (s.done.Some? ==> (s.done.value.ok <==> s.request.Some? && service.Succeeded?))
  {
  }

  /** The button the signed-in form shows: without a session it only offers
      the way to the login page. */
  datatype Action = Submit | RedirectTo(path: string)

  function PrimaryAction(hasSession: bool): (a: Action)
    ensures a.Submit? <==> hasSession
    ensures a.RedirectTo? ==> a.path == "/login"
  {
    if hasSession then Submit else RedirectTo("/login")
  }

  // ---------------------------------------------------------------------
  // The guest form
  // ---------------------------------------------------------------------

  const NameRequired: string := "이름을 입력해 주세요"
  const PhoneFormat: string := "전화번호 형식: 010-0000-0000"
  const PasswordTooShort: string := "비밀번호는 4자 이상"

  /** The field rules of `bookingSchema`, errors in field order. String
      lengths there count UTF-16 code units; for the name's minimum of one
      that is the same as a non-empty string. The `end`
      refinement there reads a parent object the schema library does not
      supply and is not part of this model. */
  function ValidateGuest(name: string, phone: string, password: string): (errs: seq<FieldError>)
  {
    (if |name| >= 1 then [] else [FieldError("reserver_name", NameRequired)])
    + (if Matches(PhonePattern(), phone) then [] else [FieldError("reserver_phone", PhoneFormat)])
    + (if Utf16Length(password) >= 4 then [] else [FieldError("reserver_password", PasswordTooShort)])
  }

  /** A field is reported iff its rule fails: a non-empty name, a phone of the
      form `010-dddd-dddd`, a password of at least four UTF-16 code units. */
  lemma ValidateGuestFields(name: string, phone: string, password: string)
    ensures var errs := ValidateGuest(name, phone, password);
            && (FieldError("reserver_name", NameRequired) in errs <==> name == "")
            && (FieldError("reserver_phone", PhoneFormat) in errs <==> !IsMobileNumber(phone))
            && (FieldError("reserver_password", PasswordTooShort) in errs <==> Utf16Length(password) < 4)
            && (errs == [] <==> name != "" && IsMobileNumber(phone) && Utf16Length(password) >= 4)
  {
    PhonePatternMeaning(phone);
  }

  /** The guest form's `onSubmit`: the same pre-check, with the contact
      details added to the request. */
  function SubmitGuest(
    busy: seq<Interval>, roomId: string, date: string, start: string, end: string,
    reserver: Reserver, service: ServiceResult): (s: Submission)
    ensures s.request.Some? ==> s.request.value.reserver == Some(reserver)
    ensures s.request.Some? <==> !AnyOverlap(busy, start, end)
  {
    SendUnlessBusy(busy, CreateRequest(roomId, date, start, end, Some(reserver)), service)
  }

  // ---------------------------------------------------------------------
  // Realtime refresh
  // ---------------------------------------------------------------------

  /** A JavaScript-truthy string: present and non-empty. */
  function Truthy(o: Option<string>): (r: Option<string>)
    ensures r.Some? <==> o.Some? && o.value != ""
    ensures r.Some? ==> r == o
  {
    if o.Some? && o.value != "" then o else None
  }

  /** The refresh test of the realtime listener: the change's date is taken
      from the new row, else from the old one; a change with no date, or on
      the selected date, refreshes the page. */
  predicate ShouldRefresh(newDate: Option<string>, oldDate: Option<string>, selected: string)
  {
    var d := Truthy(newDate).OrElse(Truthy(oldDate));
    d.None? || d.value == selected
  }

  lemma ShouldRefreshCases(newDate: Option<string>, oldDate: Option<string>, selected: string)
    ensures newDate.Some? && newDate.value != "" ==>
              (ShouldRefresh(newDate, oldDate, selected) <==> newDate.value == selected)
    ensures (newDate.None? || newDate.value == "") && oldDate.Some? && oldDate.value != "" ==>
              (ShouldRefresh(newDate, oldDate, selected) <==> oldDate.value == selected)
    ensures (newDate.None? || newDate.value == "") && (oldDate.None? || oldDate.value == "") ==>
              ShouldRefresh(newDate, oldDate, selected)
  {
  }
}

=== FILE: clock.dfy ===
/** Times of day as the application stores them: zero-padded `HH:MM:SS`
    strings. The code compares them with JavaScript's string `<`; this module
    proves that on such strings that comparison is the numeric order of the
    times. */
module Clock {
  import opened Strings

  function TwoDigits(hi: char, lo: char): (v: nat)
    requires IsDigit(hi) && IsDigit(lo)
    ensures v < 100
  {
    10 * DigitValue(hi) + DigitValue(lo)
  }

  /** A well-formed `HH:MM:SS` time, minutes and seconds below 60. */
  predicate IsClock(t: string)
  {
    && |t| == 8
    && IsDigit(t[0]) && IsDigit(t[1]) && t[2] == ':'
    && IsDigit(t[3]) && IsDigit(t[4]) && t[5] == ':'
    && IsDigit(t[6]) && IsDigit(t[7])
    && TwoDigits(t[3], t[4]) < 60
    && TwoDigits(t[6], t[7]) < 60
  }

  /** The time as a number of seconds after midnight. */
  function Seconds(t: string): nat
    requires IsClock(t)
  {
    3600 * TwoDigits(t[0], t[1]) + 60 * TwoDigits(t[3], t[4]) + TwoDigits(t[6], t[7])
  }

  /** On two-digit strings, `<` and `==` are the order and equality of the numbers. */
  lemma TwoDigitOrder(a: string, b: string)
    requires |a| == 2 && |b| == 2
    requires IsDigit(a[0]) && IsDigit(a[1]) && IsDigit(b[0]) && IsDigit(b[1])
    ensures LexLess(a, b) <==> TwoDigits(a[0], a[1]) < TwoDigits(b[0], b[1])
    ensures a == b <==> TwoDigits(a[0], a[1]) == TwoDigits(b[0], b[1])
  {
    assert a[1..][1..] == [] && b[1..][1..] == [];
    if a[0] == b[0] && a[1] == b[1] {
      assert a == [a[0], a[1]] && b == [b[0], b[1]];
      LexLessIrreflexive(a);
    }
  }

  /** `LexLess(x + y, x' + y')` for a two-character first part. */
  lemma PairThenRest(t: string, u: string, i: nat)
    requires i + 2 <= |t| && |t| == |u|
    requires IsDigit(t[i]) && IsDigit(t[i + 1]) && IsDigit(u[i]) && IsDigit(u[i + 1])
    ensures LexLess(t[i..], u[i..]) <==>
              TwoDigits(t[i], t[i + 1]) < TwoDigits(u[i], u[i + 1])
              || (TwoDigits(t[i], t[i + 1]) == TwoDigits(u[i], u[i + 1]) && LexLess(t[i + 2..], u[i + 2..]))
  {
    assert t[i..] == t[i..i + 2] + t[i + 2..];
    assert u[i..] == u[i..i + 2] + u[i + 2..];
    LexLessAppend(t[i..i + 2], t[i + 2..], u[i..i + 2], u[i + 2..]);
    TwoDigitOrder(t[i..i + 2], u[i..i + 2]);
  }

  /** Stepping over a separator both strings share. */
  lemma SameThenRest(t: string, u: string, i: nat)
    requires i < |t| && |t| == |u| && t[i] == u[i]
    ensures LexLess(t[i..], u[i..]) <==> LexLess(t[i + 1..], u[i + 1..])
  {
    assert t[i..][1..] == t[i + 1..] && u[i..][1..] == u[i + 1..];
  }

  /** For zero-padded `HH:MM:SS` strings, JavaScript's string `<` orders
      them exactly as the times they denote. */
  lemma LexLessIsTimeOrder(a: string, b: string)
    requires IsClock(a) && IsClock(b)
    ensures LexLess(a, b) <==> Seconds(a) < Seconds(b)
  {
    PairThenRest(a, b, 0);
    SameThenRest(a, b, 2);
    PairThenRest(a, b, 3);
    SameThenRest(a, b, 5);
    PairThenRest(a, b, 6);
    assert a[8..] == [] && b[8..] == [];
    assert a == a[0..];
    assert b == b[0..];
  }

  /** Two well-formed times are the same string iff they denote the same time. */
  lemma SecondsInjective(a: string, b: string)
    requires IsClock(a) && IsClock(b)
    ensures a == b <==> Seconds(a) == Seconds(b)
  {
    LexLessIsTimeOrder(a, b);
    LexLessIsTimeOrder(b, a);
    LexLessTotal(a, b);
  }
}

=== FILE: create_reservation.dfy ===
/** The reservation-create endpoint (`POST /api/reservations`) as a decision
    tree. The session cookie, the request body and the database procedure's
    answer are inputs; the result records the procedure call the handler
    makes, if any, and the response it returns. */
module CreateReservation {
  import opened Wrappers
  import opened Strings

  /** The `user_session` cookie: absent, present but not valid JSON, or
      parsed, with the `userId` it carries (if any). */
  datatype SessionCookie =
    | NoCookie
    | Unparsable(message: Option<string>)
    | Session(userId: Option<string>)

  /** The request body: not valid JSON, or JSON `null` (destructuring either
      throws), or else its four reservation fields, each possibly missing; any
      other non-object value has all four missing. */
  datatype RequestBody =
    | BadBody(message: Option<string>)
    | Body(roomId: Option<string>, date: Option<string>, startTime: Option<string>, endTime: Option<string>)

  /** What the `create_reservation_authed` procedure answers. */
  datatype RpcResult =
    | RpcData(data: string)
    | RpcError(message: Option<string>)
    | RpcThrew(message: Option<string>)

  /** The arguments of the procedure call. */
  datatype RpcArgs = RpcArgs(roomId: string, date: string, startTime: string, endTime: string, userId: string)

  datatype ResponseBody = Error(error: string) | Data(data: string)
  datatype Response = Response(status: nat, body: ResponseBody)

  datatype Outcome = Outcome(rpc: Option<RpcArgs>, response: Response)

  const NotAuthenticated: string := "Not authenticated"
  const InvalidSession: string := "Invalid session"
  const MissingDetails: string := "Missing required reservation details"
  const RpcDefault: string := "예약 처리 중 오류가 발생했습니다."
  const DoubleBooked: string := "선택하신 시간대에는 이미 예약이 있습니다."
  const Unexpected: string := "An unexpected error occurred"

  /** The message of a failed procedure call as the client sees it: the
      procedure's message (or the default when it has none) unless it speaks
      of an overlap or a conflict, which becomes the double-booking message. */
  function RpcErrorMessage(message: Option<string>): (m: string)
  {
    ConflictAsDoubleBooked(if Present(message) then message.value else RpcDefault)
  }

  /** The `/overlap/i` and `/conflict/i` tests and the replacement. */
  function ConflictAsDoubleBooked(text: string): string
  {
    if ContainsIgnoreCase(text, "overlap") || ContainsIgnoreCase(text, "conflict") then DoubleBooked
    else text
  }

  /** `e?.message ?? default` in the handler's catch block. */
  function ThrownMessage(message: Option<string>): string
  {
    message.GetOr(Unexpected)
  }

  function HandleCreate(cookie: SessionCookie, body: RequestBody, rpc: RpcResult): (o: Outcome)
    ensures o.rpc.Some? ==> cookie.Session? && Present(cookie.userId) && o.rpc.value.userId == cookie.userId.value
    ensures o.rpc.Some? ==>
              body.Body? && Present(body.roomId) && Present(body.date) && Present(body.startTime) && Present(body.endTime)
    ensures o.response.status in {200, 400, 401, 500}
  {
    match cookie
    case NoCookie => Outcome(None, Response(401, Error(NotAuthenticated)))
    case Unparsable(m) => Outcome(None, Response(500, Error(ThrownMessage(m))))
    case Session(userId) =>
      if !Present(userId) then Outcome(None, Response(401, Error(InvalidSession)))
      else match body
        case BadBody(m) => Outcome(None, Response(500, Error(ThrownMessage(m))))
        case Body(roomId, date, startTime, endTime) =>
          if !Present(roomId) || !Present(date) || !Present(startTime) || !Present(endTime) then
            Outcome(None, Response(400, Error(MissingDetails)))
          else
            Call(RpcArgs(roomId.value, date.value, startTime.value, endTime.value, userId.value), rpc)
  }

  /** The procedure call with `args` and the response to its answer. */
  function Call(args: RpcArgs, rpc: RpcResult): (o: Outcome)
    ensures o.rpc == Some(args)
    ensures o.response.status in {200, 400, 500}
  {
    match rpc
    case RpcData(data) => Outcome(Some(args), Response(200, Data(data)))
    case RpcError(m) => Outcome(Some(args), Response(400, Error(RpcErrorMessage(m))))
    case RpcThrew(m) => Outcome(Some(args), Response(500, Error(ThrownMessage(m))))
  }

  /** The authentication checks come first: without a cookie the answer is
      401 "Not authenticated", with a session lacking a user id it is 401
      "Invalid session", whatever the body, and the procedure is not called. */
  lemma SessionChecks(cookie: SessionCookie, body: RequestBody, rpc: RpcResult)
    ensures cookie.NoCookie? ==>
              HandleCreate(cookie, body, rpc) == Outcome(None, Response(401, Error(NotAuthenticated)))
    ensures cookie.Session? && !Present(cookie.userId) ==>
              HandleCreate(cookie, body, rpc) == Outcome(None, Response(401, Error(InvalidSession)))
    ensures cookie.Unparsable? ==>
              HandleCreate(cookie, body, rpc).rpc.None? && HandleCreate(cookie, body, rpc).response.status == 500
  {
  }

  /** With a valid session, a body missing any of the four fields (or with one
      empty) is refused with 400 before the procedure is called. */
  lemma MissingFieldIsRefused(userId: string, roomId: Option<string>, date: Option<string>,
                              startTime: Option<string>, endTime: Option<string>, rpc: RpcResult)
    requires userId != ""
    requires !Present(roomId) || !Present(date) || !Present(startTime) || !Present(endTime)
    ensures HandleCreate(Session(Some(userId)), Body(roomId, date, startTime, endTime), rpc)
            == Outcome(None, Response(400, Error(MissingDetails)))
  {
  }

  /** The procedure is called exactly when the session has a user id and the
      body has all four fields, with the body's fields and the session's user
      id; a user id in the body could not reach it, since the body type has
      none. */
  lemma RpcCallIff(userId: Option<string>, body: RequestBody, rpc: RpcResult)
    ensures var o := HandleCreate(Session(userId), body, rpc);
            o.rpc.Some? <==> Present(userId) && body.Body? && Present(body.roomId) && Present(body.date)
                             && Present(body.startTime) && Present(body.endTime)
    ensures var o := HandleCreate(Session(userId), body, rpc);
            o.rpc.Some? ==> o.rpc.value == RpcArgs(body.roomId.value, body.date.value, body.startTime.value,
                                                   body.endTime.value, userId.value)
  {
  }

  /** The answer once the procedure was called: its data unchanged with 200,
      its error mapped with 400, a thrown error with 500. */
  lemma RpcOutcome(args: RpcArgs, rpc: RpcResult)
    requires args.userId != "" && args.roomId != "" && args.date != "" && args.startTime != "" && args.endTime != ""
    ensures var o := HandleCreate(Session(Some(args.userId)),
                                  Body(Some(args.roomId), Some(args.date), Some(args.startTime), Some(args.endTime)), rpc);
            && o.rpc == Some(args)
            && (rpc.RpcData? ==> o.response == Response(200, Data(rpc.data)))
            && (rpc.RpcError? ==> o.response == Response(400, Error(RpcErrorMessage(rpc.message))))
            && (rpc.RpcThrew? ==> o.response == Response(500, Error(rpc.message.GetOr(Unexpected))))
  {
    var body := Body(Some(args.roomId), Some(args.date), Some(args.startTime), Some(args.endTime));
    assert HandleCreate(Session(Some(args.userId)), body, rpc) == Call(args, rpc);
  }

  /** The error message mapping: the double-booking message exactly when the
      text contains "overlap" or "conflict" in some mix of upper and lower
      case, or is that message already; otherwise the text itself. */
  lemma ConflictAsDoubleBookedMeaning(text: string)
    ensures ConflictAsDoubleBooked(text) == DoubleBooked <==>
              MentionsWord(ToLower(text), "overlap") || MentionsWord(ToLower(text), "conflict")
              || text == DoubleBooked
    ensures ConflictAsDoubleBooked(text) == DoubleBooked || ConflictAsDoubleBooked(text) == text
  {
    LowerWords();
    IgnoreCaseWord(text, "overlap");
    IgnoreCaseWord(text, "conflict");
  }

  /** For a lower-case word, `/word/i` finds it in the lower-cased text. */
  lemma IgnoreCaseWord(text: string, word: string)
    requires ToLower(word) == word
    ensures ContainsIgnoreCase(text, word) <==> MentionsWord(ToLower(text), word)
  {
    ContainsIff(ToLower(text), word);
  }

  /** `word` occurs somewhere in `s`. */
  ghost predicate MentionsWord(s: string, word: string)
  {
    exists i: nat :: OccursAt(s, word, i)
  }

  lemma LowerWords()
    ensures ToLower("overlap") == "overlap"
    ensures ToLower("conflict") == "conflict"
  {
    ToLowerNoUpper("overlap");
    ToLowerNoUpper("conflict");
  }

  /** A procedure error without a message (or with an empty one) gets the
      default text, which is neither about an overlap nor a conflict. */
  lemma MissingRpcMessage(message: Option<string>)
    requires !Present(message)
    ensures RpcErrorMessage(message) == RpcDefault
  {
    DefaultHasNoAsciiLetters();
    NoAsciiWords(RpcDefault);
  }

  lemma DefaultHasNoAsciiLetters()
    ensures NoAsciiLetters(RpcDefault)
  {
  }

  /** No ASCII letter in `text`. */
  predicate NoAsciiLetters(text: string)
  {
    forall i :: 0 <= i < |text| ==> !('A' <= text[i] <= 'Z') && !('a' <= text[i] <= 'z')
  }

  /** A text without ASCII letters mentions neither word. */
  lemma NoAsciiWords(text: string)
    requires NoAsciiLetters(text)
    ensures !ContainsIgnoreCase(text, "overlap") && !ContainsIgnoreCase(text, "conflict")
  {
    LowerWords();
    ToLowerNoUpper(text);
    FirstCharAbsent(ToLower(text), "overlap");
    FirstCharAbsent(ToLower(text), "conflict");
  }
}

=== FILE: csv.dfy ===
/** The CSV text the "my reservations" page exports: every field wrapped in
    double quotes with each quote inside doubled, fields joined by commas,
    lines by newlines, under an unquoted header line. A reader for that
    format is defined alongside, and the export is proved to read back as
    the rows it was made from. */
module Csv {
  import opened Wrappers
  import opened Seqs

  const Quote: char := '"'

  /** `s.replaceAll('"', '""')`. */
  function Escape(s: string): (r: string)
    ensures |r| >= |s|
  {
    if |s| == 0 then [] else (if s[0] == Quote then [Quote, Quote] else [s[0]]) + Escape(s[1..])
  }

  /** `"${...}"`: the escaped field between quotes. */
  function QuoteField(s: string): string
  {
    [Quote] + Escape(s) + [Quote]
  }

  /** `parts.join(sep)`. */
  function Join(parts: seq<string>, sep: char): string
  {
    if |parts| == 0 then ""
    else if |parts| == 1 then parts[0]
    else parts[0] + [sep] + Join(parts[1..], sep)
  }

  /** One data line. */
  function EncodeRow(fields: seq<string>): string
  {
    Join(Map(fields, QuoteField), ',')
  }

  /** The header line followed by one line per row. */
  function Document(columns: seq<string>, rows: seq<seq<string>>): string
  {
    Join([Join(columns, ',')] + Map(rows, EncodeRow), '\n')
  }

  // ---------------------------------------------------------------------
  // Reading the format back
  // ---------------------------------------------------------------------

  /** The rest of a quoted field after its opening quote: the field's text,
      with `""` read as one quote, and what follows the closing quote. */
  function ReadQuoted(t: string): (r: Option<(string, string)>)
    ensures r.Some? ==> |r.value.1| < |t|
  {
    if |t| == 0 then None
    else if t[0] == Quote then
      if |t| > 1 && t[1] == Quote then
        match ReadQuoted(t[2..])
        case None => None
        case Some((f, rest)) => Some(([Quote] + f, rest))
      else Some(([], t[1..]))
    else
      match ReadQuoted(t[1..])
      case None => None
      case Some((f, rest)) => Some(([t[0]] + f, rest))
  }

  /** Comma-separated quoted fields, and what follows the last one. */
  function ReadRow(t: string): (r: Option<(seq<string>, string)>)
    ensures r.Some? ==> |r.value.1| < |t|
    decreases |t|
  {
    if |t| == 0 || t[0] != Quote then None
    else
      match ReadQuoted(t[1..])
      case None => None
      case Some((f, rest)) =>
        if |rest| > 0 && rest[0] == ',' then
          match ReadRow(rest[1..])
          case None => None
          case Some((fs, after)) => Some(([f] + fs, after))
        else Some(([f], rest))
  }

  /** Newline-separated rows up to the end of the text. */
  function ReadRows(t: string): Option<seq<seq<string>>>
    decreases |t|
  {
    match ReadRow(t)
    case None => None
    case Some((fs, rest)) =>
      if |rest| == 0 then Some([fs])
      else if rest[0] == '\n' then
        match ReadRows(rest[1..])
        case None => None
        case Some(more) => Some([fs] + more)
      else None
  }

  /** The rows of a document that starts with the given header line. */
  function ReadDocument(columns: seq<string>, doc: string): Option<seq<seq<string>>>
  {
    var head := Join(columns, ',') + "\n";
    if |head| <= |doc| && doc[..|head|] == head then ReadRows(doc[|head|..]) else None
  }

  // ---------------------------------------------------------------------
  // Round trips
  // ---------------------------------------------------------------------

  /** Unquoting an escaped field recovers it, and stops at its closing
      quote. */
  lemma {:induction false} ReadQuotedEscape(s: string, tail: string)
    requires |tail| == 0 || tail[0] != Quote
    ensures ReadQuoted(Escape(s) + [Quote] + tail) == Some((s, tail))
  {
    var t := Escape(s) + [Quote] + tail;
    if |s| == 0 {
      assert t == [Quote] + tail;
      DropPrefix([Quote], tail);
    } else {
      var head := if s[0] == Quote then [Quote, Quote] else [s[0]];
      var u := Escape(s[1..]) + [Quote] + tail;
      ReadQuotedEscape(s[1..], tail);
      AppendAssoc(head, Escape(s[1..]), [Quote]);
      AppendAssoc(head, Escape(s[1..]) + [Quote], tail);
      assert t == head + u;
      DropPrefix(head, u);
      HeadTail(s);
    }
  }

  /** A quoted field reads back as itself. */
  lemma QuoteFieldReads(s: string, tail: string)
    requires |tail| == 0 || tail[0] != Quote
    ensures var t := QuoteField(s) + tail; |t| > 0 && t[0] == Quote && ReadQuoted(t[1..]) == Some((s, tail))
  {
    var e := Escape(s) + [Quote] + tail;
    var t := QuoteField(s) + tail;
    assert t == [Quote] + e;
    assert t[1..] == e;
    ReadQuotedEscape(s, tail);
  }

  /** The fields of a line after its first. */
  lemma EncodeRowSplit(fields: seq<string>)
    requires |fields| > 1
    ensures EncodeRow(fields) == QuoteField(fields[0]) + [','] + EncodeRow(fields[1..])
  {
    assert Map(fields, QuoteField)[1..] == Map(fields[1..], QuoteField);
  }

  /** An encoded line reads back as its fields, whatever they contain. */
  lemma {:induction false} ReadRowEncode(fields: seq<string>, tail: string)
    requires |fields| > 0
    requires |tail| == 0 || (tail[0] != Quote && tail[0] != ',')
    ensures ReadRow(EncodeRow(fields) + tail) == Some((fields, tail))
  {
    var t := EncodeRow(fields) + tail;
    if |fields| == 1 {
      assert EncodeRow(fields) == QuoteField(fields[0]);
      QuoteFieldReads(fields[0], tail);
      assert fields == [fields[0]];
    } else {
      var q, rest := QuoteField(fields[0]), EncodeRow(fields[1..]) + tail;
      EncodeRowSplit(fields);
      AppendAssoc(q, [','], EncodeRow(fields[1..]));
      AppendAssoc(q, [','] + EncodeRow(fields[1..]), tail);
      AppendAssoc([','], EncodeRow(fields[1..]), tail);
      assert t == q + ([','] + rest);
      QuoteFieldReads(fields[0], [','] + rest);
      ReadRowEncode(fields[1..], tail);
      DropPrefix([','], rest);
      HeadTail(fields);
    }
  }

  /** Lines after the first. */
  lemma JoinLinesSplit(rows: seq<seq<string>>)
    requires |rows| > 1
    ensures Join(Map(rows, EncodeRow), '\n') == EncodeRow(rows[0]) + (['\n'] + Join(Map(rows[1..], EncodeRow), '\n'))
  {
    var lines := Map(rows, EncodeRow);
    assert lines[1..] == Map(rows[1..], EncodeRow);
    assert Join(lines, '\n') == lines[0] + ['\n'] + Join(lines[1..], '\n');
    AppendAssoc(lines[0], ['\n'], Join(lines[1..], '\n'));
  }

  /** Lines joined by newlines read back as the rows, however many commas,
      quotes or newlines their fields contain. */
  lemma {:induction false} ReadRowsEncode(rows: seq<seq<string>>)
    requires |rows| > 0
    requires forall i :: 0 <= i < |rows| ==> |rows[i]| > 0
    ensures ReadRows(Join(Map(rows, EncodeRow), '\n')) == Some(rows)
  {
    if |rows| == 1 {
      ReadOneLine(rows);
    } else {
      ReadRowsEncode(rows[1..]);
      ReadFirstLine(rows);
    }
  }

  /** A single line reads back as its row. */
  lemma ReadOneLine(rows: seq<seq<string>>)
    requires |rows| == 1 && |rows[0]| > 0
    ensures ReadRows(Join(Map(rows, EncodeRow), '\n')) == Some(rows)
  {
    assert Join(Map(rows, EncodeRow), '\n') == EncodeRow(rows[0]) + [];
    ReadRowEncode(rows[0], []);
    ReadLastRow(EncodeRow(rows[0]), rows[0]);
    assert rows == [rows[0]];
  }

  /** The first line reads back as its row, followed by whatever the lines
      after it read back as. */
  lemma ReadFirstLine(rows: seq<seq<string>>)
    requires |rows| > 1 && |rows[0]| > 0
    requires ReadRows(Join(Map(rows[1..], EncodeRow), '\n')) == Some(rows[1..])
    ensures ReadRows(Join(Map(rows, EncodeRow), '\n')) == Some(rows)
  {
    var rest := Join(Map(rows[1..], EncodeRow), '\n');
    JoinLinesSplit(rows);
    ReadRowEncode(rows[0], ['\n'] + rest);
    ReadNextRow(EncodeRow(rows[0]) + (['\n'] + rest), rows[0], rest, rows[1..]);
    HeadTail(rows);
  }

  /** A row that ends the text is the last one. */
  lemma ReadLastRow(t: string, fields: seq<string>)
    requires ReadRow(t + []) == Some((fields, []))
    ensures ReadRows(t + []) == Some([fields])
  {
  }

  /** A row followed by a newline is followed by the rows after it. */
  lemma ReadNextRow(t: string, fields: seq<string>, rest: string, more: seq<seq<string>>)
    requires ReadRow(t) == Some((fields, ['\n'] + rest))
    requires ReadRows(rest) == Some(more)
    ensures ReadRows(t) == Some([fields] + more)
  {
    assert (['\n'] + rest)[1..] == rest;
  }

  /** The exported document reads back as the header and exactly the rows it
      was made from, one line per row. */
  lemma DocumentRoundTrip(columns: seq<string>, rows: seq<seq<string>>)
    requires |rows| > 0
    requires forall i :: 0 <= i < |rows| ==> |rows[i]| > 0
    ensures ReadDocument(columns, Document(columns, rows)) == Some(rows)
  {
    var lines := Map(rows, EncodeRow);
    var head := Join(columns, ',') + "\n";
    var doc := Document(columns, rows);
    assert ([Join(columns, ',')] + lines)[1..] == lines;
    assert doc == head + Join(lines, '\n');
    assert doc[..|head|] == head && doc[|head|..] == Join(lines, '\n');
    ReadRowsEncode(rows);
  }
}

=== FILE: lookup_api.dfy ===
/** The reservation lookup endpoint (`GET` and `POST /api/my-reservations`)
    as a decision tree. The query string, the session cookie, the request
    body and every database answer are inputs; the outcome records which
    lookups the handler asks for and the response it returns. */
module LookupApi {
  import opened Wrappers
  import opened Strings
  import opened Seqs
  import opened LookupRules
  import CreateReservation

  const MissingCredentials: string := "전화번호와 비밀번호를 모두 입력해주세요."
  const LookupFailed: string := "예약 조회 중 오류가 발생했습니다."
  const RoomsFailed: string := "회의실 정보를 불러오지 못했습니다."
  const PasswordColumnMissing: string :=
    "예약 비밀번호 컬럼을 찾을 수 없습니다. 데이터베이스 마이그레이션 상태를 확인해주세요."
  const NotMigrated: string :=
    "현재 데이터베이스가 계정 기반 조회로 마이그레이션되지 않았습니다. 전화번호/비밀번호 조회를 사용해주세요."
  const UnexpectedError: string := "unexpected error"

  // ---------------------------------------------------------------------
  // The database answers
  // ---------------------------------------------------------------------

  /** What `get_my_reservations` answers: its data (`None` when it is not
      an array, or null) or an error. */
  datatype RpcAnswer = RpcData(data: Option<seq<RawReservation>>) | RpcFailed(error: DbError)

  /** What `get_my_reservations_for_user` answers. Its data is not checked
      with `Array.isArray`: null becomes `[]`, but any other value that is
      not an array reaches `reservations.map` in `loadRoomMap` and throws a
      TypeError, whose message is given here. */
  datatype AccountAnswer =
    | AccountRows(rows: seq<RawReservation>)
    | AccountNull
    | AccountNotArray(typeError: string)
    | AccountFailed(error: DbError)

  /** `reservations ?? []` for an answer that is an array or null. */
  function AccountList(a: AccountAnswer): seq<RawReservation>
  {
    if a.AccountRows? then a.rows else []
  }

  /** What the legacy `reservations` query answers. */
  datatype LegacyAnswer = LegacyData(data: Option<seq<RawReservation>>) | LegacyFailed(error: DbError)

  /** Every answer the database may give during one request; each handler
      consults only the ones its path reaches. */
  datatype Database = Database(hashed: RpcAnswer, forUser: AccountAnswer, rooms: RoomQuery, legacy: LegacyAnswer)

  // ---------------------------------------------------------------------
  // callHashedLookup
  // ---------------------------------------------------------------------

  /** Rows, "the procedure is not installed, fall back", or the error it
      throws. */
  datatype Hashed = HashedRows(rows: seq<RawReservation>) | NotInstalled | HashedThrew(error: DbError)

  /** A missing procedure or a missing column. */
  predicate NotMigratedError(e: DbError)
  {
    IsFunctionMissing(e) || IsColumnMissing(e)
  }

  function CallHashedLookup(answer: RpcAnswer): (h: Hashed)
    ensures h.NotInstalled? <==> answer.RpcFailed? && NotMigratedError(answer.error)
    ensures h.HashedThrew? <==> answer.RpcFailed? && !NotMigratedError(answer.error)
    ensures h.HashedThrew? ==> h.error == answer.error
    ensures h.HashedRows? ==> answer.RpcData? && (answer.data.Some? ==> h.rows == answer.data.value)
    ensures h.HashedRows? && answer.data.None? ==> h.rows == []
  {
    match answer
    case RpcData(data) => HashedRows(data.GetOr([]))
    case RpcFailed(e) => if NotMigratedError(e) then NotInstalled else HashedThrew(e)
  }

  // ---------------------------------------------------------------------
  // legacyLookup
  // ---------------------------------------------------------------------

  datatype LegacyInput = LegacyInput(phone: string, password: string, status: Option<string>,
                                     fromDate: Option<string>, toDate: Option<string>)

  datatype Credentials = Credentials(phone: string, password: string)

  /** The arguments of the legacy query: the owner's credentials and the
      filters, applied by the database. */
  datatype LegacyQuery = LegacyQuery(phone: string, password: string, status: Option<string>,
                                     from: Option<string>, to: Option<string>)

  datatype Reply = Found(data: seq<Sanitized>) | Refused(status: nat, error: string)

  /** The calls `legacyLookup` makes and its answer. */
  datatype LegacyOutcome = LegacyOutcome(hashed: Option<Credentials>, roomIds: Option<seq<string>>,
                                         legacy: Option<LegacyQuery>, reply: Reply)

  /** `record => sanitizeReservation(record, roomMap)`. */
  function Sanitizer(roomMap: Option<map<string, RoomInfo>>): RawReservation -> Sanitized
  {
    r => Sanitize(r, roomMap)
  }

  /** The filters the request asks for, normalised. */
  function Filters(input: LegacyInput): RawReservation -> bool
  {
    Keeps(NormalizeStatus(input.status), NormalizeDate(input.fromDate), NormalizeDate(input.toDate))
  }

  function LegacyLookup(input: LegacyInput, db: Database): (o: LegacyOutcome)
    ensures o.reply.Refused? ==> o.reply.status == 400 || o.reply.status == 500
    ensures o.legacy.Some? ==> o.hashed.Some? && o.roomIds.None?
  {
    var phone := Trim(input.phone);
    var password := Trim(input.password);
    if phone == "" || password == "" then LegacyOutcome(None, None, None, Refused(400, MissingCredentials))
    else Lookup(Credentials(phone, password), NormalizeStatus(input.status),
                NormalizeDate(input.fromDate), NormalizeDate(input.toDate), db)
  }

  /** `legacyLookup` once the credentials are known to be non-blank and the
      filters are normalised. */
  function Lookup(c: Credentials, status: Option<string>, from: Option<string>, to: Option<string>,
                  db: Database): (o: LegacyOutcome)
    ensures o.hashed == Some(c)
    ensures o.reply.Refused? ==> o.reply.status == 500
    ensures o.legacy.Some? <==> db.hashed.RpcFailed? && NotMigratedError(db.hashed.error)
    ensures o.legacy.Some? ==> o.roomIds.None? && o.legacy.value == LegacyQuery(c.phone, c.password, status, from, to)
  {
    match CallHashedLookup(db.hashed)
    case HashedThrew(e) => LegacyOutcome(Some(c), None, None, Refused(500, e.message.GetOr(LookupFailed)))
    case HashedRows(rows) => FromRows(c, FilterChain(rows, status, from, to), db.rooms)
    case NotInstalled => FromLegacy(c, LegacyQuery(c.phone, c.password, status, from, to), db.legacy)
  }

  /** The hashed path: the room map of the filtered rows, then the rows
      sanitised with it. */
  function FromRows(c: Credentials, filtered: seq<RawReservation>, rooms: RoomQuery): (o: LegacyOutcome)
    ensures o.hashed == Some(c) && o.legacy.None?
    ensures o.roomIds == LoadRoomMap(filtered, rooms).queried
    ensures o.reply.Refused? ==> o.reply.status == 500
  {
    var loaded := LoadRoomMap(filtered, rooms);
    match loaded.result
    case Failed(m) => LegacyOutcome(Some(c), loaded.queried, None, Refused(500, m.GetOr(RoomsFailed)))
    case RoomMap(m) => LegacyOutcome(Some(c), loaded.queried, None, Found(Map(filtered, Sanitizer(Some(m)))))
  }

  /** The legacy path: the database filters the rows, which carry their room. */
  function FromLegacy(c: Credentials, query: LegacyQuery, answer: LegacyAnswer): (o: LegacyOutcome)
    ensures o.hashed == Some(c) && o.roomIds.None? && o.legacy == Some(query)
    ensures o.reply.Refused? ==> o.reply.status == 500
  {
    match answer
    case LegacyFailed(e) =>
      var message := if IsColumnMissing(e) then PasswordColumnMissing else e.message.GetOr(LookupFailed);
      LegacyOutcome(Some(c), None, Some(query), Refused(500, message))
    case LegacyData(data) => LegacyOutcome(Some(c), None, Some(query), Found(Map(data.GetOr([]), Sanitizer(None))))
  }

  /** Credentials that are blank once trimmed are refused with 400 before the
      database is asked anything, and that is the only way to get that
      answer. */
  lemma LegacyBlankRefused(input: LegacyInput, db: Database)
    ensures var o := LegacyLookup(input, db);
            o.reply == Refused(400, MissingCredentials) <==> Trim(input.phone) == "" || Trim(input.password) == ""
    ensures var o := LegacyLookup(input, db);
            o.hashed.None? <==> Trim(input.phone) == "" || Trim(input.password) == ""
    ensures var o := LegacyLookup(input, db);
            o.hashed.None? ==> o.roomIds.None? && o.legacy.None?
    ensures var o := LegacyLookup(input, db);
            o.hashed.Some? ==> o.hashed.value == Credentials(Trim(input.phone), Trim(input.password))
  {
  }

  /** When the hashed procedure answers with rows, the reply holds exactly
      the rows that pass the normalised filters, in the procedure's order,
      each sanitised with the room map built from the rooms of those rows;
      the legacy query is not made. */
  lemma HashedPathReply(input: LegacyInput, db: Database, rows: seq<RawReservation>)
    requires Trim(input.phone) != "" && Trim(input.password) != ""
    requires CallHashedLookup(db.hashed) == HashedRows(rows)
    ensures var o := LegacyLookup(input, db);
            var kept := Filter(rows, Filters(input));
            && o.legacy.None?
            && o.roomIds == LoadRoomMap(kept, db.rooms).queried
            && (o.reply.Found? <==> LoadRoomMap(kept, db.rooms).result.RoomMap?)
            && (o.reply.Found? ==> o.reply.data == Map(kept, Sanitizer(Some(LoadRoomMap(kept, db.rooms).result.m))))
            && (o.reply.Refused? ==>
                  o.reply == Refused(500, LoadRoomMap(kept, db.rooms).result.message.GetOr(RoomsFailed)))
  {
    FilterChainIsFilter(rows, NormalizeStatus(input.status), NormalizeDate(input.fromDate), NormalizeDate(input.toDate));
  }

  /** Every row the hashed path returns has the requested status and a date
      within the requested bounds, both inclusive. */
  lemma HashedPathRowsMatch(input: LegacyInput, db: Database, rows: seq<RawReservation>)
    requires Trim(input.phone) != "" && Trim(input.password) != ""
    requires CallHashedLookup(db.hashed) == HashedRows(rows)
    requires LegacyLookup(input, db).reply.Found?
    ensures var d := LegacyLookup(input, db).reply.data;
            forall i :: 0 <= i < |d| ==>
              && (NormalizeStatus(input.status).Some? ==> d[i].status == NormalizeStatus(input.status).value)
              && (NormalizeDate(input.fromDate).Some? ==> !LexLess(d[i].date, NormalizeDate(input.fromDate).value))
              && (NormalizeDate(input.toDate).Some? ==> !LexLess(NormalizeDate(input.toDate).value, d[i].date))
  {
    HashedPathReply(input, db, rows);
    NormalizedPresent(input);
    var kept := Filter(rows, Filters(input));
    SanitizedKeepFilters(kept, LoadRoomMap(kept, db.rooms).result.m,
                         NormalizeStatus(input.status), NormalizeDate(input.fromDate), NormalizeDate(input.toDate));
  }

  /** Sanitising keeps the fields the filters look at. */
  lemma SanitizedKeepFilters(kept: seq<RawReservation>, m: map<string, RoomInfo>,
                             status: Option<string>, from: Option<string>, to: Option<string>)
    requires forall i :: 0 <= i < |kept| ==> Keeps(status, from, to)(kept[i])
    ensures var d := Map(kept, Sanitizer(Some(m)));
            forall i :: 0 <= i < |d| ==>
              && (Present(status) ==> d[i].status == status.value)
              && (Present(from) ==> !LexLess(d[i].date, from.value))
              && (Present(to) ==> !LexLess(to.value, d[i].date))
  {
    var d := Map(kept, Sanitizer(Some(m)));
    forall i | 0 <= i < |d|
      ensures && (Present(status) ==> d[i].status == status.value)
              && (Present(from) ==> !LexLess(d[i].date, from.value))
              && (Present(to) ==> !LexLess(to.value, d[i].date))
    {
      assert d[i] == Sanitize(kept[i], Some(m));
      assert Keep(status, from, to, kept[i]);
    }
  }

  /** A normalised status or date, when there is one, is non-empty. */
  lemma NormalizedPresent(input: LegacyInput)
    ensures NormalizeStatus(input.status).Some? ==> Present(NormalizeStatus(input.status))
    ensures NormalizeDate(input.fromDate).Some? ==> Present(NormalizeDate(input.fromDate))
    ensures NormalizeDate(input.toDate).Some? ==> Present(NormalizeDate(input.toDate))
  {
  }

  /** The legacy query is made exactly when the hashed procedure is missing
      (or refers to a missing column), with the trimmed credentials and the
      normalised filters. */
  lemma LegacyQueryIff(input: LegacyInput, db: Database)
    ensures var o := LegacyLookup(input, db);
            o.legacy.Some? <==> Trim(input.phone) != "" && Trim(input.password) != ""
                                && db.hashed.RpcFailed? && NotMigratedError(db.hashed.error)
    ensures var o := LegacyLookup(input, db);
            o.legacy.Some? ==> o.legacy.value == LegacyQuery(Trim(input.phone), Trim(input.password),
                                                            NormalizeStatus(input.status),
                                                            NormalizeDate(input.fromDate),
                                                            NormalizeDate(input.toDate))
  {
  }

  /** The answers of the legacy path: a missing password column has its own
      message, any other error its message or the default, and data is
      sanitised row by row with the room embedded in it. */
  lemma LegacyPathReply(input: LegacyInput, db: Database)
    requires LegacyLookup(input, db).legacy.Some?
    ensures var o := LegacyLookup(input, db);
            && (db.legacy.LegacyFailed? && IsColumnMissing(db.legacy.error) ==>
                  o.reply == Refused(500, PasswordColumnMissing))
            && (db.legacy.LegacyFailed? && !IsColumnMissing(db.legacy.error) ==>
                  o.reply == Refused(500, db.legacy.error.message.GetOr(LookupFailed)))
            && (db.legacy.LegacyData? ==>
                  var rows := db.legacy.data.GetOr([]);
                  && o.reply.Found? && |o.reply.data| == |rows|
                  && forall i :: 0 <= i < |rows| ==>
                       o.reply.data[i].id == rows[i].id && o.reply.data[i].room == rows[i].room.OrElse(rows[i].meetingRooms))
  {
    var phone, password := Trim(input.phone), Trim(input.password);
    var c := Credentials(phone, password);
    var query := LegacyQuery(phone, password, NormalizeStatus(input.status), NormalizeDate(input.fromDate), NormalizeDate(input.toDate));
    assert CallHashedLookup(db.hashed) == NotInstalled;
    assert LegacyLookup(input, db) == FromLegacy(c, query, db.legacy);
    FromLegacyReply(c, query, db.legacy);
  }

  lemma FromLegacyReply(c: Credentials, query: LegacyQuery, answer: LegacyAnswer)
    ensures var o := FromLegacy(c, query, answer);
            && (answer.LegacyFailed? && IsColumnMissing(answer.error) ==> o.reply == Refused(500, PasswordColumnMissing))
            && (answer.LegacyFailed? && !IsColumnMissing(answer.error) ==>
                  o.reply == Refused(500, answer.error.message.GetOr(LookupFailed)))
            && (answer.LegacyData? ==>
                  var rows := answer.data.GetOr([]);
                  && o.reply.Found? && |o.reply.data| == |rows|
                  && forall i :: 0 <= i < |rows| ==>
                       o.reply.data[i].id == rows[i].id && o.reply.data[i].room == rows[i].room.OrElse(rows[i].meetingRooms))
  {
    if answer.LegacyData? {
      var rows := answer.data.GetOr([]);
      forall i | 0 <= i < |rows|
        ensures FromLegacy(c, query, answer).reply.data[i] == Sanitize(rows[i], None)
      {
      }
    }
  }

  /** An error the hashed procedure throws is answered with 500 and its
      message, or the default. */
  lemma HashedThrewReply(input: LegacyInput, db: Database)
    requires Trim(input.phone) != "" && Trim(input.password) != ""
    requires db.hashed.RpcFailed? && !NotMigratedError(db.hashed.error)
    ensures LegacyLookup(input, db) == LegacyOutcome(Some(Credentials(Trim(input.phone), Trim(input.password))),
                                                     None, None, Refused(500, db.hashed.error.message.GetOr(LookupFailed)))
  {
  }

  // ---------------------------------------------------------------------
  // The handlers
  // ---------------------------------------------------------------------

  datatype Body = ErrorBody(error: string) | Rows(data: seq<Sanitized>)
  datatype Response = Response(status: nat, body: Body)

  /** The lookups a request causes and its response: the input handed to
      `legacyLookup` with that call's outcome, the user id handed to
      `get_my_reservations_for_user`, the room ids the account path asks
      for. */
  datatype Outcome = Outcome(legacy: Option<(LegacyInput, LegacyOutcome)>, userId: Option<string>,
                             roomIds: Option<seq<string>>, response: Response)

  /** `{ error }` with the result's status, or `{ data }` with 200. */
  function ToResponse(reply: Reply): (r: Response)
    ensures reply.Found? ==> r == Response(200, Rows(reply.data))
    ensures reply.Refused? ==> r == Response(reply.status, ErrorBody(reply.error))
  {
    match reply
    case Found(d) => Response(200, Rows(d))
    case Refused(s, e) => Response(s, ErrorBody(e))
  }

  function ViaLegacy(input: LegacyInput, db: Database): Outcome
  {
    var o := LegacyLookup(input, db);
    Outcome(Some((input, o)), None, None, ToResponse(o.reply))
  }

  function Refuse(status: nat, error: string): Outcome
  {
    Outcome(None, None, None, Response(status, ErrorBody(error)))
  }

  /** The query string parameters the handler reads. */
  datatype QueryString = QueryString(phone: Option<string>, password: Option<string>, status: Option<string>,
                                     fromDate: Option<string>, from: Option<string>,
                                     toDate: Option<string>, to: Option<string>)

  /** `GET`: the credential lookup when both credentials are given,
      otherwise the lookup by the signed-in account. */
  function HandleGet(q: QueryString, cookie: CreateReservation.SessionCookie, db: Database): (o: Outcome)
    ensures o.response.status in {200, 400, 401, 500, 501}
  {
    if Present(q.phone) && Present(q.password) then
      ViaLegacy(LegacyInput(q.phone.value, q.password.value, q.status,
                            q.fromDate.OrElse(q.from), q.toDate.OrElse(q.to)), db)
    else match cookie
      case NoCookie => Refuse(401, CreateReservation.NotAuthenticated)
      case Unparsable(_) => Refuse(401, CreateReservation.InvalidSession)
      case Session(userId) =>
        if !Present(userId) then Refuse(401, CreateReservation.InvalidSession)
        else match db.forUser
          case AccountFailed(e) =>
            var r := if NotMigratedError(e) then Response(501, ErrorBody(NotMigrated))
                     else Response(500, ErrorBody(e.message.GetOr(UnexpectedError)));
            Outcome(None, userId, None, r)
          case AccountNotArray(m) => Outcome(None, userId, None, Response(500, ErrorBody(m)))
          case _ =>
            var rows := AccountList(db.forUser);
            var loaded := LoadRoomMap(rows, db.rooms);
            match loaded.result
            case Failed(m) => Outcome(None, userId, loaded.queried, Response(500, ErrorBody(m.GetOr(RoomsFailed))))
            case RoomMap(m) => Outcome(None, userId, loaded.queried, Response(200, Rows(Map(rows, Sanitizer(Some(m))))))
  }

  /** Both credentials in the query string select the credential lookup,
      with `fromDate` preferred over `from` and `toDate` over `to` (an empty
      `fromDate` still wins); the cookie is then not read. */
  lemma GetByCredentials(q: QueryString, cookie: CreateReservation.SessionCookie, db: Database)
    ensures var o := HandleGet(q, cookie, db);
            o.legacy.Some? <==> Present(q.phone) && Present(q.password)
    ensures var o := HandleGet(q, cookie, db);
            o.legacy.Some? ==>
              && o.userId.None?
              && o.legacy.value.0 == LegacyInput(q.phone.value, q.password.value, q.status,
                                                 if q.fromDate.Some? then q.fromDate else q.from,
                                                 if q.toDate.Some? then q.toDate else q.to)
              && o.response == ToResponse(LegacyLookup(o.legacy.value.0, db).reply)
  {
  }

  /** Without both credentials the session decides: no cookie is 401 "Not
      authenticated"; an unreadable cookie or one without a user id is 401
      "Invalid session"; otherwise the account procedure is called with the
      session's user id. */
  lemma GetBySession(q: QueryString, cookie: CreateReservation.SessionCookie, db: Database)
    requires !(Present(q.phone) && Present(q.password))
    ensures var o := HandleGet(q, cookie, db);
            && (cookie.NoCookie? ==> o == Refuse(401, CreateReservation.NotAuthenticated))
            && (cookie.Unparsable? ==> o == Refuse(401, CreateReservation.InvalidSession))
            && (cookie.Session? && !Present(cookie.userId) ==> o == Refuse(401, CreateReservation.InvalidSession))
            && (o.userId.Some? <==> cookie.Session? && Present(cookie.userId))
            && (o.userId.Some? ==> o.userId == cookie.userId)
  {
  }

  /** 501 is the answer exactly when the account lookup reports a missing
      procedure or column. */
  lemma GetNotMigrated(q: QueryString, cookie: CreateReservation.SessionCookie, db: Database)
    ensures HandleGet(q, cookie, db).response.status == 501 <==>
              && !(Present(q.phone) && Present(q.password))
              && cookie.Session? && Present(cookie.userId)
              && db.forUser.AccountFailed? && NotMigratedError(db.forUser.error)
  {
    if Present(q.phone) && Present(q.password) {
      var input := LegacyInput(q.phone.value, q.password.value, q.status,
                               q.fromDate.OrElse(q.from), q.toDate.OrElse(q.to));
      assert HandleGet(q, cookie, db).response == ToResponse(LegacyLookup(input, db).reply);
    }
  }

  /** An error from the account procedure is answered before any room query:
      501 for a missing procedure or column, otherwise 500 with the error's
      message, or "unexpected error" when it has none. */
  lemma GetAccountFailed(q: QueryString, userId: string, db: Database)
    requires !(Present(q.phone) && Present(q.password))
    requires userId != "" && db.forUser.AccountFailed?
    ensures var o := HandleGet(q, CreateReservation.Session(Some(userId)), db);
            && o.roomIds.None? && o.legacy.None? && o.userId == Some(userId)
            && (NotMigratedError(db.forUser.error) ==> o.response == Response(501, ErrorBody(NotMigrated)))
            && (!NotMigratedError(db.forUser.error) ==>
                  o.response == Response(500, ErrorBody(db.forUser.error.message.GetOr(UnexpectedError))))
  {
  }

  /** The account lookup returns all of the user's rows, unfiltered and in
      the procedure's order, each sanitised with the room map of their room
      ids; null counts as no rows. An answer that is neither an array nor
      null makes `loadRoomMap` throw before any room query, and the handler
      answers 500 with the TypeError's message. */
  lemma GetAccountRows(q: QueryString, userId: string, db: Database)
    requires !(Present(q.phone) && Present(q.password))
    requires userId != "" && !db.forUser.AccountFailed?
    ensures var o := HandleGet(q, CreateReservation.Session(Some(userId)), db);
            db.forUser.AccountNotArray? ==>
              o.roomIds.None? && o.response == Response(500, ErrorBody(db.forUser.typeError))
    ensures var o := HandleGet(q, CreateReservation.Session(Some(userId)), db);
            var rows := if db.forUser.AccountRows? then db.forUser.rows else [];
            var loaded := LoadRoomMap(rows, db.rooms);
            !db.forUser.AccountNotArray? ==>
              && o.roomIds == loaded.queried
              && (loaded.result.RoomMap? ==> o.response == Response(200, Rows(Map(rows, Sanitizer(Some(loaded.result.m))))))
              && (loaded.result.Failed? ==> o.response == Response(500, ErrorBody(loaded.result.message.GetOr(RoomsFailed))))
  {
  }

  /** The JSON body of a `POST`; a field is `None` when it is missing or, for
      the credentials, not a string. */
  datatype Payload = Payload(phone: Option<string>, reserverPhone: Option<string>,
                             password: Option<string>, reserverPassword: Option<string>,
                             status: Option<string>, state: Option<string>,
                             fromDate: Option<string>, startDate: Option<string>,
                             toDate: Option<string>, endDate: Option<string>)

  const EmptyPayload: Payload := Payload(None, None, None, None, None, None, None, None, None, None)

  /** `typeof a === 'string' ? a : typeof b === 'string' ? b : ''`. */
  function FirstString(a: Option<string>, b: Option<string>): (s: string)
    ensures a.Some? ==> s == a.value
    ensures a.None? && b.Some? ==> s == b.value
    ensures a.None? && b.None? ==> s == ""
  {
    a.OrElse(b).GetOr("")
  }

  /** `POST`: the credential lookup with the body's fields; a body that is
      not JSON reads as an empty one. */
  function HandlePost(payload: Option<Payload>, db: Database): (o: Outcome)
    ensures o.response.status in {200, 400, 500}
    ensures o.userId.None? && o.roomIds.None?
  {
    var p := payload.GetOr(EmptyPayload);
    var phone := FirstString(p.phone, p.reserverPhone);
    var password := FirstString(p.password, p.reserverPassword);
    if phone == "" || password == "" then Refuse(400, MissingCredentials)
    else ViaLegacy(LegacyInput(phone, password, p.status.OrElse(p.state),
                               p.fromDate.OrElse(p.startDate), p.toDate.OrElse(p.endDate)), db)
  }

  /** The `POST` credentials as read from the body. */
  function PostCredentials(payload: Option<Payload>): Credentials
  {
    var p := payload.GetOr(EmptyPayload);
    Credentials(FirstString(p.phone, p.reserverPhone), FirstString(p.password, p.reserverPassword))
  }

  /** A `POST` is refused with 400 and the missing-credentials message
      exactly when a credential is missing or blank once trimmed, whichever
      of the handler's two checks catches it; a body that is not JSON always
      is. */
  lemma PostBlankRefused(payload: Option<Payload>, db: Database)
    ensures var c := PostCredentials(payload);
            HandlePost(payload, db).response == Response(400, ErrorBody(MissingCredentials)) <==>
              Trim(c.phone) == "" || Trim(c.password) == ""
    ensures payload.None? ==> HandlePost(payload, db) == Refuse(400, MissingCredentials)
  {
    var c := PostCredentials(payload);
    TrimEmptyIff(c.phone);
    TrimEmptyIff(c.password);
    if c.phone != "" && c.password != "" {
      var p := payload.GetOr(EmptyPayload);
      var input := LegacyInput(c.phone, c.password, p.status.OrElse(p.state),
                               p.fromDate.OrElse(p.startDate), p.toDate.OrElse(p.endDate));
      LegacyBlankRefused(input, db);
    }
  }

  /** The `POST` body's aliases: `phone` over `reserver_phone`, `password`
      over `reserver_password`, `status` over `state`, `fromDate` over
      `startDate`, `toDate` over `endDate`. */
  lemma PostAliases(p: Payload, db: Database)
    requires FirstString(p.phone, p.reserverPhone) != "" && FirstString(p.password, p.reserverPassword) != ""
    ensures var o := HandlePost(Some(p), db);
            && o.legacy.Some?
            && o.legacy.value.0.phone == (if p.phone.Some? then p.phone.value else p.reserverPhone.value)
            && o.legacy.value.0.password == (if p.password.Some? then p.password.value else p.reserverPassword.value)
            && o.legacy.value.0.status == (if p.status.Some? then p.status else p.state)
            && o.legacy.value.0.fromDate == (if p.fromDate.Some? then p.fromDate else p.startDate)
            && o.legacy.value.0.toDate == (if p.toDate.Some? then p.toDate else p.endDate)
  {
  }
}

=== FILE: lookup_rules.dfy ===
/** The pure helpers of the reservation lookup endpoint
    (`/api/my-reservations`): the status and date normalisers, the filter
    chain applied to the rows the lookup procedure returns, the room map and
    the record sanitiser. */
module LookupRules {
  import opened Wrappers
  import opened Strings
  import opened Seqs
  import opened Patterns

  // ---------------------------------------------------------------------
  // Database error codes
  // ---------------------------------------------------------------------

  datatype DbError = DbError(code: Option<string>, message: Option<string>)

  const FunctionNotFound: string := "PGRST202"
  const ColumnNotFound: string := "42703"

  predicate IsFunctionMissing(e: DbError)
  {
    e.code == Some(FunctionNotFound)
  }

  predicate IsColumnMissing(e: DbError)
  {
    e.code == Some(ColumnNotFound)
  }

  // ---------------------------------------------------------------------
  // normalizeStatus
  // ---------------------------------------------------------------------

  const Active: string := "active"
  const Cancelled: string := "cancelled"

  /** Words that mean "no status filter", compared after trimming only. */
  const AllWords: seq<string> := ["전체", "all", "any", "전체보기"]
  /** Words that mean "no status filter" in any letter case. */
  const AllWordsAnyCase: seq<string> := ["all", "any"]
  const ActiveWords: seq<string> := ["active", "예약중", "예약완료", "confirmed", "진행중"]
  const CancelledWords: seq<string> := ["cancelled", "canceled", "취소", "cancel"]

  /** `normalizeStatus`: a free-form status filter mapped to 'active',
      'cancelled' or no filter at all. */
  function NormalizeStatus(input: Option<string>): (r: Option<string>)
    ensures r == None || r == Some(Active) || r == Some(Cancelled)
  {
    if input.None? || input.value == "" then None
    else
      var trimmed := Trim(input.value);
      if trimmed == "" then None else Classify(trimmed, ToLower(trimmed))
  }

  /** The word lists consulted on the trimmed and the lower-cased input. */
  function Classify(trimmed: string, lowered: string): Option<string>
  {
    if trimmed in AllWords || lowered in AllWordsAnyCase then None
    else if lowered in ActiveWords || trimmed == "예약중" then Some(Active)
    else if lowered in CancelledWords || trimmed == "취소" then Some(Cancelled)
    else None
  }

  /** The status words as the input, trimmed and lower-cased, must read. */
  function Canonical(input: Option<string>): string
  {
    if input.None? then "" else ToLower(Trim(input.value))
  }

  /** Lower-casing leaves the "no filter" words alone. */
  lemma AllWordsLower()
    ensures forall w :: w in AllWords ==> ToLower(w) == w
  {
    ToLowerNoUpper("전체");
    ToLowerNoUpper("all");
    ToLowerNoUpper("any");
    ToLowerNoUpper("전체보기");
  }

  /** Lower-casing leaves the two Korean status words alone. */
  lemma KoreanStatusLower()
    ensures ToLower("예약중") == "예약중" && ToLower("취소") == "취소"
  {
    ToLowerNoUpper("예약중");
    ToLowerNoUpper("취소");
  }

  lemma WordsDisjoint()
    ensures forall w :: w in AllWords ==> w !in ActiveWords && w !in CancelledWords
    ensures forall w :: w in ActiveWords ==> w !in CancelledWords
  {
  }

  /** The status filter is 'active' exactly for the active words and
      'cancelled' exactly for the cancelled words, read after trimming and
      ignoring letter case; everything else means no filter. */
  lemma NormalizeStatusMeaning(input: Option<string>)
    ensures NormalizeStatus(input) == Some(Active) <==> Canonical(input) in ActiveWords
    ensures NormalizeStatus(input) == Some(Cancelled) <==> Canonical(input) in CancelledWords
    ensures NormalizeStatus(input) == None <==>
              Canonical(input) !in ActiveWords && Canonical(input) !in CancelledWords
  {
    if input.Some? {
      var t := Trim(input.value);
      if input.value == "" || t == "" {
        assert t == "" && ToLower(t) == "";
      } else {
        ClassifyMeaning(t);
      }
    }
  }

  lemma ClassifyMeaning(t: string)
    ensures Classify(t, ToLower(t)) == Some(Active) <==> ToLower(t) in ActiveWords
    ensures Classify(t, ToLower(t)) == Some(Cancelled) <==> ToLower(t) in CancelledWords
    ensures Classify(t, ToLower(t)) == None <==> ToLower(t) !in ActiveWords && ToLower(t) !in CancelledWords
  {
    var l := ToLower(t);
    WordsDisjoint();
    if t in AllWords {
      AllWordsLower();
      assert l == t;
    } else if l !in AllWordsAnyCase {
      KoreanStatusLower();
    }
  }

  /** No filter for a missing or blank input, for 'all' or 'any' in any
      letter case, and for '전체' and '전체보기'. */
  lemma NormalizeStatusNone(input: Option<string>)
    requires || input.None?
             || AllSpace(input.value)
             || ToLower(Trim(input.value)) in AllWordsAnyCase
             || Trim(input.value) in ["전체", "전체보기"]
    ensures NormalizeStatus(input) == None
  {
    if input.Some? {
      TrimEmptyIff(input.value);
    }
  }

  /** The two results are fixed points, so normalising twice is normalising
      once. */
  lemma NormalizeStatusIdempotent(input: Option<string>)
    ensures NormalizeStatus(Some(Active)) == Some(Active)
    ensures NormalizeStatus(Some(Cancelled)) == Some(Cancelled)
    ensures NormalizeStatus(NormalizeStatus(input)) == NormalizeStatus(input)
  {
    ActiveStaysActive();
    CancelledStaysCancelled();
  }

  lemma ActiveStaysActive()
    ensures NormalizeStatus(Some(Active)) == Some(Active)
  {
    ActiveFixed();
    CanonicalWord(Active);
  }

  lemma CancelledStaysCancelled()
    ensures NormalizeStatus(Some(Cancelled)) == Some(Cancelled)
  {
    CancelledFixed();
    CanonicalWord(Cancelled);
  }

  /** A word that trimming and lower-casing leave alone is classified by the
      list it is in. */
  lemma CanonicalWord(w: string)
    requires Trim(w) == w && ToLower(w) == w
    ensures w in ActiveWords ==> NormalizeStatus(Some(w)) == Some(Active)
    ensures w in CancelledWords ==> NormalizeStatus(Some(w)) == Some(Cancelled)
  {
    NormalizeStatusMeaning(Some(w));
  }

  lemma ActiveFixed()
    ensures Trim(Active) == Active && ToLower(Active) == Active
  {
    TrimFixedPoint(Active);
    ActiveLower();
  }

  lemma ActiveLower()
    ensures ToLower(Active) == Active
  {
  }

  lemma CancelledFixed()
    ensures Trim(Cancelled) == Cancelled && ToLower(Cancelled) == Cancelled
  {
    TrimFixedPoint(Cancelled);
    CancelledLower();
  }

  lemma CancelledLower()
    ensures ToLower(Cancelled) == Cancelled
  {
    ToLowerNoUpper(Cancelled);
  }

  // ---------------------------------------------------------------------
  // normalizeDate
  // ---------------------------------------------------------------------

  /** `normalizeDate`: the trimmed input when it is a `YYYY-MM-DD` shape. */
  function NormalizeDate(value: Option<string>): (r: Option<string>)
    ensures r.Some? ==> value.Some? && r.value == Trim(value.value) && IsDateShape(r.value)
  {
    if value.None? || value.value == "" then None
    else
      var trimmed := Trim(value.value);
      DatePatternMeaning(trimmed);
      if Matches(DatePattern(), trimmed) then Some(trimmed) else None
  }

  lemma NormalizeDateIff(value: Option<string>)
    ensures NormalizeDate(value).Some? <==> value.Some? && IsDateShape(Trim(value.value))
  {
    if value.Some? {
      DatePatternMeaning(Trim(value.value));
    }
  }

  /** A date shape has no white space at its ends, so normalising is
      idempotent. */
  lemma NormalizeDateIdempotent(value: Option<string>)
    ensures NormalizeDate(NormalizeDate(value)) == NormalizeDate(value)
  {
    var r := NormalizeDate(value);
    if r.Some? {
      var d := r.value;
      assert !IsSpace(d[0]) && !IsSpace(d[9]);
      TrimFixedPoint(d);
      DatePatternMeaning(d);
    }
  }

  // ---------------------------------------------------------------------
  // Rows, the room map and sanitizeReservation
  // ---------------------------------------------------------------------

  datatype RoomInfo = RoomInfo(name: Option<string>, location: Option<string>, capacity: Option<int>)

  /** A reservation row as the lookup procedures or the legacy query return
      it; `roomIdAlt` is the camel-case `roomId` some rows carry, and `room` /
      `meetingRooms` are embedded room objects. */
  datatype RawReservation = RawReservation(
    id: string, roomId: Option<string>, roomIdAlt: Option<string>,
    date: string, startTime: string, endTime: string,
    reserverName: string, status: string, createdAt: string, updatedAt: string,
    room: Option<RoomInfo>, meetingRooms: Option<RoomInfo>)

  /** The row as the endpoint returns it. */
  datatype Sanitized = Sanitized(
    id: string, roomId: Option<string>, date: string, startTime: string, endTime: string,
    reserverName: string, status: string, createdAt: string, updatedAt: string,
    room: Option<RoomInfo>)

  /** The key the room map is consulted with: `room_id ?? roomId ?? ''`. */
  function RoomKey(r: RawReservation): string
  {
    r.roomId.OrElse(r.roomIdAlt).GetOr("")
  }

  /** `sanitizeReservation(record, roomMap)`. */
  function Sanitize(r: RawReservation, roomMap: Option<map<string, RoomInfo>>): (s: Sanitized)
    ensures s.id == r.id && s.roomId == r.roomId && s.date == r.date
    ensures s.startTime == r.startTime && s.endTime == r.endTime && s.reserverName == r.reserverName
    ensures s.status == r.status && s.createdAt == r.createdAt && s.updatedAt == r.updatedAt
  {
    var direct := r.room.OrElse(r.meetingRooms);
    var mapped := if roomMap.Some? && RoomKey(r) in roomMap.value then Some(roomMap.value[RoomKey(r)]) else None;
    Sanitized(r.id, r.roomId, r.date, r.startTime, r.endTime, r.reserverName, r.status,
              r.createdAt, r.updatedAt, mapped.OrElse(direct))
  }

  /** The room of a sanitised row: the map's entry for the row's room id when
      there is one, else the embedded `room`, else the embedded
      `meeting_rooms`, else none. */
  lemma SanitizeRoom(r: RawReservation, roomMap: Option<map<string, RoomInfo>>)
    ensures roomMap.Some? && RoomKey(r) in roomMap.value ==>
              Sanitize(r, roomMap).room == Some(roomMap.value[RoomKey(r)])
    ensures !(roomMap.Some? && RoomKey(r) in roomMap.value) ==>
              && (r.room.Some? ==> Sanitize(r, roomMap).room == r.room)
              && (r.room.None? ==> Sanitize(r, roomMap).room == r.meetingRooms)
  {
  }

  /** The truthy `room_id`s of the rows, in order. */
  function PresentRoomIds(rows: seq<RawReservation>): (ids: seq<string>)
    ensures forall x :: x in ids <==> x != "" && exists i :: 0 <= i < |rows| && rows[i].roomId == Some(x)
  {
    if |rows| == 0 then []
    else
      var rest := PresentRoomIds(rows[1..]);
      assert forall i :: 1 <= i < |rows| ==> rows[i] == rows[1..][i - 1];
      if rows[0].roomId.Some? && rows[0].roomId.value != "" then [rows[0].roomId.value] + rest else rest
  }

  /** The room ids `loadRoomMap` asks for. */
  function RoomIds(rows: seq<RawReservation>): seq<string>
  {
    Dedupe(PresentRoomIds(rows))
  }

  datatype RoomRow = RoomRow(id: string, info: RoomInfo)

  /** `map[room.id] = info` over the rows in order: the last row wins. */
  function RowsToMap(rows: seq<RoomRow>): (m: map<string, RoomInfo>)
    ensures forall k :: k in m <==> exists i :: 0 <= i < |rows| && rows[i].id == k
  {
    if |rows| == 0 then map[]
    else
      var init := rows[..|rows| - 1];
      assert forall i :: 0 <= i < |rows| - 1 ==> init[i] == rows[i];
      RowsToMap(init)[rows[|rows| - 1].id := rows[|rows| - 1].info]
  }

  lemma {:induction false} RowsToMapValue(rows: seq<RoomRow>, j: nat)
    requires j < |rows|
    requires forall k :: j < k < |rows| ==> rows[k].id != rows[j].id
    ensures rows[j].id in RowsToMap(rows) && RowsToMap(rows)[rows[j].id] == rows[j].info
  {
    var n := |rows|;
    var init, last := rows[..n - 1], rows[n - 1];
    assert RowsToMap(rows) == RowsToMap(init)[last.id := last.info];
    if j < n - 1 {
      assert init[j] == rows[j];
      forall k | j < k < |init|
        ensures init[k].id != init[j].id
      {
        assert init[k] == rows[k];
      }
      RowsToMapValue(init, j);
      assert last.id != rows[j].id;
    }
  }

  /** What the `meeting_rooms` query answers. */
  datatype RoomQuery = RoomRows(rows: Option<seq<RoomRow>>) | RoomQueryFailed(message: Option<string>)

  /** The outcome of `loadRoomMap`: the ids it queried (none when there was
      nothing to ask for) and the map, or the error it throws. */
  datatype LoadedRooms = LoadedRooms(queried: Option<seq<string>>, result: Result)
  datatype Result = RoomMap(m: map<string, RoomInfo>) | Failed(message: Option<string>)

  function LoadRoomMap(rows: seq<RawReservation>, query: RoomQuery): (l: LoadedRooms)
    ensures l.queried.None? <==> RoomIds(rows) == []
    ensures l.queried.Some? ==> l.queried.value == RoomIds(rows)
    ensures l.queried.None? ==> l.result == RoomMap(map[])
  {
    var ids := RoomIds(rows);
    if |ids| == 0 then LoadedRooms(None, RoomMap(map[]))
    else match query
      case RoomQueryFailed(message) => LoadedRooms(Some(ids), Failed(message))
      case RoomRows(found) => LoadedRooms(Some(ids), RoomMap(RowsToMap(found.GetOr([]))))
  }

  /** The ids asked for are each truthy room id of the rows, once each. */
  lemma RoomIdsMeaning(rows: seq<RawReservation>)
    ensures Distinct(RoomIds(rows))
    ensures forall x :: x in RoomIds(rows) <==> x != "" && exists i :: 0 <= i < |rows| && rows[i].roomId == Some(x)
  {
  }

  // ---------------------------------------------------------------------
  // The filter chain
  // ---------------------------------------------------------------------

  function StatusIs(status: string): RawReservation -> bool
  {
    (r: RawReservation) => r.status == status
  }

  /** `item.reservation_date >= fromDate`. */
  function NotBefore(from: string): RawReservation -> bool
  {
    (r: RawReservation) => !LexLess(r.date, from)
  }

  /** `item.reservation_date <= toDate`. */
  function NotAfter(to: string): RawReservation -> bool
  {
    (r: RawReservation) => !LexLess(to, r.date)
  }

  /** The three optional filters applied one after the other. */
  function FilterChain(items: seq<RawReservation>, status: Option<string>, from: Option<string>,
                       to: Option<string>): seq<RawReservation>
  {
    var byStatus := if Present(status) then Filter(items, StatusIs(status.value)) else items;
    var byFrom := if Present(from) then Filter(byStatus, NotBefore(from.value)) else byStatus;
    if Present(to) then Filter(byFrom, NotAfter(to.value)) else byFrom
  }

  /** An item passes iff its status matches (when a status is given) and its
      date is within the bounds, both inclusive, each only when given. */
  predicate Keep(status: Option<string>, from: Option<string>, to: Option<string>, r: RawReservation)
  {
    && (Present(status) ==> r.status == status.value)
    && (Present(from) ==> !LexLess(r.date, from.value))
    && (Present(to) ==> !LexLess(to.value, r.date))
  }

  function Keeps(status: Option<string>, from: Option<string>, to: Option<string>): RawReservation -> bool
  {
    r => Keep(status, from, to, r)
  }

  /** One stage of the chain: filtering the survivors of `prev` by `p` leaves
      the survivors of `next`. */
  lemma ChainStep(items: seq<RawReservation>, prev: RawReservation -> bool, p: RawReservation -> bool,
                  next: RawReservation -> bool)
    requires forall x :: next(x) == (prev(x) && p(x))
    ensures Filter(Filter(items, prev), p) == Filter(items, next)
  {
    FilterTwice(items, prev, p, next);
  }

  /** The chain is one filter by `Keep`: it returns exactly the items that
      pass, in their original order. */
  lemma FilterChainIsFilter(items: seq<RawReservation>, status: Option<string>, from: Option<string>,
                            to: Option<string>)
    ensures FilterChain(items, status, from, to) == Filter(items, Keeps(status, from, to))
    ensures IsSubsequence(FilterChain(items, status, from, to), items)
  {
    var k0 := Keeps(None, None, None);
    var k1 := Keeps(status, None, None);
    var k2 := Keeps(status, from, None);
    var k3 := Keeps(status, from, to);
    FilterAll(items, k0);
    var byStatus := if Present(status) then Filter(items, StatusIs(status.value)) else items;
    if Present(status) {
      ChainStep(items, k0, StatusIs(status.value), k1);
    } else {
      FilterCongruent(items, k0, k1);
    }
    assert byStatus == Filter(items, k1);
    var byFrom := if Present(from) then Filter(byStatus, NotBefore(from.value)) else byStatus;
    if Present(from) {
      ChainStep(items, k1, NotBefore(from.value), k2);
    } else {
      FilterCongruent(items, k1, k2);
    }
    assert byFrom == Filter(items, k2);
    if Present(to) {
      ChainStep(items, k2, NotAfter(to.value), k3);
    } else {
      FilterCongruent(items, k2, k3);
    }
    FilterIsSubsequence(items, k3);
  }

  /** With no filter given, the rows are returned unchanged. */
  lemma FilterChainUnfiltered(items: seq<RawReservation>)
    ensures FilterChain(items, None, None, None) == items
  {
  }
}

=== FILE: monthly_calendar.dfy ===
/** The monthly reservation calendar: rooms indexed by id, the month's
    reservations bucketed by date, the calendar days cut into week rows, and
    each day's reservations gathered into one group per room (`buildGroups`). */
module MonthlyCalendar {
  import opened Wrappers
  import opened Seqs
  import opened Sorting
  import opened Records
  import opened TimeSlots

  // ---------------------------------------------------------------------
  // Room lookup and the by-date index
  // ---------------------------------------------------------------------

  /** `j` is the last position of a room with id `id`. */
  predicate LastWithId(rooms: seq<Room>, id: string, j: int)
  {
    0 <= j < |rooms| && rooms[j].id == id
    && forall k :: j < k < |rooms| ==> rooms[k].id != id
  }

  /** The last of the first `n` rooms with id `id`, or -1. */
  function LastIndex(rooms: seq<Room>, id: string, n: nat): (j: int)
    requires n <= |rooms|
    ensures -1 <= j < n
    ensures j == -1 <==> forall k :: 0 <= k < n ==> rooms[k].id != id
    ensures j != -1 ==> rooms[j].id == id && forall k :: j < k < n ==> rooms[k].id != id
  {
    if n == 0 then -1
    else if rooms[n - 1].id == id then n - 1
    else LastIndex(rooms, id, n - 1)
  }

  /** `roomLookup.get(id)` for the `Map` filled with `set(room.id, room)` in
      list order: a later room with the same id replaces an earlier one. */
  function RoomLookup(rooms: seq<Room>, id: string): (r: Option<Room>)
    ensures r.None? <==> forall k :: 0 <= k < |rooms| ==> rooms[k].id != id
    ensures r.Some? ==> exists j :: LastWithId(rooms, id, j) && rooms[j] == r.value
  {
    var j := LastIndex(rooms, id, |rooms|);
    if j == -1 then None
    else
      assert LastWithId(rooms, id, j);
      Some(rooms[j])
  }

  /** `reservationsByDate`: the reservations bucketed by `reservation_date`. */
  function ByDate(reservations: seq<Reservation>): seq<Group<string, Reservation>>
  {
    GroupBy(reservations, DateOf)
  }

  /** `reservationsByDate.get(key) ?? []` is the reservations of that date in
      input order, and the buckets together hold every reservation once. */
  lemma ByDateContents(reservations: seq<Reservation>, date: string)
    ensures Lookup(ByDate(reservations), date) == Filter(reservations, HasKey(DateOf, date))
    ensures forall i :: 0 <= i < |Lookup(ByDate(reservations), date)| ==>
              Lookup(ByDate(reservations), date)[i].date == date
    ensures SumSizes(ByDate(reservations)) == |reservations|
  {
    GroupByLookup(reservations, DateOf, date);
    GroupBySize(reservations, DateOf);
    var bucket := Filter(reservations, HasKey(DateOf, date));
    forall i | 0 <= i < |bucket|
      ensures bucket[i].date == date
    {
      assert HasKey(DateOf, date)(bucket[i]);
      assert DateOf(bucket[i]) == date;
    }
  }

  // ---------------------------------------------------------------------
  // buildGroups
  // ---------------------------------------------------------------------

  datatype CalendarSlot = CalendarSlot(id: string, startTime: string, endTime: string)

  datatype CalendarGroup = CalendarGroup(
    roomId: string, roomName: string, roomLocation: string, slots: seq<CalendarSlot>)

  const UnknownRoom: string := "미지정 회의실"

  /** `s.slice(0, 5)`: the first five characters, or all of a shorter string. */
  function Take5(s: string): (r: string)
    ensures |s| >= 5 ==> |r| == 5
    ensures |s| < 5 ==> r == s
    ensures r <= s
  {
    if |s| >= 5 then s[..5] else s
  }

  /** On a slot of the booking grid, the first five characters of the stored
      time are the slot's `HH:MM` caption. */
  lemma Take5OfSlot(t: HourMinute)
    requires t.hour < 100 && t.minute < 60
    ensures Take5(SlotAt(t).value) == SlotAt(t).caption
  {
    SlotValueIsClock(t);
  }

  function ToSlot(r: Reservation): CalendarSlot
  {
    CalendarSlot(r.id, Take5(r.startTime), Take5(r.endTime))
  }

  function SlotStart(s: CalendarSlot): string { s.startTime }
  function GroupName(g: CalendarGroup): string { g.roomName }

  /** The name and location shown for a room id, with the placeholder for a
      room the lookup does not know. */
  function MakeGroup(g: Group<string, Reservation>, rooms: seq<Room>): (c: CalendarGroup)
    ensures c.roomId == g.key
    ensures c.slots == Map(g.items, ToSlot)
  {
    var room := RoomLookup(rooms, g.key);
    CalendarGroup(
      g.key,
      if room.Some? then room.value.name else UnknownRoom,
      if room.Some? then room.value.location else "",
      Map(g.items, ToSlot))
  }

  function SortSlots(g: CalendarGroup): (c: CalendarGroup)
    ensures c.roomId == g.roomId && c.roomName == g.roomName && c.roomLocation == g.roomLocation
    ensures multiset(c.slots) == multiset(g.slots)
  {
    g.(slots := SortBy(g.slots, ByKey(SlotStart)))
  }

  function Maker(rooms: seq<Room>): Group<string, Reservation> -> CalendarGroup
  {
    g => MakeGroup(g, rooms)
  }

  /** The groups in first-seen room order, before any sorting. */
  function Unsorted(dayReservations: seq<Reservation>, rooms: seq<Room>): seq<CalendarGroup>
  {
    Map(GroupBy(dayReservations, RoomIdOf), Maker(rooms))
  }

  function ByName(nameLe: (string, string) -> bool): (CalendarGroup, CalendarGroup) -> bool
  {
    ByKeyWith(GroupName, nameLe)
  }

  /** `buildGroups(reservations, roomLookup)`; `nameLe` stands for the Korean
      collation of room names, which this model takes as a given order. */
  function BuildGroups(dayReservations: seq<Reservation>, rooms: seq<Room>,
                       nameLe: (string, string) -> bool): (groups: seq<CalendarGroup>)
  {
    Map(SortBy(Unsorted(dayReservations, rooms), ByName(nameLe)), SortSlots)
  }

  /** Every unsorted group is made from one bucket of the day's reservations. */
  lemma UnsortedContents(dayReservations: seq<Reservation>, rooms: seq<Room>, j: nat)
    requires j < |Unsorted(dayReservations, rooms)|
    ensures var g := Unsorted(dayReservations, rooms)[j];
            && g == MakeGroup(Group(g.roomId, Filter(dayReservations, HasKey(RoomIdOf, g.roomId))), rooms)
            && exists k :: 0 <= k < |dayReservations| && dayReservations[k].roomId == g.roomId
  {
    var gs := GroupBy(dayReservations, RoomIdOf);
    GroupByItems(dayReservations, RoomIdOf);
    var items := gs[j].items;
    assert items[0] in dayReservations && HasKey(RoomIdOf, gs[j].key)(items[0]);
  }

  /** Group `i`'s contents: the room's display fields, with the placeholder
      for a room the lookup does not know, and one slot per reservation of
      that room, sorted by start time. */
  lemma GroupContents(dayReservations: seq<Reservation>, rooms: seq<Room>,
                      nameLe: (string, string) -> bool, i: nat)
    requires i < |BuildGroups(dayReservations, rooms, nameLe)|
    ensures var g := BuildGroups(dayReservations, rooms, nameLe)[i];
            && g.slots == SortBy(Map(Filter(dayReservations, HasKey(RoomIdOf, g.roomId)), ToSlot), ByKey(SlotStart))
            && (exists k :: 0 <= k < |dayReservations| && dayReservations[k].roomId == g.roomId)
            && (RoomLookup(rooms, g.roomId).None? ==> g.roomName == UnknownRoom && g.roomLocation == "")
            && (RoomLookup(rooms, g.roomId).Some? ==>
                  g.roomName == RoomLookup(rooms, g.roomId).value.name
                  && g.roomLocation == RoomLookup(rooms, g.roomId).value.location)
  {
    var unsorted := Unsorted(dayReservations, rooms);
    var sorted := SortBy(unsorted, ByName(nameLe));
    assert sorted[i] in multiset(unsorted);
    var j :| 0 <= j < |unsorted| && unsorted[j] == sorted[i];
    UnsortedContents(dayReservations, rooms, j);
  }

  function CountRoom(id: string): CalendarGroup -> nat
  {
    (g: CalendarGroup) => if g.roomId == id then 1 else 0
  }

  function CountKey(id: string): Group<string, Reservation> -> nat
  {
    (g: Group<string, Reservation>) => if g.key == id then 1 else 0
  }

  lemma {:induction false} CountDistinct(gs: seq<Group<string, Reservation>>, id: string)
    requires Distinct(Keys(gs))
    ensures SumOf(gs, CountKey(id)) == if id in Keys(gs) then 1 else 0
  {
    if |gs| > 0 {
      assert Keys(gs[1..]) == Keys(gs)[1..];
      CountDistinct(gs[1..], id);
      if gs[0].key == id {
        assert Keys(gs)[0] == id;
        assert forall k :: 1 <= k < |gs| ==> Keys(gs)[k] != id;
      }
    }
  }

  /** Exactly one group per distinct room id among the day's reservations. */
  lemma OneGroupPerRoom(dayReservations: seq<Reservation>, rooms: seq<Room>,
                        nameLe: (string, string) -> bool, id: string)
    ensures SumOf(BuildGroups(dayReservations, rooms, nameLe), CountRoom(id))
            == if exists k :: 0 <= k < |dayReservations| && dayReservations[k].roomId == id then 1 else 0
  {
    var gs := GroupBy(dayReservations, RoomIdOf);
    SortingKeepsCount(dayReservations, rooms, nameLe, id);
    UnsortedCount(dayReservations, rooms, id);
    GroupByKeys(dayReservations, RoomIdOf);
    assert (id in Keys(gs)) == exists k :: 0 <= k < |dayReservations| && RoomIdOf(dayReservations[k]) == id;
  }

  /** Sorting the groups and their slots changes no room's count. */
  lemma SortingKeepsCount(dayReservations: seq<Reservation>, rooms: seq<Room>,
                          nameLe: (string, string) -> bool, id: string)
    ensures SumOf(BuildGroups(dayReservations, rooms, nameLe), CountRoom(id))
            == SumOf(Unsorted(dayReservations, rooms), CountRoom(id))
  {
    var unsorted := Unsorted(dayReservations, rooms);
    var le := ByName(nameLe);
    forall g ensures CountRoom(id)(SortSlots(g)) == CountRoom(id)(g) {
    }
    SumOfMap(SortBy(unsorted, le), SortSlots, CountRoom(id), CountRoom(id));
    SortBySum(unsorted, le, CountRoom(id));
  }

  /** Before sorting, a room has one group if some reservation names it and
      none otherwise. */
  lemma UnsortedCount(dayReservations: seq<Reservation>, rooms: seq<Room>, id: string)
    ensures var gs := GroupBy(dayReservations, RoomIdOf);
            SumOf(Unsorted(dayReservations, rooms), CountRoom(id)) == if id in Keys(gs) then 1 else 0
  {
    var gs := GroupBy(dayReservations, RoomIdOf);
    var make := Maker(rooms);
    forall g ensures CountRoom(id)(make(g)) == CountKey(id)(g) {
      assert make(g).roomId == g.key;
    }
    SumOfMap(gs, make, CountRoom(id), CountKey(id));
    GroupByKeys(dayReservations, RoomIdOf);
    CountDistinct(gs, id);
  }

  function SlotCount(g: CalendarGroup): nat { |g.slots| }
  function ItemCount(g: Group<string, Reservation>): nat { |g.items| }

  lemma {:induction false} ItemCountIsSize(gs: seq<Group<string, Reservation>>)
    ensures SumOf(gs, ItemCount) == SumSizes(gs)
  {
    if |gs| > 0 {
      ItemCountIsSize(gs[1..]);
    }
  }

  /** Each reservation of the day contributes exactly one slot. */
  lemma SlotTotal(dayReservations: seq<Reservation>, rooms: seq<Room>, nameLe: (string, string) -> bool)
    ensures SumOf(BuildGroups(dayReservations, rooms, nameLe), SlotCount) == |dayReservations|
  {
    var gs := GroupBy(dayReservations, RoomIdOf);
    var make := Maker(rooms);
    var unsorted := Unsorted(dayReservations, rooms);
    var le := ByName(nameLe);
    forall g ensures SlotCount(SortSlots(g)) == SlotCount(g) {
      assert |multiset(SortSlots(g).slots)| == |multiset(g.slots)|;
    }
    SumOfMap(SortBy(unsorted, le), SortSlots, SlotCount, SlotCount);
    SortBySum(unsorted, le, SlotCount);
    SumOfMap(gs, make, SlotCount, ItemCount);
    ItemCountIsSize(gs);
    GroupBySize(dayReservations, RoomIdOf);
  }

  /** Groups are in name order, and each group's slots in start-time order. */
  lemma GroupsSorted(dayReservations: seq<Reservation>, rooms: seq<Room>, nameLe: (string, string) -> bool)
    requires TotalPreorder(nameLe)
    ensures var groups := BuildGroups(dayReservations, rooms, nameLe);
            && (forall i, j :: 0 <= i < j < |groups| ==> nameLe(groups[i].roomName, groups[j].roomName))
            && (forall i :: 0 <= i < |groups| ==> SortedBy(groups[i].slots, ByKey(SlotStart)))
  {
    var unsorted := Unsorted(dayReservations, rooms);
    var le := ByName(nameLe);
    var sorted := SortBy(unsorted, le);
    var groups := BuildGroups(dayReservations, rooms, nameLe);
    ByKeyWithTotal(GroupName, nameLe);
    SortBySorted(unsorted, le);
    forall i, j | 0 <= i < j < |groups|
      ensures nameLe(groups[i].roomName, groups[j].roomName)
    {
      assert le(sorted[i], sorted[j]);
      assert groups[i] == SortSlots(sorted[i]) && groups[j] == SortSlots(sorted[j]);
      assert nameLe(GroupName(sorted[i]), GroupName(sorted[j]));
    }
    ByKeyTotal(SlotStart);
    forall i | 0 <= i < |groups|
      ensures SortedBy(groups[i].slots, ByKey(SlotStart))
    {
      SortBySorted(sorted[i].slots, ByKey(SlotStart));
    }
  }

  // ---------------------------------------------------------------------
  // The day matrix
  // ---------------------------------------------------------------------

  /** One calendar cell: the day's `yyyy-MM-dd` key and its groups. Whether
      the day is in the shown month or is today depends on the clock and the
      calendar library and is not part of this model. */
  datatype Cell = Cell(date: string, groups: seq<CalendarGroup>)

  function CellOf(byDate: seq<Group<string, Reservation>>, rooms: seq<Room>,
                  nameLe: (string, string) -> bool, date: string): Cell
  {
    Cell(date, BuildGroups(Lookup(byDate, date), rooms, nameLe))
  }

  /** The calendar days, given as their date keys, in rows of seven. */
  function DayMatrix(days: seq<string>, reservations: seq<Reservation>, rooms: seq<Room>,
                     nameLe: (string, string) -> bool): seq<seq<Cell>>
  {
    var byDate := ByDate(reservations);
    Chunks(Map(days, d => CellOf(byDate, rooms, nameLe, d)), 7)
  }

  /** Read row by row, the matrix is the list of days, each with the groups
      of its own reservations; every row but the last holds seven days, and
      all rows do when the number of days is a multiple of seven. */
  lemma DayMatrixShape(days: seq<string>, reservations: seq<Reservation>, rooms: seq<Room>,
                       nameLe: (string, string) -> bool)
    ensures var m := DayMatrix(days, reservations, rooms, nameLe);
            var cells := Flatten(m);
            && |cells| == |days|
            && (forall i :: 0 <= i < |days| ==>
                  cells[i] == Cell(days[i], BuildGroups(Filter(reservations, HasKey(DateOf, days[i])), rooms, nameLe)))
            && (forall r :: 0 <= r < |m| - 1 ==> |m[r]| == 7)
            && (|days| == 7 * |m| ==> forall r :: 0 <= r < |m| ==> |m[r]| == 7)
  {
    var byDate := ByDate(reservations);
    var cells := Map(days, d => CellOf(byDate, rooms, nameLe, d));
    ChunksFlatten(cells, 7);
    ChunksSizes(cells, 7);
    forall i | 0 <= i < |days|
      ensures cells[i] == Cell(days[i], BuildGroups(Filter(reservations, HasKey(DateOf, days[i])), rooms, nameLe))
    {
      ByDateContents(reservations, days[i]);
    }
  }
}

=== FILE: my_reservations_page.dfy ===
/** The "my reservations" page: fetching the owner's reservations with the
    trimmed credentials, attaching room details, the status and date filter,
    the display order, the empty-list notices and the CSV export. The lookup
    service and the room list are inputs. */
module MyReservationsPage {
  import opened Wrappers
  import opened Strings
  import opened Seqs
  import opened Sorting
  import opened Records
  import Csv

  const EnterCredentials: string := "전화번호와 비밀번호를 입력해주세요."
  const LookupFailed: string := "예약 조회 중 오류가 발생했습니다."
  const NotQueried: string := "표시할 예약이 없습니다. 먼저 조회를 실행하세요."
  const NothingFound: string := "조회된 예약이 없습니다."
  const NoMatch: string := "필터 조건에 맞는 예약이 없습니다."

  /** The status choice meaning "any status". */
  const AnyStatus: string := "all"
  const ActiveStatus: string := "active"

  datatype RoomSummary = RoomSummary(name: string, location: string, capacity: Option<int>)

  /** A reservation as the page holds it: the row, the reserver's name and
      phone when the service supplied them, and the room details. */
  datatype Entry = Entry(row: Reservation, reserverName: Option<string>, reserverPhone: Option<string>,
                         room: Option<RoomSummary>)

  /** The page state the operations read and write. */
  datatype Page = Page(phone: string, password: string, status: string, from: string, to: string,
                       list: seq<Entry>, roomMap: map<string, RoomSummary>, queried: bool)

  // ---------------------------------------------------------------------
  // fetchList
  // ---------------------------------------------------------------------

  /** What `getMyReservations` resolves to. */
  datatype ServiceAnswer = Listed(data: Option<seq<Entry>>) | ServiceFailed(error: Option<string>)

  /** What `getRooms` gives: the rooms, or the error it throws. */
  datatype RoomsAnswer = RoomsListed(rooms: seq<Room>) | RoomsThrew(message: Option<string>)

  /** The arguments of the lookup request. */
  datatype Request = Request(phone: string, password: string, from: string, to: string)

  /** The state after `fetchList`, the lookup request it sends, whether it
      asked for the room list, and the toast it shows. */
  datatype Fetched = Fetched(page: Page, request: Option<Request>, roomsAsked: bool, toast: Option<string>)

  function EntryRoomId(e: Entry): string
  {
    e.row.roomId
  }

  predicate NonEmpty(s: string)
  {
    s != ""
  }

  /** `Array.from(new Set(list.map(r => r.room_id).filter(Boolean)))`. */
  function RoomIdsOf(list: seq<Entry>): seq<string>
  {
    Dedupe(Filter(Map(list, EntryRoomId), NonEmpty))
  }

  /** The name, location and capacity the page keeps of a listed room. */
  function SummaryOf(room: Room): RoomSummary
  {
    RoomSummary(room.name, room.location, Some(room.capacity))
  }

  /** Each entry of `m` is the summary of the last room in `rooms` with its id. */
  predicate LastRoomWins(m: map<string, RoomSummary>, rooms: seq<Room>)
  {
    forall k :: k in m ==>
      exists j :: 0 <= j < |rooms| && rooms[j].id == k && m[k] == SummaryOf(rooms[j])
                  && forall j' :: j < j' < |rooms| ==> rooms[j'].id != k
  }

  /** Adding a room to the end of the list and storing its summary (when
      it is stored at all) keeps every entry the last room's. */
  lemma LastRoomWinsStep(m: map<string, RoomSummary>, rooms: seq<Room>, room: Room, store: bool)
    requires LastRoomWins(m, rooms)
    ensures LastRoomWins(if store then m[room.id := SummaryOf(room)] else m - {room.id}, rooms + [room])
  {
    var rooms' := rooms + [room];
    var m' := if store then m[room.id := SummaryOf(room)] else m - {room.id};
    forall k | k in m'
      ensures exists j :: 0 <= j < |rooms'| && rooms'[j].id == k && m'[k] == SummaryOf(rooms'[j])
                          && forall j' :: j < j' < |rooms'| ==> rooms'[j'].id != k
    {
      if k == room.id {
        assert rooms'[|rooms|] == room;
      } else {
        var j :| 0 <= j < |rooms| && rooms[j].id == k && m[k] == SummaryOf(rooms[j])
                 && forall j' :: j < j' < |rooms| ==> rooms[j'].id != k;
        assert rooms'[j] == rooms[j];
        assert forall j' :: j < j' < |rooms| ==> rooms'[j'] == rooms[j'];
      }
    }
  }

  /** The room map: every listed room whose id is among `ids`; a later room
      with the same id overwrites an earlier one, so each entry is the
      summary of the last listed room with its id. */
  function RoomMapOf(rooms: seq<Room>, ids: seq<string>): (m: map<string, RoomSummary>)
    ensures forall k :: k in m <==> k in ids && exists j :: 0 <= j < |rooms| && rooms[j].id == k
    ensures LastRoomWins(m, rooms)
  {
    if |rooms| == 0 then map[]
    else
      var init := rooms[..|rooms| - 1];
      var room := rooms[|rooms| - 1];
      assert forall j :: 0 <= j < |rooms| - 1 ==> init[j] == rooms[j];
      var m := RoomMapOf(init, ids);
      assert rooms == init + [room];
      LastRoomWinsStep(m, init, room, room.id in ids);
      assert room.id !in ids ==> m - {room.id} == m;
      if room.id in ids then m[room.id := SummaryOf(room)] else m
  }

  /** `{ ...reservation, room: map[reservation.room_id] ?? reservation.room ?? null }`. */
  function Merger(roomMap: map<string, RoomSummary>): Entry -> Entry
  {
    (e: Entry) => e.(room := if e.row.roomId in roomMap then Some(roomMap[e.row.roomId]) else e.room)
  }

  function FetchList(page: Page, service: ServiceAnswer, rooms: RoomsAnswer): (f: Fetched)
    ensures f.page.phone == Trim(page.phone) && f.page.password == Trim(page.password)
    ensures f.request.None? ==> f.page.list == page.list && f.page.queried == page.queried
    ensures f.request.Some? ==> f.page.queried
  {
    var phone := Trim(page.phone);
    var password := Trim(page.password);
    var trimmed := page.(phone := phone, password := password);
    if phone == "" || password == "" then Fetched(trimmed, None, false, Some(EnterCredentials))
    else Received(trimmed, Request(phone, password, page.from, page.to), service, rooms)
  }

  /** The page once the lookup answered. */
  function Received(page: Page, request: Request, service: ServiceAnswer, rooms: RoomsAnswer): (f: Fetched)
    ensures f.request == Some(request) && f.page.queried
    ensures f.page.phone == page.phone && f.page.password == page.password
  {
    match service
    case ServiceFailed(e) => Fetched(page.(list := [], roomMap := map[], queried := true), Some(request), false, Some(e.GetOr(LookupFailed)))
    case Listed(data) => Merged(page, request, data.GetOr([]), rooms)
  }

  /** The page once the reservations arrived: the room list is asked for
      only when some reservation names a room. */
  function Merged(page: Page, request: Request, raw: seq<Entry>, rooms: RoomsAnswer): (f: Fetched)
    ensures f.request == Some(request) && f.page.queried
    ensures f.page.phone == page.phone && f.page.password == page.password
    ensures f.toast.None? ==> f.page.list == Map(raw, Merger(f.page.roomMap))
  {
    var ids := RoomIdsOf(raw);
    if |raw| == 0 || |ids| == 0 then
      Fetched(page.(list := Map(raw, Merger(map[])), roomMap := map[], queried := true), Some(request), false, None)
    else match rooms
      case RoomsThrew(m) => Fetched(page.(list := [], roomMap := map[], queried := true), Some(request), true, Some(m.GetOr(LookupFailed)))
      case RoomsListed(rs) =>
        var roomMap := RoomMapOf(rs, ids);
        Fetched(page.(list := Map(raw, Merger(roomMap)), roomMap := roomMap, queried := true), Some(request), true, None)
  }

  /** Credentials that are blank once trimmed send no request and leave the
      list as it was; otherwise the request carries the trimmed credentials
      and the date bounds as typed. */
  lemma FetchNeedsCredentials(page: Page, service: ServiceAnswer, rooms: RoomsAnswer)
    ensures var f := FetchList(page, service, rooms);
            f.request.None? <==> Trim(page.phone) == "" || Trim(page.password) == ""
    ensures var f := FetchList(page, service, rooms);
            f.request.None? ==> !f.roomsAsked && f.toast == Some(EnterCredentials) && f.page.list == page.list
    ensures var f := FetchList(page, service, rooms);
            f.request.Some? ==> f.request.value == Request(Trim(page.phone), Trim(page.password), page.from, page.to)
  {
  }

  /** The ids asked for are the non-empty room ids of the list. */
  lemma RoomIdsOfMeaning(list: seq<Entry>)
    ensures forall k :: k in RoomIdsOf(list) <==> k != "" && exists i :: 0 <= i < |list| && list[i].row.roomId == k
  {
    var names := Map(list, EntryRoomId);
    forall k
      ensures k in RoomIdsOf(list) <==> k != "" && exists i :: 0 <= i < |list| && list[i].row.roomId == k
    {
      if k in RoomIdsOf(list) {
        assert k in Filter(names, NonEmpty);
        var i :| 0 <= i < |names| && names[i] == k;
        assert list[i].row.roomId == k;
      }
      if k != "" && exists i :: 0 <= i < |list| && list[i].row.roomId == k {
        var i :| 0 <= i < |list| && list[i].row.roomId == k;
        assert names[i] == k && NonEmpty(names[i]);
      }
    }
  }

  /** The room map holds only rooms whose id occurs among the fetched
      reservations, and every such room the room list has; each entry is the
      name, location and capacity of the last listed room with its id. */
  lemma RoomMapOnlyFetchedRooms(page: Page, data: seq<Entry>, rs: seq<Room>)
    requires Trim(page.phone) != "" && Trim(page.password) != ""
    ensures var m := FetchList(page, Listed(Some(data)), RoomsListed(rs)).page.roomMap;
            forall k :: k in m <==> k != "" && (exists i :: 0 <= i < |data| && data[i].row.roomId == k)
                                    && (exists j :: 0 <= j < |rs| && rs[j].id == k)
    ensures var m := FetchList(page, Listed(Some(data)), RoomsListed(rs)).page.roomMap;
            LastRoomWins(m, rs)
  {
    var request := Request(Trim(page.phone), Trim(page.password), page.from, page.to);
    var trimmed := page.(phone := Trim(page.phone), password := Trim(page.password));
    FetchListed(page, data, RoomsListed(rs));
    MergedRoomMap(trimmed, request, data, rs);
  }

  /** With both credentials given and the lookup answering, the page is the
      merge of the answer into the page with trimmed credentials. */
  lemma FetchListed(page: Page, data: seq<Entry>, rooms: RoomsAnswer)
    requires Trim(page.phone) != "" && Trim(page.password) != ""
    ensures FetchList(page, Listed(Some(data)), rooms)
            == Merged(page.(phone := Trim(page.phone), password := Trim(page.password)),
                      Request(Trim(page.phone), Trim(page.password), page.from, page.to), data, rooms)
  {
  }

  lemma MergedRoomMap(page: Page, request: Request, data: seq<Entry>, rs: seq<Room>)
    ensures var m := Merged(page, request, data, RoomsListed(rs)).page.roomMap;
            forall k :: k in m <==> k != "" && (exists i :: 0 <= i < |data| && data[i].row.roomId == k)
                                    && (exists j :: 0 <= j < |rs| && rs[j].id == k)
    ensures var m := Merged(page, request, data, RoomsListed(rs)).page.roomMap;
            LastRoomWins(m, rs)
  {
    var ids := RoomIdsOf(data);
    RoomIdsOfMeaning(data);
    if |data| == 0 || |ids| == 0 {
      assert forall k :: k !in ids;
    }
  }

  /** After a successful fetch, each reservation keeps its fields and gets the
      map's room for its room id, else the room it came with, else none. */
  lemma MergedRoom(page: Page, data: seq<Entry>, rooms: RoomsAnswer, i: nat)
    requires Trim(page.phone) != "" && Trim(page.password) != ""
    requires i < |data|
    requires FetchList(page, Listed(Some(data)), rooms).toast.None?
    ensures var p := FetchList(page, Listed(Some(data)), rooms).page;
            && |p.list| == |data|
            && p.list[i].row == data[i].row
            && p.list[i].reserverName == data[i].reserverName && p.list[i].reserverPhone == data[i].reserverPhone
            && p.list[i].room == if data[i].row.roomId in p.roomMap then Some(p.roomMap[data[i].row.roomId])
                                 else data[i].room
  {
    var p := FetchList(page, Listed(Some(data)), rooms).page;
    assert p.list[i] == Merger(p.roomMap)(data[i]);
  }

  /** A failed lookup or a failed room list empties the list and the map and
      shows the error, or the default message. */
  lemma FetchFailure(page: Page, service: ServiceAnswer, rooms: RoomsAnswer)
    requires Trim(page.phone) != "" && Trim(page.password) != ""
    ensures var f := FetchList(page, service, rooms);
            service.ServiceFailed? ==>
              f.page.list == [] && f.page.roomMap == map[] && f.toast == Some(service.error.GetOr(LookupFailed))
    ensures var f := FetchList(page, service, rooms);
            f.roomsAsked && rooms.RoomsThrew? ==>
              f.page.list == [] && f.page.roomMap == map[] && f.toast == Some(rooms.message.GetOr(LookupFailed))
  {
  }

  // ---------------------------------------------------------------------
  // The filter, the display order and the notices
  // ---------------------------------------------------------------------

  /** The page's filter: any status for 'all', otherwise an equal status; a
      date not before `from` and not after `to`, where an empty bound does
      not limit. */
  predicate Passes(status: string, from: string, to: string, e: Entry)
  {
    && (status == AnyStatus || e.row.status == status)
    && (from == "" || !LexLess(e.row.date, from))
    && (to == "" || !LexLess(to, e.row.date))
  }

  function PassesFilter(status: string, from: string, to: string): Entry -> bool
  {
    (e: Entry) => Passes(status, from, to, e)
  }

  function Filtered(page: Page): seq<Entry>
  {
    Filter(page.list, PassesFilter(page.status, page.from, page.to))
  }

  /** The filtered list holds each entry that passes as often as the list
      does, none that fails, and in list order. */
  lemma FilteredContents(page: Page, e: Entry)
    ensures multiset(Filtered(page))[e] == if Passes(page.status, page.from, page.to, e) then multiset(page.list)[e] else 0
    ensures IsSubsequence(Filtered(page), page.list)
  {
    FilterMultiplicity(page.list, PassesFilter(page.status, page.from, page.to), e);
    FilterIsSubsequence(page.list, PassesFilter(page.status, page.from, page.to));
  }

  /** 'all' with both bounds empty shows the whole list. */
  lemma NoFilterShowsAll(page: Page)
    requires page.status == AnyStatus && page.from == "" && page.to == ""
    ensures Filtered(page) == page.list
  {
    FilterAll(page.list, PassesFilter(page.status, page.from, page.to));
  }

  /** The sort key `reservation_date + start_time`. */
  function DisplayKey(e: Entry): string
  {
    e.row.date + e.row.startTime
  }

  /** The filtered list sorted by date then start time (the sort happens in
      place, so the export sees this order too). */
  function Displayed(page: Page): seq<Entry>
  {
    SortBy(Filtered(page), ByKey(DisplayKey))
  }

  /** The display is the filtered list, reordered, in ascending key order;
      entries with equal keys keep their list order. */
  lemma DisplayOrder(page: Page, y: Entry)
    ensures multiset(Displayed(page)) == multiset(Filtered(page))
    ensures SortedBy(Displayed(page), ByKey(DisplayKey))
    ensures Filter(Displayed(page), TiedWith(ByKey(DisplayKey), y)) == Filter(Filtered(page), TiedWith(ByKey(DisplayKey), y))
  {
    ByKeyTotal(DisplayKey);
    SortBySorted(Filtered(page), ByKey(DisplayKey));
    SortByStable(Filtered(page), ByKey(DisplayKey), y);
  }

  /** For dates of one fixed width the key order is the date order, and on
      the same date the start-time order. */
  lemma DisplayKeyIsDateThenTime(a: Entry, b: Entry)
    requires |a.row.date| == |b.row.date|
    ensures ByKey(DisplayKey)(a, b) <==>
              LexLess(a.row.date, b.row.date) || (a.row.date == b.row.date && !LexLess(b.row.startTime, a.row.startTime))
  {
    assert ByKey(DisplayKey)(a, b) == ByKeyWith(DisplayKey, StringLe)(a, b);
    assert ByKeyWith(DisplayKey, StringLe)(a, b) == StringLe(DisplayKey(a), DisplayKey(b));
    LexLessAppend(b.row.date, b.row.startTime, a.row.date, a.row.startTime);
    LexLessAsymmetric(a.row.date, b.row.date);
    LexLessTotal(a.row.date, b.row.date);
    LexLessIrreflexive(a.row.date);
  }

  /** A card of the list: the entry, the room label and whether the cancel
      button is shown. */
  datatype Card = Card(entry: Entry, roomLabel: string, cancellable: bool)

  /** `roomMap[room_id]?.name ?? room_id`. */
  function RoomLabel(roomMap: map<string, RoomSummary>, e: Entry): string
  {
    if e.row.roomId in roomMap then roomMap[e.row.roomId].name else e.row.roomId
  }

  function CardOf(roomMap: map<string, RoomSummary>): Entry -> Card
  {
    (e: Entry) => Card(e, RoomLabel(roomMap, e), e.row.status == ActiveStatus)
  }

  function Cards(page: Page): seq<Card>
  {
    Map(Displayed(page), CardOf(page.roomMap))
  }

  /** One card per filtered entry, in display order; cancelling is offered
      exactly on active reservations. */
  lemma CardsMeaning(page: Page)
    ensures |Cards(page)| == |Filtered(page)|
    ensures forall i :: 0 <= i < |Cards(page)| ==>
              Cards(page)[i].entry == Displayed(page)[i]
              && (Cards(page)[i].cancellable <==> Displayed(page)[i].row.status == ActiveStatus)
  {
  }

  /** The text shown instead of cards. */
  function Notice(page: Page): (n: Option<string>)
  {
    if |Filtered(page)| > 0 then None
    else if !page.queried then Some(NotQueried)
    else if |page.list| == 0 then Some(NothingFound)
    else Some(NoMatch)
  }

  /** A notice replaces the cards exactly when nothing passes the filter, and
      it tells apart "not yet looked up", "nothing found" and "nothing
      matches". */
  lemma NoticeMeaning(page: Page)
    ensures Notice(page).None? <==> |Cards(page)| > 0
    ensures Notice(page) == Some(NoMatch) <==> page.queried && |page.list| > 0 && |Cards(page)| == 0
    ensures Notice(page) == Some(NothingFound) <==> page.queried && |page.list| == 0
  {
    if |page.list| == 0 {
      assert Filtered(page) == [];
    }
  }

  // ---------------------------------------------------------------------
  // exportCsv
  // ---------------------------------------------------------------------

  const Columns: seq<string> := ["id", "date", "start", "end", "room", "location", "name", "phone", "status"]

  /** The nine exported values of an entry. */
  function CsvFields(roomMap: map<string, RoomSummary>): Entry -> seq<string>
  {
    (e: Entry) => [e.row.id, e.row.date, e.row.startTime, e.row.endTime, RoomLabel(roomMap, e),
          if e.row.roomId in roomMap then roomMap[e.row.roomId].location else "",
          e.reserverName.GetOr(""), e.reserverPhone.GetOr(""), e.row.status]
  }

  function ExportCsv(page: Page): Option<string>
  {
    var rows := Displayed(page);
    if |rows| == 0 then None else Some(Csv.Document(Columns, Map(rows, CsvFields(page.roomMap))))
  }

  /** Nothing is exported for an empty filtered list; otherwise the file
      reads back as one line of the nine values per displayed entry, in
      display order, whatever quotes, commas or newlines they contain. */
  lemma ExportReadsBack(page: Page)
    ensures ExportCsv(page).None? <==> |Filtered(page)| == 0
    ensures ExportCsv(page).Some? ==>
              Csv.ReadDocument(Columns, ExportCsv(page).value) == Some(Map(Displayed(page), CsvFields(page.roomMap)))
  {
    var rows := Map(Displayed(page), CsvFields(page.roomMap));
    if |rows| > 0 {
      Csv.DocumentRoundTrip(Columns, rows);
    }
  }
}

=== FILE: patterns.dfy ===
/** Anchored regular expressions made only of single-character classes
    (`^010-\d{4}-\d{4}$`, `^\d{4}-\d{2}-\d{2}$`, zod's UUID shape): a pattern
    is a sequence of tokens, each matching exactly one character. */
module Patterns {
  import opened Strings

  datatype Token =
    | Lit(c: char)   // the character itself
    | Digit          // `\d`: an ASCII digit
    | Hex            // `[0-9a-fA-F]`

  predicate IsHex(c: char)
  {
    IsDigit(c) || ('a' <= c <= 'f') || ('A' <= c <= 'F')
  }

  predicate Accepts(t: Token, c: char)
  {
    match t
    case Lit(d) => c == d
    case Digit => IsDigit(c)
    case Hex => IsHex(c)
  }

  function Repeat(t: Token, n: nat): (p: seq<Token>)
    ensures |p| == n && forall i :: 0 <= i < n ==> p[i] == t
  {
    if n == 0 then [] else [t] + Repeat(t, n - 1)
  }

  function Literal(s: string): (p: seq<Token>)
    ensures |p| == |s| && forall i :: 0 <= i < |s| ==> p[i] == Lit(s[i])
  {
    if |s| == 0 then [] else [Lit(s[0])] + Literal(s[1..])
  }

  /** `/^p$/.test(s)`: the pattern matches the whole string, token by character. */
  predicate Matches(p: seq<Token>, s: string)
  {
    if |p| == 0 then |s| == 0
    else |s| > 0 && Accepts(p[0], s[0]) && Matches(p[1..], s[1..])
  }

  /** A match consumes one character per token, each accepted by its token. */
  lemma {:induction false} MatchesIff(p: seq<Token>, s: string)
    ensures Matches(p, s) <==> |s| == |p| && forall i :: 0 <= i < |p| ==> Accepts(p[i], s[i])
  {
    if |p| > 0 && |s| > 0 {
      MatchesIff(p[1..], s[1..]);
      if |s| == |p| && forall i :: 0 <= i < |p| ==> Accepts(p[i], s[i]) {
        assert forall i :: 0 <= i < |p| - 1 ==> Accepts(p[1..][i], s[1..][i]) by {
          forall i | 0 <= i < |p| - 1
            ensures Accepts(p[1..][i], s[1..][i])
          {
            assert Accepts(p[i + 1], s[i + 1]);
          }
        }
      }
    }
  }

  /** `/^010-\d{4}-\d{4}$/i`, the mobile-number format of the booking form. */
  function PhonePattern(): seq<Token>
  {
    Literal("010-") + Repeat(Digit, 4) + [Lit('-')] + Repeat(Digit, 4)
  }

  /** `/^\d{4}-\d{2}-\d{2}$/`, the `YYYY-MM-DD` date shape. */
  function DatePattern(): seq<Token>
  {
    Repeat(Digit, 4) + [Lit('-')] + Repeat(Digit, 2) + [Lit('-')] + Repeat(Digit, 2)
  }

  /** zod's `.uuid()` check: 8-4-4-4-12 hexadecimal digits joined by `-`. */
  function UuidPattern(): seq<Token>
  {
    Repeat(Hex, 8) + [Lit('-')] + Repeat(Hex, 4) + [Lit('-')] + Repeat(Hex, 4)
    + [Lit('-')] + Repeat(Hex, 4) + [Lit('-')] + Repeat(Hex, 12)
  }

  /** The phone format spelled out: thirteen characters, `010-`, four digits,
      `-`, four digits. */
  predicate IsMobileNumber(s: string)
  {
    && |s| == 13
    && s[..4] == "010-"
    && s[8] == '-'
    && (forall i :: 4 <= i < 8 ==> IsDigit(s[i]))
    && (forall i :: 9 <= i < 13 ==> IsDigit(s[i]))
  }

  lemma PhonePatternMeaning(s: string)
    ensures Matches(PhonePattern(), s) <==> IsMobileNumber(s)
  {
    var p := PhonePattern();
    MatchesIff(p, s);
    assert forall i :: 0 <= i < 4 ==> p[i] == Lit("010-"[i]);
    assert forall i :: 4 <= i < 8 ==> p[i] == Digit;
    assert p[8] == Lit('-');
    assert forall i :: 9 <= i < 13 ==> p[i] == Digit;
    if IsMobileNumber(s) {
      forall i | 0 <= i < 4
        ensures Accepts(p[i], s[i])
      {
        assert s[..4][i] == s[i];
      }
    }
  }

  /** The date shape spelled out: `DDDD-DD-DD` with ASCII digits. */
  predicate IsDateShape(s: string)
  {
    && |s| == 10
    && s[4] == '-' && s[7] == '-'
    && (forall i :: 0 <= i < 10 && i != 4 && i != 7 ==> IsDigit(s[i]))
  }

  lemma DatePatternMeaning(s: string)
    ensures Matches(DatePattern(), s) <==> IsDateShape(s)
  {
    var p := DatePattern();
    MatchesIff(p, s);
    assert forall i :: 0 <= i < 10 && i != 4 && i != 7 ==> p[i] == Digit;
    assert p[4] == Lit('-') && p[7] == Lit('-');
  }

  /** The UUID shape spelled out: 36 characters, dashes at 8, 13, 18 and 23,
      hexadecimal digits everywhere else. */
  predicate IsUuidShape(s: string)
  {
    && |s| == 36
    && s[8] == '-' && s[13] == '-' && s[18] == '-' && s[23] == '-'
    && (forall i :: 0 <= i < 36 && i != 8 && i != 13 && i != 18 && i != 23 ==> IsHex(s[i]))
  }

  lemma UuidPatternMeaning(s: string)
    ensures Matches(UuidPattern(), s) <==> IsUuidShape(s)
  {
    var p := UuidPattern();
    MatchesIff(p, s);
    assert forall i :: 0 <= i < 36 && i != 8 && i != 13 && i != 18 && i != 23 ==> p[i] == Hex;
    assert p[8] == Lit('-') && p[13] == Lit('-') && p[18] == Lit('-') && p[23] == Lit('-');
  }
}

=== FILE: records.dfy ===
/** The two database rows the application works with, `meeting_rooms` and
    `reservations`, as immutable records (the sensitive reserver columns are
    not part of a row the client sees). Field accessors are named functions so
    that they can be passed as keys to grouping and sorting. */
module Records {

  datatype Room = Room(
    id: string,
    name: string,
    location: string,
    capacity: int,
    createdAt: string,
    updatedAt: string)

  datatype Reservation = Reservation(
    id: string,
    roomId: string,
    date: string,        // `YYYY-MM-DD`
    startTime: string,   // `HH:MM:SS`
    endTime: string,     // `HH:MM:SS`
    status: string,      // 'active' or 'cancelled'
    createdAt: string,
    updatedAt: string)

  function RoomIdOf(r: Reservation): string { r.roomId }
  function DateOf(r: Reservation): string { r.date }
  function StartOf(r: Reservation): string { r.startTime }
}

=== FILE: room_grouping.dfy ===
/** The pure part of `getRoomsWithReservationsByDate`: the day's
    reservations are bucketed by room id (a JavaScript `Map` in first-seen
    order), every room receives its bucket, and each bucket is sorted by
    start time with a stable sort. */
module RoomGrouping {
  import opened Seqs
  import opened Sorting
  import opened Records

  datatype RoomWithReservations = RoomWithReservations(room: Room, reservations: seq<Reservation>)

  /** Ascending start time, the order `a.start_time.localeCompare(b.start_time)`
      gives on zero-padded times. */
  function ByStart(): (Reservation, Reservation) -> bool
  {
    ByKey(StartOf)
  }

  function Attach(byRoom: seq<Group<string, Reservation>>, room: Room): RoomWithReservations
  {
    RoomWithReservations(room, SortBy(Lookup(byRoom, room.id), ByStart()))
  }

  function WithReservations(rooms: seq<Room>, reservations: seq<Reservation>): (out: seq<RoomWithReservations>)
    ensures |out| == |rooms|
    ensures forall i :: 0 <= i < |rooms| ==> out[i].room == rooms[i]
  {
    var byRoom := GroupBy(reservations, RoomIdOf);
    Map(rooms, room => Attach(byRoom, room))
  }

  /** Room `i`'s list, before sorting, is exactly the input reservations with
      its id, in input order. */
  lemma Bucket(rooms: seq<Room>, reservations: seq<Reservation>, i: nat)
    requires i < |rooms|
    ensures WithReservations(rooms, reservations)[i].reservations
            == SortBy(Filter(reservations, HasKey(RoomIdOf, rooms[i].id)), ByStart())
  {
    GroupByLookup(reservations, RoomIdOf, rooms[i].id);
  }

  /** Nothing lost, nothing duplicated, nothing from another room: every
      reservation occurs in room `i`'s list as often as in the input if it has
      the room's id, and not at all otherwise. */
  lemma RoomListContents(rooms: seq<Room>, reservations: seq<Reservation>, i: nat, r: Reservation)
    requires i < |rooms|
    ensures multiset(WithReservations(rooms, reservations)[i].reservations)[r]
            == if r.roomId == rooms[i].id then multiset(reservations)[r] else 0
  {
    var p := HasKey(RoomIdOf, rooms[i].id);
    assert p(r) == (RoomIdOf(r) == rooms[i].id);
    var bucket := Filter(reservations, p);
    FilterMultiplicity(reservations, p, r);
    Bucket(rooms, reservations, i);
  }

  /** A reservation whose room id names no room appears in no room's list. */
  lemma OrphansDropped(rooms: seq<Room>, reservations: seq<Reservation>, r: Reservation)
    requires forall j :: 0 <= j < |rooms| ==> rooms[j].id != r.roomId
    ensures forall i :: 0 <= i < |rooms| ==> r !in WithReservations(rooms, reservations)[i].reservations
  {
    forall i | 0 <= i < |rooms|
      ensures r !in WithReservations(rooms, reservations)[i].reservations
    {
      RoomListContents(rooms, reservations, i, r);
    }
  }

  /** A room with no reservation gets the empty list. */
  lemma EmptyRoom(rooms: seq<Room>, reservations: seq<Reservation>, i: nat)
    requires i < |rooms|
    requires forall k :: 0 <= k < |reservations| ==> reservations[k].roomId != rooms[i].id
    ensures WithReservations(rooms, reservations)[i].reservations == []
  {
    var out := WithReservations(rooms, reservations)[i].reservations;
    forall r
      ensures multiset(out)[r] == 0
    {
      RoomListContents(rooms, reservations, i, r);
      if r.roomId == rooms[i].id {
        assert r !in reservations;
      }
    }
    assert multiset(out) == multiset{};
  }

  /** Each room's list is in ascending start-time order. */
  lemma RoomListSorted(rooms: seq<Room>, reservations: seq<Reservation>, i: nat)
    requires i < |rooms|
    ensures SortedBy(WithReservations(rooms, reservations)[i].reservations, ByStart())
  {
    Bucket(rooms, reservations, i);
    ByKeyTotal(StartOf);
    SortBySorted(Filter(reservations, HasKey(RoomIdOf, rooms[i].id)), ByStart());
  }

  /** Reservations of a room that start at the same time keep their input
      order, as JavaScript's stable sort guarantees. */
  lemma RoomListStable(rooms: seq<Room>, reservations: seq<Reservation>, i: nat, y: Reservation)
    requires i < |rooms|
    ensures Filter(WithReservations(rooms, reservations)[i].reservations, TiedWith(ByStart(), y))
            == Filter(Filter(reservations, HasKey(RoomIdOf, rooms[i].id)), TiedWith(ByStart(), y))
  {
    Bucket(rooms, reservations, i);
    ByKeyTotal(StartOf);
    SortByStable(Filter(reservations, HasKey(RoomIdOf, rooms[i].id)), ByStart(), y);
  }
}

=== FILE: seqs.dfy ===
/** Sequence operations the application performs with `Array.prototype`
    methods and `Map`: filtering, grouping by a key in first-seen order, and
    cutting a list into fixed-size rows. */
module Seqs {

  /** `xs.filter(p)`. */
  function Filter<T>(xs: seq<T>, p: T -> bool): (r: seq<T>)
    ensures |r| <= |xs|
    ensures forall i :: 0 <= i < |r| ==> p(r[i]) && r[i] in xs
    ensures forall i :: 0 <= i < |xs| && p(xs[i]) ==> xs[i] in r
  {
    if |xs| == 0 then [] else (if p(xs[0]) then [xs[0]] else []) + Filter(xs[1..], p)
  }

  /** `a` is `b` with some elements left out, the rest in their order. */
  predicate IsSubsequence<T(==)>(a: seq<T>, b: seq<T>)
  {
    |a| == 0
    || (|b| > 0 && ((a[0] == b[0] && IsSubsequence(a[1..], b[1..])) || IsSubsequence(a, b[1..])))
  }

  /** Filtering keeps the elements that pass the test in their original order. */
  lemma {:induction false} FilterIsSubsequence<T>(xs: seq<T>, p: T -> bool)
    ensures IsSubsequence(Filter(xs, p), xs)
  {
    if |xs| > 0 {
      FilterIsSubsequence(xs[1..], p);
      if p(xs[0]) {
        var r := Filter(xs, p);
        assert r[0] == xs[0] && r[1..] == Filter(xs[1..], p);
      } else {
        assert Filter(xs, p) == Filter(xs[1..], p);
      }
    }
  }

  /** Filtering keeps each passing element exactly as many times as it occurs
      and drops every failing one. */
  lemma {:induction false} FilterMultiplicity<T>(xs: seq<T>, p: T -> bool, x: T)
    ensures multiset(Filter(xs, p))[x] == if p(x) then multiset(xs)[x] else 0
  {
    if |xs| > 0 {
      var head := if p(xs[0]) then [xs[0]] else [];
      var rest := Filter(xs[1..], p);
      FilterMultiplicity(xs[1..], p, x);
      assert Filter(xs, p) == head + rest;
      assert multiset(head + rest) == multiset(head) + multiset(rest);
      HeadTail(xs);
      assert multiset(xs) == multiset([xs[0]]) + multiset(xs[1..]);
    } else {
      assert |Filter(xs, p)| == 0;
    }
  }

  lemma AppendAssoc<T>(a: seq<T>, b: seq<T>, c: seq<T>)
    ensures a + b + c == a + (b + c)
  {
  }

  lemma DropPrefix<T>(a: seq<T>, b: seq<T>)
    ensures (a + b)[|a|..] == b
  {
  }

  /** A non-empty sequence is its head followed by its tail. */
  lemma HeadTail<T>(s: seq<T>)
    requires |s| > 0
    ensures [s[0]] + s[1..] == s
  {
  }

  lemma FilterSingle<T>(x: T, p: T -> bool)
    ensures Filter([x], p) == if p(x) then [x] else []
  {
    assert Filter([x], p) == (if p(x) then [x] else []) + Filter([], p);
  }

  /** Filtering a non-empty list: the front filtered, then the last element
      if it passes. */
  lemma FilterSnoc<T>(xs: seq<T>, p: T -> bool)
    requires |xs| > 0
    ensures Filter(xs, p) == Filter(xs[..|xs| - 1], p) + (if p(xs[|xs| - 1]) then [xs[|xs| - 1]] else [])
  {
    var n := |xs| - 1;
    assert xs[..n] + xs[n..] == xs;
    assert xs[n..] == [xs[n]];
    FilterAppend(xs[..n], xs[n..], p);
    FilterSingle(xs[n], p);
  }

  lemma {:induction false} FilterAppend<T>(xs: seq<T>, ys: seq<T>, p: T -> bool)
    ensures Filter(xs + ys, p) == Filter(xs, p) + Filter(ys, p)
  {
    if |xs| > 0 {
      assert (xs + ys)[1..] == xs[1..] + ys;
      FilterAppend(xs[1..], ys, p);
    } else {
      assert xs + ys == ys;
    }
  }

  /** A filter whose test passes everything changes nothing. */
  lemma {:induction false} FilterAll<T>(xs: seq<T>, p: T -> bool)
    requires forall x :: x in xs ==> p(x)
    ensures Filter(xs, p) == xs
  {
    if |xs| > 0 {
      FilterAll(xs[1..], p);
    }
  }

  /** Two filters in a row are one filter by the conjunction of the tests. */
  lemma {:induction false} FilterTwice<T>(xs: seq<T>, p: T -> bool, q: T -> bool, pq: T -> bool)
    requires forall x :: pq(x) == (p(x) && q(x))
    ensures Filter(Filter(xs, p), q) == Filter(xs, pq)
  {
    if |xs| > 0 {
      FilterTwice(xs[1..], p, q, pq);
      FilterAppend(if p(xs[0]) then [xs[0]] else [], Filter(xs[1..], p), q);
    }
  }

  /** Two tests that agree on every element give the same filter. */
  lemma {:induction false} FilterCongruent<T>(xs: seq<T>, p: T -> bool, q: T -> bool)
    requires forall x :: x in xs ==> p(x) == q(x)
    ensures Filter(xs, p) == Filter(xs, q)
  {
    if |xs| > 0 {
      FilterCongruent(xs[1..], p, q);
    }
  }

  /** The distinct elements of `xs`, in order of first occurrence (what
      `Array.from(new Set(xs))` gives). */
  function Dedupe<T(==, !new)>(xs: seq<T>): (d: seq<T>)
    ensures Distinct(d)
    ensures forall x :: x in d <==> x in xs
  {
    if |xs| == 0 then []
    else
      var init := Dedupe(xs[..|xs| - 1]);
      var last := xs[|xs| - 1];
      assert xs == xs[..|xs| - 1] + [last];
      if last in init then init else init + [last]
  }

  /** `xs.map(f)`. */
  function Map<T, U>(xs: seq<T>, f: T -> U): (r: seq<U>)
    ensures |r| == |xs|
    ensures forall i :: 0 <= i < |xs| ==> r[i] == f(xs[i])
  {
    if |xs| == 0 then [] else [f(xs[0])] + Map(xs[1..], f)
  }

  // ---------------------------------------------------------------------
  // Grouping: a JavaScript `Map<K, T[]>` filled by `get(k) ?? []`, `push`,
  // `set(k, list)`, kept as its entries in insertion order.
  // ---------------------------------------------------------------------

  datatype Group<K, T> = Group(key: K, items: seq<T>)

  /** The test "has key k" under the key function `key`. */
  function HasKey<K(==), T>(key: T -> K, k: K): T -> bool
  {
    x => key(x) == k
  }

  function Keys<K, T>(gs: seq<Group<K, T>>): (ks: seq<K>)
    ensures |ks| == |gs|
    ensures forall i :: 0 <= i < |gs| ==> ks[i] == gs[i].key
  {
    if |gs| == 0 then [] else [gs[0].key] + Keys(gs[1..])
  }

  predicate Distinct<K(==)>(ks: seq<K>)
  {
    forall i, j :: 0 <= i < j < |ks| ==> ks[i] != ks[j]
  }

  /** `map.get(k) ?? []`. */
  function Lookup<K(==), T>(gs: seq<Group<K, T>>, k: K): seq<T>
  {
    if |gs| == 0 then []
    else if gs[0].key == k then gs[0].items
    else Lookup(gs[1..], k)
  }

  /** Push `x` onto the list stored under `k`, creating it at the end if new. */
  function AddTo<K(==), T>(gs: seq<Group<K, T>>, k: K, x: T): seq<Group<K, T>>
  {
    if |gs| == 0 then [Group(k, [x])]
    else if gs[0].key == k then [Group(k, gs[0].items + [x])] + gs[1..]
    else [gs[0]] + AddTo(gs[1..], k, x)
  }

  /** `xs.forEach(x => push x under key(x))` starting from an empty map. */
  function GroupBy<K(==), T>(xs: seq<T>, key: T -> K): seq<Group<K, T>>
  {
    if |xs| == 0 then []
    else
      var last := xs[|xs| - 1];
      AddTo(GroupBy(xs[..|xs| - 1], key), key(last), last)
  }

  lemma {:induction false} AddToLookup<K, T>(gs: seq<Group<K, T>>, k: K, x: T, k': K)
    ensures Lookup(AddTo(gs, k, x), k') == Lookup(gs, k') + (if k' == k then [x] else [])
  {
    if |gs| > 0 && gs[0].key != k {
      AddToLookup(gs[1..], k, x, k');
    }
  }

  lemma {:induction false} AddToKeys<K, T>(gs: seq<Group<K, T>>, k: K, x: T)
    ensures k in Keys(gs) ==> Keys(AddTo(gs, k, x)) == Keys(gs)
    ensures k !in Keys(gs) ==> Keys(AddTo(gs, k, x)) == Keys(gs) + [k]
  {
    if |gs| > 0 && gs[0].key != k {
      AddToKeys(gs[1..], k, x);
    }
  }

  function SumSizes<K, T>(gs: seq<Group<K, T>>): nat
  {
    if |gs| == 0 then 0 else |gs[0].items| + SumSizes(gs[1..])
  }

  lemma {:induction false} AddToSize<K, T>(gs: seq<Group<K, T>>, k: K, x: T)
    ensures SumSizes(AddTo(gs, k, x)) == SumSizes(gs) + 1
  {
    if |gs| > 0 && gs[0].key != k {
      AddToSize(gs[1..], k, x);
    }
  }

  /** The list stored under any key `k` is exactly the input elements with
      key `k`, in input order. */
  lemma {:induction false} GroupByLookup<K, T>(xs: seq<T>, key: T -> K, k: K)
    ensures Lookup(GroupBy(xs, key), k) == Filter(xs, HasKey(key, k))
  {
    if |xs| > 0 {
      var init, last := xs[..|xs| - 1], xs[|xs| - 1];
      GroupByLookup(init, key, k);
      AddToLookup(GroupBy(init, key), key(last), last, k);
      FilterSnoc(xs, HasKey(key, k));
    }
  }

  /** The map has one entry per distinct key of the input, in order of first
      occurrence. */
  lemma {:induction false} GroupByKeys<K, T>(xs: seq<T>, key: T -> K)
    ensures Distinct(Keys(GroupBy(xs, key)))
    ensures forall k :: k in Keys(GroupBy(xs, key)) <==> exists i :: 0 <= i < |xs| && key(xs[i]) == k
  {
    if |xs| > 0 {
      var init, last := xs[..|xs| - 1], xs[|xs| - 1];
      var gs := GroupBy(init, key);
      GroupByKeys(init, key);
      AddToKeys(gs, key(last), last);
      forall k
        ensures k in Keys(GroupBy(xs, key)) <==> exists i :: 0 <= i < |xs| && key(xs[i]) == k
      {
        if k in Keys(GroupBy(xs, key)) && k != key(last) {
          assert k in Keys(gs);
          var i :| 0 <= i < |init| && key(init[i]) == k;
          assert xs[i] == init[i];
        }
        if exists i :: 0 <= i < |xs| && key(xs[i]) == k {
          var i :| 0 <= i < |xs| && key(xs[i]) == k;
          if i < |init| {
            assert init[i] == xs[i];
          }
        }
      }
    }
  }

  /** The lists of the map together hold every input element once. */
  lemma {:induction false} GroupBySize<K, T>(xs: seq<T>, key: T -> K)
    ensures SumSizes(GroupBy(xs, key)) == |xs|
  {
    if |xs| > 0 {
      var init, last := xs[..|xs| - 1], xs[|xs| - 1];
      GroupBySize(init, key);
      AddToSize(GroupBy(init, key), key(last), last);
    }
  }

  /** Every stored list is non-empty and holds only elements of its key. */
  lemma {:induction false} GroupByItems<K, T>(xs: seq<T>, key: T -> K)
    ensures forall i :: 0 <= i < |GroupBy(xs, key)| ==>
              GroupBy(xs, key)[i].items == Filter(xs, HasKey(key, GroupBy(xs, key)[i].key))
              && |GroupBy(xs, key)[i].items| > 0
  {
    var gs := GroupBy(xs, key);
    GroupByKeys(xs, key);
    forall i | 0 <= i < |gs|
      ensures gs[i].items == Filter(xs, HasKey(key, gs[i].key)) && |gs[i].items| > 0
    {
      LookupOfDistinct(gs, i);
      GroupByLookup(xs, key, gs[i].key);
      assert gs[i].key in Keys(gs);
      var x :| x in xs && key(x) == gs[i].key;
      assert x in Filter(xs, HasKey(key, gs[i].key));
    }
  }

  lemma {:induction false} LookupOfDistinct<K, T>(gs: seq<Group<K, T>>, i: nat)
    requires i < |gs| && Distinct(Keys(gs))
    ensures Lookup(gs, gs[i].key) == gs[i].items
  {
    if i > 0 {
      assert Keys(gs)[0] != Keys(gs)[i];
      assert Keys(gs[1..]) == Keys(gs)[1..];
      LookupOfDistinct(gs[1..], i - 1);
    }
  }

  // ---------------------------------------------------------------------
  // Chunking: `for (i = 0; i < xs.length; i += n) rows.push(xs.slice(i, i + n))`.
  // ---------------------------------------------------------------------

  function Chunks<T>(xs: seq<T>, n: nat): seq<seq<T>>
    requires n > 0
    decreases |xs|
  {
    if |xs| == 0 then []
    else if |xs| <= n then [xs]
    else [xs[..n]] + Chunks(xs[n..], n)
  }

  function Flatten<T>(rows: seq<seq<T>>): seq<T>
  {
    if |rows| == 0 then [] else rows[0] + Flatten(rows[1..])
  }

  /** The rows put back together are the input. */
  lemma {:induction false} ChunksFlatten<T>(xs: seq<T>, n: nat)
    requires n > 0
    ensures Flatten(Chunks(xs, n)) == xs
    decreases |xs|
  {
    if |xs| > n {
      ChunksFlatten(xs[n..], n);
      assert xs == xs[..n] + xs[n..];
    } else if |xs| > 0 {
      assert Flatten(Chunks(xs, n)) == xs + [];
    }
  }

  /** Every row is non-empty and has `n` elements, except possibly the last,
      which has at most `n`; when the length is a multiple of `n` (`n` times
      the number of rows), every row is full. */
  lemma {:induction false} ChunksSizes<T>(xs: seq<T>, n: nat)
    requires n > 0
    ensures forall i :: 0 <= i < |Chunks(xs, n)| ==> 0 < |Chunks(xs, n)[i]| <= n
    ensures forall i :: 0 <= i < |Chunks(xs, n)| - 1 ==> |Chunks(xs, n)[i]| == n
    ensures |xs| == n * |Chunks(xs, n)| ==> forall i :: 0 <= i < |Chunks(xs, n)| ==> |Chunks(xs, n)[i]| == n
    decreases |xs|
  {
    if |xs| > n {
      ChunksSizes(xs[n..], n);
      var c := |Chunks(xs[n..], n)|;
      assert |Chunks(xs, n)| == c + 1;
      assert n * (c + 1) == n * c + n;
    }
  }
}

=== FILE: sorting.dfy ===
/** `Array.prototype.sort` with a comparator, which JavaScript guarantees to
    be stable: a stable insertion sort by a total preorder `le`, where
    `le(a, b)` means the comparator does not put `b` before `a`. */
module Sorting {
  import opened Strings
  import opened Seqs

  ghost predicate TotalPreorder<T(!new)>(le: (T, T) -> bool)
  {
    && (forall a, b :: le(a, b) || le(b, a))
    && (forall a, b, c :: le(a, b) && le(b, c) ==> le(a, c))
  }

  predicate SortedBy<T>(s: seq<T>, le: (T, T) -> bool)
  {
    forall i, j :: 0 <= i < j < |s| ==> le(s[i], s[j])
  }

  /** The elements the order cannot tell apart from `x`. */
  function TiedWith<T>(le: (T, T) -> bool, x: T): T -> bool
  {
    y => le(x, y) && le(y, x)
  }

  /** Put `x` in front of the first element that is not smaller than it. */
  function Insert<T>(x: T, s: seq<T>, le: (T, T) -> bool): seq<T>
  {
    if |s| == 0 then [x]
    else if le(x, s[0]) then [x] + s
    else [s[0]] + Insert(x, s[1..], le)
  }

  /** Inserting adds exactly one occurrence of `x`. */
  lemma {:induction false} InsertPermutes<T>(x: T, s: seq<T>, le: (T, T) -> bool)
    ensures multiset(Insert(x, s, le)) == multiset(s) + multiset{x}
  {
    if |s| > 0 && !le(x, s[0]) {
      InsertPermutes(x, s[1..], le);
      assert s == [s[0]] + s[1..];
    }
  }

  /** The sorted list: a permutation of the input. */
  function SortBy<T>(s: seq<T>, le: (T, T) -> bool): (r: seq<T>)
    ensures multiset(r) == multiset(s)
    ensures |r| == |s|
  {
    if |s| == 0 then []
    else
      assert s == [s[0]] + s[1..];
      InsertPermutes(s[0], SortBy(s[1..], le), le);
      Insert(s[0], SortBy(s[1..], le), le)
  }

  lemma {:induction false} InsertSorted<T(!new)>(x: T, s: seq<T>, le: (T, T) -> bool)
    requires TotalPreorder(le)
    requires SortedBy(s, le)
    ensures SortedBy(Insert(x, s, le), le)
  {
    if |s| > 0 && !le(x, s[0]) {
      InsertSorted(x, s[1..], le);
      InsertPermutes(x, s[1..], le);
      var r := Insert(x, s, le);
      assert le(s[0], x);
      forall j | 0 < j < |r|
        ensures le(r[0], r[j])
      {
        assert r[j] in multiset(s[1..]) + multiset{x} by {
          assert r[j] in r[1..];
        }
      }
    }
  }

  /** The result is ordered by `le`. */
  lemma {:induction false} SortBySorted<T(!new)>(s: seq<T>, le: (T, T) -> bool)
    requires TotalPreorder(le)
    ensures SortedBy(SortBy(s, le), le)
  {
    if |s| > 0 {
      SortBySorted(s[1..], le);
      InsertSorted(s[0], SortBy(s[1..], le), le);
    }
  }

  /** Inserting `x` adds it to its own tie class at the front, and leaves
      every other tie class's filtered list as it was. */
  lemma {:induction false} InsertTies<T(!new)>(x: T, s: seq<T>, le: (T, T) -> bool, y: T)
    requires TotalPreorder(le)
    ensures Filter(Insert(x, s, le), TiedWith(le, y))
            == (if TiedWith(le, y)(x) then [x] else []) + Filter(s, TiedWith(le, y))
  {
    var tied := TiedWith(le, y);
    if |s| > 0 && !le(x, s[0]) {
      InsertTies(x, s[1..], le, y);
      if tied(x) {
        BelowNotTied(le, x, y, s[0]);
      }
      InsertBehind(x, s, le, tied);
    } else {
      InsertInFront(x, s, le, tied);
    }
  }

  /** The inductive step of `InsertTies`, for any test `p` that cannot hold
      of both `x` and the first element `x` goes behind. */
  lemma InsertBehind<T>(x: T, s: seq<T>, le: (T, T) -> bool, p: T -> bool)
    requires |s| > 0 && !le(x, s[0])
    requires p(x) ==> !p(s[0])
    requires Filter(Insert(x, s[1..], le), p) == (if p(x) then [x] else []) + Filter(s[1..], p)
    ensures Filter(Insert(x, s, le), p) == (if p(x) then [x] else []) + Filter(s, p)
  {
    var u := Insert(x, s, le);
    var hd := if p(s[0]) then [s[0]] else [];
    assert u[0] == s[0] && u[1..] == Insert(x, s[1..], le);
    assert Filter(u, p) == hd + Filter(u[1..], p);
    assert Filter(s, p) == hd + Filter(s[1..], p);
    SwapPastEmpty(hd, if p(x) then [x] else [], Filter(s[1..], p));
  }

  /** Two lists, one of them empty, can be put in either order. */
  lemma SwapPastEmpty<T>(a: seq<T>, b: seq<T>, c: seq<T>)
    requires a == [] || b == []
    ensures a + (b + c) == b + (a + c)
  {
    if a == [] {
      assert a + (b + c) == b + c;
    } else {
      assert b + (a + c) == a + c;
    }
  }

  lemma InsertInFront<T>(x: T, s: seq<T>, le: (T, T) -> bool, p: T -> bool)
    requires |s| == 0 || le(x, s[0])
    ensures Filter(Insert(x, s, le), p) == (if p(x) then [x] else []) + Filter(s, p)
  {
    assert Insert(x, s, le) == [x] + s;
    FilterAppend([x], s, p);
    FilterSingle(x, p);
  }

  /** An element the order puts strictly before `x` is not tied with `x`'s
      class. */
  lemma BelowNotTied<T(!new)>(le: (T, T) -> bool, x: T, y: T, z: T)
    requires TotalPreorder(le)
    requires TiedWith(le, y)(x) && !le(x, z)
    ensures !TiedWith(le, y)(z)
  {
  }

  /** Stability: the elements of any one tie class appear in the result in
      the same order as in the input. */
  lemma {:induction false} SortByStable<T(!new)>(s: seq<T>, le: (T, T) -> bool, y: T)
    requires TotalPreorder(le)
    ensures Filter(SortBy(s, le), TiedWith(le, y)) == Filter(s, TiedWith(le, y))
  {
    if |s| > 0 {
      SortByStable(s[1..], le, y);
      InsertTies(s[0], SortBy(s[1..], le), le, y);
    }
  }

  function SumOf<T>(s: seq<T>, f: T -> nat): nat
  {
    if |s| == 0 then 0 else f(s[0]) + SumOf(s[1..], f)
  }

  lemma {:induction false} InsertSum<T>(x: T, s: seq<T>, le: (T, T) -> bool, f: T -> nat)
    ensures SumOf(Insert(x, s, le), f) == f(x) + SumOf(s, f)
  {
    if |s| > 0 && !le(x, s[0]) {
      InsertSum(x, s[1..], le, f);
    }
  }

  /** Sorting does not change a sum over the elements. */
  lemma {:induction false} SortBySum<T>(s: seq<T>, le: (T, T) -> bool, f: T -> nat)
    ensures SumOf(SortBy(s, le), f) == SumOf(s, f)
  {
    if |s| > 0 {
      SortBySum(s[1..], le, f);
      InsertSum(s[0], SortBy(s[1..], le), le, f);
    }
  }

  /** A sum over a mapped list, when the summand only sees what the map keeps. */
  lemma {:induction false} SumOfMap<T, U>(s: seq<T>, h: T -> U, f: U -> nat, g: T -> nat)
    requires forall x :: f(h(x)) == g(x)
    ensures SumOf(Map(s, h), f) == SumOf(s, g)
  {
    if |s| > 0 {
      SumOfMap(s[1..], h, f, g);
      assert Map(s, h)[1..] == Map(s[1..], h);
    }
  }

  // ---------------------------------------------------------------------
  // Orders used by the application.
  // ---------------------------------------------------------------------

  /** Order by a key, under an order on keys. */
  function ByKeyWith<T, K>(key: T -> K, le: (K, K) -> bool): (T, T) -> bool
  {
    (a, b) => le(key(a), key(b))
  }

  lemma ByKeyWithTotal<T(!new), K(!new)>(key: T -> K, le: (K, K) -> bool)
    requires TotalPreorder(le)
    ensures TotalPreorder(ByKeyWith(key, le))
  {
    var o := ByKeyWith(key, le);
    forall a, b, c | o(a, b) && o(b, c)
      ensures o(a, c)
    {
      assert le(key(a), key(b)) && le(key(b), key(c));
    }
    forall a, b
      ensures o(a, b) || o(b, a)
    {
      assert le(key(a), key(b)) || le(key(b), key(a));
    }
  }

  /** `a <= b` on strings. */
  function StringLe(a: string, b: string): bool
  {
    !LexLess(b, a)
  }

  lemma StringLeTotal()
    ensures TotalPreorder(StringLe)
  {
    forall a, b
      ensures StringLe(a, b) || StringLe(b, a)
    {
      LexLessAsymmetric(a, b);
    }
    forall a, b, c | StringLe(a, b) && StringLe(b, c)
      ensures StringLe(a, c)
    {
      LexLessTotal(a, b);
      LexLessTotal(b, c);
      LexLessTransitive(c, b, a);
      LexLessTransitive(c, a, b);
      LexLessTransitive(b, c, a);
    }
  }

  /** Ascending order of a string key, as `key(a).localeCompare(key(b))`
      orders strings of digits and fixed separators. */
  function ByKey<T>(key: T -> string): (T, T) -> bool
  {
    ByKeyWith(key, StringLe)
  }

  lemma ByKeyTotal<T(!new)>(key: T -> string)
    ensures TotalPreorder(ByKey(key))
  {
    StringLeTotal();
    ByKeyWithTotal(key, StringLe);
  }
}

=== FILE: strings.dfy ===
/** String primitives that the application borrows from JavaScript: the `<`
    operator on strings, `trim`, `toLowerCase`, substring search and the
    decimal rendering of small numbers. */
module Strings {

  /** JavaScript's `a < b` on strings: lexicographic by character, where a
      proper prefix sorts before the longer string. `a > b` is `LexLess(b, a)`
      and `a <= b` is `!LexLess(b, a)`. */
  predicate LexLess(a: string, b: string)
  {
    if |b| == 0 then false
    else if |a| == 0 then true
    else if a[0] != b[0] then a[0] < b[0]
    else LexLess(a[1..], b[1..])
  }

  lemma {:induction false} LexLessIrreflexive(a: string)
    ensures !LexLess(a, a)
  {
    if |a| > 0 {
      LexLessIrreflexive(a[1..]);
    }
  }

  lemma {:induction false} LexLessAsymmetric(a: string, b: string)
    ensures LexLess(a, b) ==> !LexLess(b, a)
  {
    if |a| > 0 && |b| > 0 && a[0] == b[0] {
      LexLessAsymmetric(a[1..], b[1..]);
    }
  }

  lemma {:induction false} LexLessTransitive(a: string, b: string, c: string)
    ensures LexLess(a, b) && LexLess(b, c) ==> LexLess(a, c)
  {
    if |a| > 0 && |b| > 0 && |c| > 0 && a[0] == b[0] && b[0] == c[0] {
      LexLessTransitive(a[1..], b[1..], c[1..]);
    }
  }

  /** Any two strings are equal or ordered one way or the other. */
  lemma {:induction false} LexLessTotal(a: string, b: string)
    ensures a == b || LexLess(a, b) || LexLess(b, a)
  {
    if |a| > 0 && |b| > 0 && a[0] == b[0] {
      LexLessTotal(a[1..], b[1..]);
      if a[1..] == b[1..] {
        assert a == [a[0]] + a[1..] && b == [b[0]] + b[1..];
      }
    }
  }

  /** Comparing two concatenations whose first parts have equal length
      compares the first parts, and only on a tie the second parts. */
  lemma {:induction false} LexLessAppend(x: string, y: string, x': string, y': string)
    requires |x| == |x'|
    ensures LexLess(x + y, x' + y') <==> LexLess(x, x') || (x == x' && LexLess(y, y'))
  {
    if |x| == 0 {
      assert x + y == y && x' + y' == y';
    } else {
      assert (x + y)[0] == x[0] && (x' + y')[0] == x'[0];
      assert (x + y)[1..] == x[1..] + y && (x' + y')[1..] == x'[1..] + y';
      LexLessAppend(x[1..], y, x'[1..], y');
      if x[0] == x'[0] {
        assert x == x' <==> x[1..] == x'[1..] by {
          assert x == [x[0]] + x[1..] && x' == [x'[0]] + x'[1..];
        }
      }
    }
  }

  predicate IsDigit(c: char)
  {
    '0' <= c <= '9'
  }

  function DigitValue(c: char): (v: nat)
    requires IsDigit(c)
    ensures v < 10
  {
    c as int - '0' as int
  }

  function DigitChar(d: nat): (c: char)
    requires d < 10
    ensures IsDigit(c) && DigitValue(c) == d
  {
    ('0' as int + d) as char
  }

  predicate AllDigits(s: string)
  {
    forall i :: 0 <= i < |s| ==> IsDigit(s[i])
  }

  /** `String(n)` for a non-negative integer: its decimal digits, no leading zero. */
  function NatToString(n: nat): (r: string)
    ensures 1 <= |r|
    ensures AllDigits(r)
    ensures n < 10 <==> |r| == 1
    ensures |r| == 1 ==> r == [DigitChar(n)]
    decreases n
  {
    if n < 10 then [DigitChar(n)] else NatToString(n / 10) + [DigitChar(n % 10)]
  }

  /** `String(n).padStart(2, '0')`: one-digit numbers get a leading zero,
      longer renderings are left as they are. */
  function PadTwo(n: nat): (r: string)
    ensures 2 <= |r|
    ensures AllDigits(r)
    ensures n < 100 ==> |r| == 2 && DigitValue(r[0]) * 10 + DigitValue(r[1]) == n
  {
    var digits := NatToString(n);
    if |digits| >= 2 then digits else ['0'] + digits
  }

  /** The characters JavaScript's `String.prototype.trim` removes: white space
      and line terminators. */
  predicate IsSpace(c: char)
  {
    || c == ' ' || c == '\t' || c == '\n' || c == '\r'
    || c == '\U{000B}' || c == '\U{000C}' || c == '\U{00A0}' || c == '\U{1680}'
    || ('\U{2000}' <= c <= '\U{200A}')
    || c == '\U{2028}' || c == '\U{2029}' || c == '\U{202F}' || c == '\U{205F}'
    || c == '\U{3000}' || c == '\U{FEFF}'
  }

  predicate AllSpace(s: string)
  {
    forall i :: 0 <= i < |s| ==> IsSpace(s[i])
  }

  /** The first index at or after `k` whose character is not white space,
      or `|s|` when there is none. */
  function SkipSpace(s: string, k: nat): (n: nat)
    requires k <= |s|
    ensures k <= n <= |s|
    ensures forall j :: k <= j < n ==> IsSpace(s[j])
    ensures n < |s| ==> !IsSpace(s[n])
    decreases |s| - k
  {
    if k < |s| && IsSpace(s[k]) then SkipSpace(s, k + 1) else k
  }

  /** The end of the text before `n` once the white space in front of `n`,
      down to `lo`, is cut off. */
  function SkipSpaceBack(s: string, lo: nat, n: nat): (m: nat)
    requires lo <= n <= |s|
    ensures lo <= m <= n
    ensures forall j :: m <= j < n ==> IsSpace(s[j])
    ensures m > lo ==> !IsSpace(s[m - 1])
    decreases n
  {
    if n > lo && IsSpace(s[n - 1]) then SkipSpaceBack(s, lo, n - 1) else n
  }

  /** `s.trim()`: `s` with the white space at both ends cut off. */
  function Trim(s: string): (r: string)
    ensures |r| <= |s|
    ensures |r| > 0 ==> !IsSpace(r[0]) && !IsSpace(r[|r| - 1])
  {
    var start := SkipSpace(s, 0);
    s[start..SkipSpaceBack(s, start, |s|)]
  }

  /** What trim removes is white space, and nothing else: the result is the
      part of `s` from the first non-space character on, with the trailing
      white space cut off. */
  lemma TrimIsInfix(s: string)
    ensures var i, r := SkipSpace(s, 0), Trim(s);
            && i + |r| <= |s|
            && (forall j :: 0 <= j < |r| ==> r[j] == s[i + j])
            && (forall j :: 0 <= j < |s| && (j < i || i + |r| <= j) ==> IsSpace(s[j]))
  {
    var i := SkipSpace(s, 0);
    var e := SkipSpaceBack(s, i, |s|);
    assert Trim(s) == s[i..e];
    forall j | 0 <= j < |s| && (j < i || e <= j)
      ensures IsSpace(s[j])
    {
    }
  }

  /** Trim leaves nothing exactly when the string is all white space. */
  lemma TrimEmptyIff(s: string)
    ensures Trim(s) == "" <==> AllSpace(s)
  {
    if AllSpace(s) {
      TrimAllSpace(s);
    }
    TrimIsInfix(s);
  }

  /** A string with no white space at either end is its own trim. */
  lemma TrimFixedPoint(s: string)
    requires |s| > 0 ==> !IsSpace(s[0]) && !IsSpace(s[|s| - 1])
    ensures Trim(s) == s
  {
  }

  /** Trimming an all-white-space string leaves nothing. */
  lemma TrimAllSpace(s: string)
    requires AllSpace(s)
    ensures Trim(s) == ""
  {
  }

  /** `c.toLowerCase()` on the ASCII letters; every other character is kept. */
  function LowerChar(c: char): char
  {
    if 'A' <= c <= 'Z' then (c as int - 'A' as int + 'a' as int) as char else c
  }

  function ToLower(s: string): (r: string)
    ensures |r| == |s|
    ensures forall i :: 0 <= i < |s| ==> r[i] == LowerChar(s[i])
  {
    if |s| == 0 then "" else [LowerChar(s[0])] + ToLower(s[1..])
  }

  /** Lower-casing only changes ASCII upper-case letters, so a string made of
      characters that are not ASCII letters is the lower case only of itself. */
  lemma ToLowerOfNonLetters(s: string, w: string)
    requires forall i :: 0 <= i < |w| ==> !('A' <= w[i] <= 'Z') && !('a' <= w[i] <= 'z')
    ensures ToLower(s) == w <==> s == w
  {
    if ToLower(s) == w {
      forall i | 0 <= i < |s|
        ensures s[i] == w[i]
      {
        assert LowerChar(s[i]) == w[i];
      }
    }
  }

  /** A string without ASCII upper-case letters is its own lower case. */
  lemma ToLowerNoUpper(w: string)
    requires forall i :: 0 <= i < |w| ==> !('A' <= w[i] <= 'Z')
    ensures ToLower(w) == w
  {
  }

  /** JavaScript's `length`: characters outside the basic multilingual plane
      take two UTF-16 code units (a surrogate pair), all others one. */
  function Utf16Length(s: string): nat
  {
    if |s| == 0 then 0
    else (if s[0] <= '\U{FFFF}' then 1 else 2) + Utf16Length(s[1..])
  }

  /** The UTF-16 length lies between the character count and twice it, and
      equals the character count exactly when every character is in the
      basic multilingual plane. */
  lemma {:induction false} Utf16LengthBounds(s: string)
    ensures |s| <= Utf16Length(s) <= 2 * |s|
    ensures Utf16Length(s) == |s| <==> forall i :: 0 <= i < |s| ==> s[i] <= '\U{FFFF}'
  {
    if |s| > 0 {
      Utf16LengthBounds(s[1..]);
      assert forall i :: 1 <= i < |s| ==> s[i] == s[1..][i - 1];
    }
  }

  predicate StartsWith(s: string, prefix: string)
  {
    |prefix| <= |s| && s[..|prefix|] == prefix
  }

  /** `s.includes(sub)`: `sub` occurs in `s` at some position. */
  predicate Contains(s: string, sub: string)
    decreases |s|
  {
    StartsWith(s, sub) || (|s| > 0 && Contains(s[1..], sub))
  }

  lemma {:induction false} ContainsAt(s: string, sub: string, i: nat)
    requires i + |sub| <= |s| && s[i..i + |sub|] == sub
    ensures Contains(s, sub)
    decreases i
  {
    if i > 0 {
      assert s[1..][i - 1..i - 1 + |sub|] == sub;
      ContainsAt(s[1..], sub, i - 1);
    }
  }

  /** `sub` occurs in `s` starting at position `i`. */
  predicate OccursAt(s: string, sub: string, i: nat)
  {
    i + |sub| <= |s| && s[i..i + |sub|] == sub
  }

  /** `Contains` is the usual "occurs at some position". */
  lemma {:induction false} ContainsIff(s: string, sub: string)
    ensures Contains(s, sub) <==> exists i: nat :: OccursAt(s, sub, i)
    decreases |s|
  {
    if exists i: nat :: OccursAt(s, sub, i) {
      var i: nat :| OccursAt(s, sub, i);
      ContainsAt(s, sub, i);
    }
    if Contains(s, sub) {
      if StartsWith(s, sub) {
        assert OccursAt(s, sub, 0);
      } else {
        ContainsIff(s[1..], sub);
        var j: nat :| OccursAt(s[1..], sub, j);
        assert s[1..][j..j + |sub|] == s[j + 1..j + 1 + |sub|];
        assert OccursAt(s, sub, j + 1);
      }
    }
  }

  /** A string none of whose characters starts `sub` does not contain it. */
  lemma FirstCharAbsent(s: string, sub: string)
    requires |sub| > 0
    requires forall i :: 0 <= i < |s| ==> s[i] != sub[0]
    ensures !Contains(s, sub)
  {
    ContainsIff(s, sub);
    forall i: nat
      ensures !OccursAt(s, sub, i)
    {
      if i + |sub| <= |s| {
        assert s[i..i + |sub|][0] == s[i];
      }
    }
  }

  /** A JavaScript regular expression `/sub/i` with a plain ASCII pattern:
      `sub` occurs in `s` ignoring ASCII case. */
  predicate ContainsIgnoreCase(s: string, sub: string)
  {
    Contains(ToLower(s), ToLower(sub))
  }
}

=== FILE: time_slots.dfy ===
/** The half-hour slot grid of the booking forms and the interval overlap
    test (`generateTimeSlots` and `isOverlapping` in `src/lib/utils.ts`). */
module TimeSlots {
  import opened Strings
  import opened Clock
  import opened Seqs

  /** One entry of the time pickers: `caption` (the source's `label`) is `HH:MM`, `value` is `HH:MM:SS`. */
  datatype Slot = Slot(caption: string, value: string)

  /** An hour and a minute of the grid. */
  datatype HourMinute = HourMinute(hour: nat, minute: nat)

  function MinuteOfDay(t: HourMinute): nat
  {
    60 * t.hour + t.minute
  }

  /** The slot for hour `h` and minute `m`: both zero-padded to two digits. */
  function SlotAt(t: HourMinute): Slot
  {
    var hm := PadTwo(t.hour) + ":" + PadTwo(t.minute);
    Slot(hm, hm + ":00")
  }

  /** The inner loop of `generateTimeSlots` from minute `m` on: minutes below
      60 in steps of `step`, and at `endHour` only minute 0 (the `break`). */
  function MinutesFrom(h: nat, endHour: nat, m: nat, step: nat): seq<HourMinute>
    requires step > 0
    decreases 60 - m
  {
    if m >= 60 then []
    else if h == endHour && m > 0 then []
    else [HourMinute(h, m)] + MinutesFrom(h, endHour, m + step, step)
  }

  /** The outer loop from hour `h` on, up to and including `endHour`. */
  function HoursFrom(h: nat, endHour: nat, step: nat): seq<HourMinute>
    requires step > 0
    decreases endHour + 1 - h
  {
    if h > endHour then []
    else MinutesFrom(h, endHour, 0, step) + HoursFrom(h + 1, endHour, step)
  }

  /** The times `generateTimeSlots(startHour, endHour, stepMinutes)` visits. */
  function GridTimes(startHour: nat, endHour: nat, step: nat): seq<HourMinute>
    requires step > 0
  {
    HoursFrom(startHour, endHour, step)
  }

  /** `generateTimeSlots(startHour, endHour, stepMinutes)`. */
  function GenerateTimeSlots(startHour: nat, endHour: nat, step: nat): seq<Slot>
    requires step > 0
  {
    Map(GridTimes(startHour, endHour, step), SlotAt)
  }

  /** `d` is reached from 0 by adding `step` some number of times. */
  predicate IsMultiple(d: nat, step: nat)
    requires step > 0
    decreases d
  {
    d == 0 || (d >= step && IsMultiple(d - step, step))
  }

  /** A time belongs to the grid from `startHour` to `endHour`. */
  predicate OnGrid(t: HourMinute, startHour: nat, endHour: nat, step: nat)
    requires step > 0
  {
    && startHour <= t.hour <= endHour
    && t.minute < 60
    && IsMultiple(t.minute, step)
    && (t.hour == endHour ==> t.minute == 0)
  }

  predicate StrictlyIncreasing(ts: seq<HourMinute>)
  {
    forall i, j :: 0 <= i < j < |ts| ==> MinuteOfDay(ts[i]) < MinuteOfDay(ts[j])
  }

  // ---------------------------------------------------------------------
  // The grid's contents.
  // ---------------------------------------------------------------------

  lemma {:induction false} MinutesFromMembers(h: nat, endHour: nat, m: nat, step: nat, t: HourMinute)
    requires step > 0
    ensures t in MinutesFrom(h, endHour, m, step) <==>
              && t.hour == h && m <= t.minute < 60
              && IsMultiple(t.minute - m, step)
              && (h == endHour ==> t.minute == 0)
    decreases 60 - m
  {
    if m < 60 && !(h == endHour && m > 0) {
      MinutesFromMembers(h, endHour, m + step, step, t);
      if t.hour == h && m < t.minute {
        // a positive distance to m is a multiple iff the distance to m + step is
        assert IsMultiple(t.minute - m, step) <==> t.minute >= m + step && IsMultiple(t.minute - (m + step), step);
      }
    }
  }

  lemma {:induction false} HoursFromMembers(h: nat, endHour: nat, step: nat, t: HourMinute)
    requires step > 0
    ensures t in HoursFrom(h, endHour, step) <==> OnGrid(t, h, endHour, step)
    decreases endHour + 1 - h
  {
    if h <= endHour {
      var a, b := MinutesFrom(h, endHour, 0, step), HoursFrom(h + 1, endHour, step);
      MinutesFromMembers(h, endHour, 0, step, t);
      HoursFromMembers(h + 1, endHour, step, t);
      HourThenLater(HoursFrom(h, endHour, step), a, b, h, endHour, step, t);
    } else {
      NoHoursAfter(h, endHour, step, t);
    }
  }

  /** Past the last hour the grid is empty, and no time is on it. */
  lemma NoHoursAfter(h: nat, endHour: nat, step: nat, t: HourMinute)
    requires step > 0 && endHour < h
    ensures t !in HoursFrom(h, endHour, step) && !OnGrid(t, h, endHour, step)
  {
  }

  /** The on-grid times from hour `h` are those of hour `h` and those from
      hour `h + 1`. */
  lemma HourThenLater(g: seq<HourMinute>, a: seq<HourMinute>, b: seq<HourMinute>, h: nat, endHour: nat, step: nat, t: HourMinute)
    requires step > 0 && h <= endHour && g == a + b
    requires t in a <==> t.hour == h && 0 <= t.minute < 60 && IsMultiple(t.minute - 0, step) && (h == endHour ==> t.minute == 0)
    requires t in b <==> OnGrid(t, h + 1, endHour, step)
    ensures t in g <==> OnGrid(t, h, endHour, step)
  {
    assert t in a + b <==> t in a || t in b;
  }

  /** The grid holds exactly the on-grid times: from `startHour` through
      `endHour`, minutes below 60 that are multiples of the step, and only
      minute 0 of the last hour. */
  lemma GridMembers(startHour: nat, endHour: nat, step: nat, t: HourMinute)
    requires step > 0
    ensures t in GridTimes(startHour, endHour, step) <==> OnGrid(t, startHour, endHour, step)
  {
    HoursFromMembers(startHour, endHour, step, t);
  }

  // ---------------------------------------------------------------------
  // Order: the grid is strictly increasing.
  // ---------------------------------------------------------------------

  lemma ConcatIncreasing(a: seq<HourMinute>, b: seq<HourMinute>)
    requires StrictlyIncreasing(a) && StrictlyIncreasing(b)
    requires forall i, j :: 0 <= i < |a| && 0 <= j < |b| ==> MinuteOfDay(a[i]) < MinuteOfDay(b[j])
    ensures StrictlyIncreasing(a + b)
  {
    var c := a + b;
    forall i, j | 0 <= i < j < |c|
      ensures MinuteOfDay(c[i]) < MinuteOfDay(c[j])
    {
      if j < |a| {
        assert c[i] == a[i] && c[j] == a[j];
      } else if i >= |a| {
        assert c[i] == b[i - |a|] && c[j] == b[j - |a|];
      } else {
        assert c[i] == a[i] && c[j] == b[j - |a|];
      }
    }
  }

  lemma {:induction false} MinutesFromIncreasing(h: nat, endHour: nat, m: nat, step: nat)
    requires step > 0
    ensures StrictlyIncreasing(MinutesFrom(h, endHour, m, step))
    ensures forall t :: t in MinutesFrom(h, endHour, m, step) ==> t.hour == h && m <= t.minute < 60
    decreases 60 - m
  {
    if m < 60 && !(h == endHour && m > 0) {
      MinutesFromIncreasing(h, endHour, m + step, step);
      var rest := MinutesFrom(h, endHour, m + step, step);
      ConcatIncreasing([HourMinute(h, m)], rest);
    }
  }

  lemma {:induction false} HoursFromIncreasing(h: nat, endHour: nat, step: nat)
    requires step > 0
    ensures StrictlyIncreasing(HoursFrom(h, endHour, step))
    ensures forall t :: t in HoursFrom(h, endHour, step) ==> h <= t.hour && t.minute < 60
    decreases endHour + 1 - h
  {
    if h <= endHour {
      MinutesFromIncreasing(h, endHour, 0, step);
      HoursFromIncreasing(h + 1, endHour, step);
      var a, b := MinutesFrom(h, endHour, 0, step), HoursFrom(h + 1, endHour, step);
      HourThenLaterIncreasing(HoursFrom(h, endHour, step), a, b, h);
    } else {
      NoHoursAfterEnd(h, endHour, step);
    }
  }

  /** An increasing hour followed by increasing later hours is increasing. */
  lemma HourThenLaterIncreasing(g: seq<HourMinute>, a: seq<HourMinute>, b: seq<HourMinute>, h: nat)
    requires g == a + b
    requires StrictlyIncreasing(a) && StrictlyIncreasing(b)
    requires forall t :: t in a ==> t.hour == h && t.minute < 60
    requires forall t :: t in b ==> h + 1 <= t.hour && t.minute < 60
    ensures StrictlyIncreasing(g)
    ensures forall t :: t in g ==> h <= t.hour && t.minute < 60
  {
    HourBeforeLater(a, b, h);
    ConcatIncreasing(a, b);
    forall t | t in g
      ensures h <= t.hour && t.minute < 60
    {
      assert t in a || t in b;
    }
  }

  /** Every time of hour `h` comes before every time of a later hour. */
  lemma HourBeforeLater(a: seq<HourMinute>, b: seq<HourMinute>, h: nat)
    requires forall t :: t in a ==> t.hour == h && t.minute < 60
    requires forall t :: t in b ==> h + 1 <= t.hour
    ensures forall i, j :: 0 <= i < |a| && 0 <= j < |b| ==> MinuteOfDay(a[i]) < MinuteOfDay(b[j])
  {
    forall i, j | 0 <= i < |a| && 0 <= j < |b|
      ensures MinuteOfDay(a[i]) < MinuteOfDay(b[j])
    {
      var x, y := a[i], b[j];
      assert x in a;
      assert y in b;
    }
  }

  lemma NoHoursAfterEnd(h: nat, endHour: nat, step: nat)
    requires step > 0 && endHour < h
    ensures |HoursFrom(h, endHour, step)| == 0
  {
  }

  /** With a positive step the grid times strictly increase, so no time repeats. */
  lemma GridIncreasing(startHour: nat, endHour: nat, step: nat)
    requires step > 0
    ensures StrictlyIncreasing(GridTimes(startHour, endHour, step))
  {
    HoursFromIncreasing(startHour, endHour, step);
  }

  // ---------------------------------------------------------------------
  // Ends of the grid.
  // ---------------------------------------------------------------------

  lemma {:induction false} HoursFromLast(h: nat, endHour: nat, step: nat)
    requires step > 0 && h <= endHour
    ensures |HoursFrom(h, endHour, step)| > 0
    ensures HoursFrom(h, endHour, step)[|HoursFrom(h, endHour, step)| - 1] == HourMinute(endHour, 0)
    decreases endHour + 1 - h
  {
    if h < endHour {
      HoursFromLast(h + 1, endHour, step);
    } else {
      assert MinutesFrom(h, endHour, step, step) == [];
      assert HoursFrom(h + 1, endHour, step) == [];
    }
  }

  /** For `startHour <= endHour` the grid starts at `startHour:00`, ends at
      `endHour:00`, and no time of it lies after `endHour:00`. */
  lemma GridEnds(startHour: nat, endHour: nat, step: nat)
    requires step > 0 && startHour <= endHour
    ensures var g := GridTimes(startHour, endHour, step);
            && |g| > 0
            && g[0] == HourMinute(startHour, 0)
            && g[|g| - 1] == HourMinute(endHour, 0)
            && forall i :: 0 <= i < |g| ==> MinuteOfDay(g[i]) <= 60 * endHour
  {
    HoursFromFirst(startHour, endHour, step);
    HoursFromLast(startHour, endHour, step);
    GridNotPastEnd(startHour, endHour, step);
  }

  lemma HoursFromFirst(h: nat, endHour: nat, step: nat)
    requires step > 0 && h <= endHour
    ensures |HoursFrom(h, endHour, step)| > 0 && HoursFrom(h, endHour, step)[0] == HourMinute(h, 0)
  {
    var a := MinutesFrom(h, endHour, 0, step);
    assert a[0] == HourMinute(h, 0);
  }

  /** No grid time lies after the end hour. */
  lemma GridNotPastEnd(startHour: nat, endHour: nat, step: nat)
    requires step > 0
    ensures var g := GridTimes(startHour, endHour, step);
            forall i :: 0 <= i < |g| ==> MinuteOfDay(g[i]) <= 60 * endHour
  {
    var g := GridTimes(startHour, endHour, step);
    forall i | 0 <= i < |g|
      ensures MinuteOfDay(g[i]) <= 60 * endHour
    {
      GridMembers(startHour, endHour, step, g[i]);
    }
  }

  // ---------------------------------------------------------------------
  // The slot strings.
  // ---------------------------------------------------------------------

  /** The time a slot value denotes, when the hour has at most two digits. */
  lemma SlotValueIsClock(t: HourMinute)
    requires t.hour < 100 && t.minute < 60
    ensures IsClock(SlotAt(t).value)
    ensures Seconds(SlotAt(t).value) == 60 * MinuteOfDay(t)
    ensures SlotAt(t).value[..5] == SlotAt(t).caption
  {
    var v := SlotAt(t).value;
    var hh, mm := PadTwo(t.hour), PadTwo(t.minute);
    assert v == hh + ":" + mm + ":00";
    assert v[0] == hh[0] && v[1] == hh[1] && v[3] == mm[0] && v[4] == mm[1];
    assert v[6] == '0' && v[7] == '0';
  }

  /** Every slot's value is its caption followed by `:00`; its caption is the
      zero-padded hour, a colon and the zero-padded minute. */
  lemma SlotShape(startHour: nat, endHour: nat, step: nat, i: nat)
    requires step > 0 && i < |GenerateTimeSlots(startHour, endHour, step)|
    ensures var s := GenerateTimeSlots(startHour, endHour, step)[i];
            var t := GridTimes(startHour, endHour, step)[i];
            && s.value == s.caption + ":00"
            && s.caption == PadTwo(t.hour) + ":" + PadTwo(t.minute)
            && (t.hour < 100 ==> |s.caption| == 5 && IsClock(s.value))
  {
    var t := GridTimes(startHour, endHour, step)[i];
    GridMembers(startHour, endHour, step, t);
    if t.hour < 100 {
      SlotValueIsClock(t);
    }
  }

  /** For hours below 100, the slot values strictly increase under the string
      `<` the booking forms use, so the pickers list no value twice. */
  lemma SlotValuesIncrease(startHour: nat, endHour: nat, step: nat)
    requires step > 0 && endHour < 100
    ensures var s := GenerateTimeSlots(startHour, endHour, step);
            forall i, j :: 0 <= i < j < |s| ==> LexLess(s[i].value, s[j].value)
  {
    var g := GridTimes(startHour, endHour, step);
    var s := GenerateTimeSlots(startHour, endHour, step);
    GridIncreasing(startHour, endHour, step);
    forall i, j | 0 <= i < j < |s|
      ensures LexLess(s[i].value, s[j].value)
    {
      GridMembers(startHour, endHour, step, g[i]);
      GridMembers(startHour, endHour, step, g[j]);
      SlotValueIsClock(g[i]);
      SlotValueIsClock(g[j]);
      LexLessIsTimeOrder(s[i].value, s[j].value);
    }
  }

  lemma {:induction false} HalfHoursFrom(h: nat)
    requires 9 <= h <= 18
    ensures |HoursFrom(h, 18, 30)| == 2 * (18 - h) + 1
    ensures forall k :: 0 <= k < |HoursFrom(h, 18, 30)| ==>
              HoursFrom(h, 18, 30)[k] == HourMinute(h + k / 2, 30 * (k % 2))
    decreases 18 - h
  {
    if h == 18 {
      assert MinutesFrom(18, 18, 30, 30) == [];
      assert HoursFrom(19, 18, 30) == [];
    } else {
      assert MinutesFrom(h, 18, 60, 30) == [];
      assert MinutesFrom(h, 18, 0, 30) == [HourMinute(h, 0), HourMinute(h, 30)];
      HalfHoursFrom(h + 1);
    }
  }

  /** The pickers' grid, `generateTimeSlots(9, 18, 30)`: 19 slots, 09:00
      through 18:00 every half hour. */
  lemma DefaultGrid()
    ensures var g := GridTimes(9, 18, 30);
            && |g| == 19
            && forall k :: 0 <= k < |g| ==> g[k] == HourMinute(9 + k / 2, 30 * (k % 2))
  {
    HalfHoursFrom(9);
  }

  /** The first and last values of the pickers' grid. */
  lemma DefaultGridEnds()
    ensures var s := GenerateTimeSlots(9, 18, 30);
            |s| == 19 && s[0].value == "09:00:00" && s[18].value == "18:00:00"
  {
    var g := GridTimes(9, 18, 30);
    DefaultGrid();
    assert g[0] == HourMinute(9, 0) && g[18] == HourMinute(18, 0);
    NineValue();
    EighteenValue();
  }

  lemma NineValue()
    ensures SlotAt(HourMinute(9, 0)).value == "09:00:00"
  {
    assert NatToString(9) == "9" && NatToString(0) == "0";
  }

  lemma EighteenValue()
    ensures SlotAt(HourMinute(18, 0)).value == "18:00:00"
  {
    assert NatToString(0) == "0" && NatToString(1) == "1";
    assert NatToString(18) == NatToString(1) + [DigitChar(8)];
  }

  // ---------------------------------------------------------------------
  // isOverlapping
  // ---------------------------------------------------------------------

  /** `isOverlapping(aStart, aEnd, bStart, bEnd)`: `aStart < bEnd && bStart < aEnd`
      under the string `<`. */
  predicate IsOverlapping(aStart: string, aEnd: string, bStart: string, bEnd: string)
  {
    LexLess(aStart, bEnd) && LexLess(bStart, aEnd)
  }

  /** The test does not depend on which interval comes first. */
  lemma OverlapSymmetric(aStart: string, aEnd: string, bStart: string, bEnd: string)
    ensures IsOverlapping(aStart, aEnd, bStart, bEnd) <==> IsOverlapping(bStart, bEnd, aStart, aEnd)
  {
  }

  /** Intervals are half-open: one that ends where the other starts does not overlap it. */
  lemma TouchingDoNotOverlap(aStart: string, aEnd: string, bEnd: string)
    ensures !IsOverlapping(aStart, aEnd, aEnd, bEnd)
    ensures !IsOverlapping(aEnd, bEnd, aStart, aEnd)
  {
    LexLessIrreflexive(aEnd);
  }

  /** On well-formed `HH:MM:SS` strings the test is the integer interval
      intersection test on seconds after midnight. */
  lemma OverlapIsNumeric(aStart: string, aEnd: string, bStart: string, bEnd: string)
    requires IsClock(aStart) && IsClock(aEnd) && IsClock(bStart) && IsClock(bEnd)
    ensures IsOverlapping(aStart, aEnd, bStart, bEnd)
            <==> Seconds(aStart) < Seconds(bEnd) && Seconds(bStart) < Seconds(aEnd)
  {
    LexLessIsTimeOrder(aStart, bEnd);
    LexLessIsTimeOrder(bStart, aEnd);
  }

  /** For two non-empty intervals the test holds exactly when some second
      lies in both half-open intervals. */
  lemma OverlapIsSharedSecond(aStart: string, aEnd: string, bStart: string, bEnd: string)
    requires IsClock(aStart) && IsClock(aEnd) && IsClock(bStart) && IsClock(bEnd)
    requires Seconds(aStart) < Seconds(aEnd) && Seconds(bStart) < Seconds(bEnd)
    ensures IsOverlapping(aStart, aEnd, bStart, bEnd)
            <==> exists s :: Within(s, Seconds(aStart), Seconds(aEnd)) && Within(s, Seconds(bStart), Seconds(bEnd))
  {
    OverlapIsNumeric(aStart, aEnd, bStart, bEnd);
    if IsOverlapping(aStart, aEnd, bStart, bEnd) {
      var s := if Seconds(aStart) < Seconds(bStart) then Seconds(bStart) else Seconds(aStart);
      assert Within(s, Seconds(aStart), Seconds(aEnd)) && Within(s, Seconds(bStart), Seconds(bEnd));
    }
  }

  /** `lo <= x < hi`: `x` lies in the half-open interval from `lo` to `hi`. */
  predicate Within(x: int, lo: int, hi: int)
  {
    lo <= x < hi
  }

  /** The test is only meant for non-empty intervals: a zero-length interval
      strictly inside another is still reported as overlapping it. */
  lemma EmptyIntervalInsideOverlaps()
    ensures IsOverlapping("10:00:00", "10:00:00", "09:00:00", "11:00:00")
  {
  }
}

=== FILE: wrappers.dfy ===
/** The optional-value datatype used throughout the model for JavaScript's
    `null` / `undefined` and for "the key is not in the map". */
module Wrappers {

  datatype Option<+T> = None | Some(value: T) {

    /** `x ?? fallback`: the value when present, otherwise the fallback. */
    function GetOr(fallback: T): T {
      match this
      case Some(v) => v
      case None => fallback
    }

    /** `x ?? y` where both sides may be missing. */
    function OrElse(other: Option<T>): Option<T> {
      match this
      case Some(_) => this
      case None => other
    }
  }

  /** A JavaScript-truthy string: present and non-empty. */
  predicate Present(o: Option<string>)
  {
    o.Some? && o.value != ""
  }
}
